=== FILE: README.md ===
# collector-api table requests, password hashes and caller privileges in Dafny

This project models the query-building core of the collector API. An HTTP
request for a database table turns into a gorm query:

- a table request (`db/table.go`) and its older variant (`db_table.go`)
  parse the `props`, `groupby` and `orderby` specifiers;
- they turn the `filters` strings into `WHERE`/`NOT` conditions;
- they join the tables they need along a fixed edge list, following
  declared multi-hop routes;
- they restrict the rows to what the caller may see (read grants) or change
  (write grants), unless the caller is a `Manager`;
- finally they order and page the result.

Around that core, the project also models:

- the web2py password-hash check (`w2pcrypt/main.go`);
- the caller-privilege helpers (`authuser/main.go`);
- the `pager` middleware with its `page` lookup (`pager.go`).

The gorm handle is a value `QueryState(joined, clauses)`:

- `clauses` are the clauses appended to the query, in order (`Joins`,
  `Where`, `Not`, `Group`, `Order`, `Offset`, `Limit`);
- `joined` is the set of edge keys the request has recorded.

Every mutating method of the two request types is specified by a pure
function over that value. Each method keeps the invariant `Consistent`: the
number of recorded keys equals the number of `LEFT JOIN` clauses. The state
the two request types share (table, edge list, routes, recorded keys,
clauses) lives in the class `QueryBuilder.Builder`. The class
`TableRequest.Request` adds the four option flags and the valid-filter
count. The class `LegacyTable.LegacyRequest` adds nothing. Each holds its
builder as `tx`.

Modules and files:

| file | module | models |
|---|---|---|
| strs.dfy | Strs | Go's string `<`, `strings.TrimLeft`, `SplitN`, `Split`, `Join` |
| numbers.dfy | Numbers | `strconv.Atoi` on 64-bit `int`, and a decimal printer as its inverse |
| sql.dfy | Sql | the clauses of a gorm query and the join-count invariant |
| properties.dfy | Properties | `property`, `parseProperty`, `parsePropSlice` and the property renderings |
| joins.dfy | JoinGraph | the edge list, `genKey`, `findJoin`, `getHops` and the `AutoJoin` walk |
| routes.dfy | RouteFacts | facts about the two concrete route tables |
| filters.dfy | Filters | the `reFilter` expression and the clause each match becomes |
| builder.dfy | QueryBuilder | the shared request state and its mutators |
| acl.dfy | Acl | the two-join, two-condition row scope of the ACL methods |
| params.dfy | Params, Pager | the query-string helpers, `pager` and `page` |
| request.dfy | TableRequest | the current request: options, `withACL`, `withFilters`, `withPaging` and `TX` |
| legacy.dfy | LegacyTable | the older request of `db_table.go` |
| avail.dfy | AvailProps | `availProps`, as written and as intended |
| authuser.dfy | AuthUser | `IsManager`, `HasPrivilege`, `Privileges` and `IsNode` |
| w2pcrypt.dfy | W2pCrypt | `Crypt.IsEqual` and `guessAlg` |

Where the code departs from what its comments and names suggest, the model
follows the code. The places are:

- **The reverse branch of `getHops` is unreachable** (`db/table.go:402-418`).
  - `genKey` orders its arguments, so the key of `(to, from)` equals the key
    of `(from, to)`, which was already tested.
  - So a route declared as `A→B` also answers `B→A` with its forward `via`
    list. The reversed path is never produced (`JoinGraph.GetHopsForward`).
  - In the current route table, for each of the eight routes with two or
    more `via` tables, walking the forward list from `B` fails at the first
    hop. Example: `AutoJoin("tags")` on `auth_membership` adds no join at
    all (`RouteFacts.ReverseMultiHopJoinsNothing`).
  - For the nine routes with a single `via` table the list reads the same
    both ways, so the walk from `B` succeeds: for `tags→nodes` via
    `node_tags`, the walk from `nodes` joins `node_tags`, then `tags`.
- **The `IN` upgrade never fires** (`db/table.go:315`).
  - The test `op == " "` runs after `" "` has already been mapped to
    `LIKE`.
  - A filter `col (a,b)` therefore becomes `col LIKE ?`
    (`Filters.SqlOp` never returns `IN`).
- **`>=` is never captured** (`db/table.go:73`).
  - The alternation tries `>` before `>=`.
  - So `a>=5` reads as column `a`, operator `>`, value `=5`
    (`Filters.GreaterEqualSplits`).
- **A bare `<` is not an operator** (`db/table.go:73`).
  - `a<5` matches nothing and the filter is dropped
    (`Filters.LessThanIgnored`).
- **One legacy route has no joining edge** (`db_table.go:94`).
  - The legacy route `svc_tags → apps_publications` goes via `services`
    only.
  - There is no edge `services`–`apps_publications`, so the walk stops after
    joining `services` (`RouteFacts.LegacyPublicationsGap`).
  - Every other declared route, current or legacy, has an edge for each hop
    (`RouteFacts.CurrentRoutesConnected`, `RouteFacts.LegacyRoutesConnected`).
- **Two legacy routes to `apps` run past it** (`db_table.go:87`,
  `db_table.go:93`).
  - The routes `node_tags → apps` and `svc_tags → apps` list `apps` and then
    `apps_publications` in their `via`, so with the target appended the hops
    are, for the first, `nodes`, `apps`, `apps_publications`, `apps`
    (`RouteFacts.LegacyAppsHops`).
  - A legacy `AutoJoin("apps")` from either table therefore also LEFT JOINs
    `apps_publications`; the way back to `apps` reuses a recorded edge
    (`RouteFacts.LegacyNodeTagsApps`, `RouteFacts.LegacySvcTagsApps`).
- **The legacy `withACL` always scopes the rows** (`db_table.go:330-344`).
  - It has no `Manager` test, and no option can switch it off
    (`LegacyTable.LegacyAclAlwaysScopes`).

## Model

| member | source | states |
|---|---|---|
| Strs.Less | db/table.go:166 | definition, no contract; Go's byte-wise `<` on strings, as a lexicographic order (properties in `LessTrichotomy`) |
| Strs.Join | db/table.go:450-460 | definition, no contract; `strings.Join`; `JoinSplit` and `SplitJoin` relate it to `Split` |
| Strs.IndexOf | db/table.go:199-204 | the first occurrence of the separator that `SplitN` cuts at, and none exactly when the separator is absent |
| Strs.LessTrichotomy | db/table.go:165-171 | the byte-wise string order `genKey` compares with is irreflexive and asymmetric, and orders any two distinct strings one way or the other |
| Strs.LessFromTrichotomy | db/table.go:165-171 | the same order, from a common prefix onwards (the inductive step) |
| Strs.TrimLeft | db/table.go:191-194 | the result is a suffix of the input that no longer starts with the cut character, and everything removed was that character |
| Strs.SplitN | db/table.go:199-214 | `SplitN(s, c, n)` yields between 1 and `n` pieces |
| Strs.SplitNPieces | db/table.go:199-214 | every piece but the last is free of the separator, and the last one is too when fewer than `n` pieces came out |
| Strs.SplitNAfter | db/table.go:199-204 | a string whose first separator follows `a` splits into `a`, then the split of the rest with one piece fewer |
| Strs.SplitAtFirst | db/table.go:199-204 | a two-way split cuts at the first separator |
| Strs.JoinSplitN | db/table.go:199-214 | joining the pieces of `SplitN` with the separator gives back the input: the split loses nothing |
| Strs.Split | db/table.go:688-697 | `strings.Split` yields at least one piece, and no piece holds the separator |
| Strs.JoinSplit | db/table.go:688-697 | joining the pieces of `Split` gives back the input |
| Strs.SplitAfter | db/table.go:688-697 | a leading separator-free piece is split off first |
| Strs.SplitJoin | db/table.go:688-697 | splitting the join of separator-free pieces gives the pieces back |
| Numbers.Itoa | db/table.go:649-659 | definition, no contract; a decimal printer, the reference inverse of `Atoi` (`AtoiItoa`) |
| Numbers.Atoi | db/table.go:649-659 | `strconv.Atoi` succeeds only within the 64-bit range, fails on the empty string, and accepts only digits after an optional sign |
| Numbers.NatDigits | db/table.go:649-659 | the decimal rendering of a natural number is a non-empty digit string |
| Numbers.NatDigitsValue | db/table.go:649-659 | reading the rendered digits gives the number back |
| Numbers.AtoiItoa | db/table.go:649-659 | `Atoi` parses every 64-bit integer back from its decimal form, sign included |
| Sql.JoinCountAppend | db/table.go:57-67 | the number of `LEFT JOIN` clauses is additive over appended clause lists |
| Sql.AppendNonJoins | db/table.go:57-67 | appending clauses that are not joins keeps the recorded keys and the joins in step |
| Sql.NoJoins | db/table.go:57-67 | a clause list without joins counts zero joins |
| Properties.Property.String | db/table.go:256-261 | definition, no contract; `table.name`, or `name` without a table (`ParseStringRoundTrip`) |
| Properties.Property.SQL | db/table.go:249-254 | definition, no contract; the back-quoted column, with its table when there is one (`SQLEndsWithQuote`) |
| Properties.Property.SQLWithOrder | db/table.go:241-247 | definition, no contract; the SQL column followed by ` DESC` for a descending property (`OrderTermDescending`) |
| Properties.ParseProperty | db/table.go:187-216 | definition, no contract; the `~` marker, the `:alias` and the `table.` prefix cut off in that order; its behaviour is stated by `ParseDescending`, `ParseSpecRoundTrip`, `ParseStringRoundTrip` and `ParseBareColumn` |
| Properties.Specifiers | db/table.go:688-697 | definition, no contract; the comma-separated pieces with the empty ones dropped (`SpecifiersOfJoin`, `SpecifiersNeverEmpty`) |
| Properties.ParseDescending | db/table.go:187-197 | a property is descending exactly when its specifier starts with `~`; a specifier that is empty once its leading `~`s are cut gives an empty property, descending or not as it began |
| Properties.SplitAlias | db/table.go:199-204 | `core:alias` splits into core and alias, and a core without alias stays whole |
| Properties.ParseSpecRoundTrip | db/table.go:187-216 | parsing the full specifier `[~]table.name[:alias]` of a property gives that property back |
| Properties.ParseStringRoundTrip | db/table.go:256-261 | parsing `table.name` gives back the table and the name, with no alias and ascending order |
| Properties.ParseBareColumn | db/table.go:206-214 | a specifier without a dot names a column of the request's own table |
| Properties.NonEmpty | db/table.go:688-697 | the empty pieces are dropped, and every kept piece is one of the input pieces; `NonEmptyKeepsAll` and `NonEmptyAppend` add that every non-empty piece is kept, in order |
| Properties.NonEmptyAppend | db/table.go:688-697 | dropping empty pieces commutes with concatenation, so the kept pieces keep their order |
| Properties.NonEmptyKeepsAll | db/table.go:688-697 | every non-empty piece is kept, and nothing else is |
| Properties.ParseAll | db/table.go:688-697 | one property per non-empty specifier |
| Properties.ParseAllAt | db/table.go:688-697 | the k-th property is the parse of the k-th specifier |
| Properties.ParsePropSlice | db/table.go:688-697 | the loop returns exactly the parse of each non-empty comma-separated specifier, in order |
| Properties.ParseSliceStep | db/table.go:688-697 | one loop step appends the parse of the piece, or nothing for an empty piece |
| Properties.NonEmptyOfNonEmpty | db/table.go:688-697 | when no piece is empty, nothing is dropped |
| Properties.SpecifiersOfJoin | db/table.go:688-697 | comma-joining non-empty, comma-free specifiers and splitting them again gives them back |
| Properties.SpecifiersNeverEmpty | db/table.go:688-697 | no specifier handed to `parseProperty` is empty or holds a comma |
| Params.Get | db/table.go:651 | definition, no contract; `url.Values.Get`: the first value of a key, or `""` |
| Params.IntParam | db/table.go:649-671 | definition, no contract; the parsed parameter, or the default when it is empty or does not parse (`IntParamItoa`, `QueryDefaults`) |
| Params.QueryFilters | db/table.go:642-647 | definition, no contract; every `filters` value, in order, or none |
| Params.QueryLimit | db/table.go:649-659 | definition, no contract; the `limit` parameter, 20 by default (`QueryLimitItoa`, `QueryDefaults`) |
| Params.QueryOffset | db/table.go:661-671 | definition, no contract; the `offset` parameter, 0 by default (`QueryDefaults`) |
| Params.QueryProps | db/table.go:673-676 | definition, no contract; the `props` parameter parsed against the table (`QueryPropsOfJoin`) |
| Params.QueryGroups | db/table.go:678-681 | definition, no contract; the `groupby` parameter parsed against the table |
| Params.QueryOrders | db/table.go:683-686 | definition, no contract; the `orderby` parameter parsed against the table |
| Params.QueryMeta | db/table.go:633-640 | definition, no contract; metadata off for the four spellings of false (`QueryMetaDefault`, `QueryMetaFirstValue`, `QueryMetaOff`) |
| Params.QueryMetaDefault | db/table.go:633-640 | metadata is on without a `meta` parameter, with an empty list, or with an empty first value |
| Params.QueryMetaFirstValue | db/table.go:633-640 | only the first `meta` value decides; later values are ignored |
| Params.QueryMetaOff | db/table.go:633-640 | metadata is off only for `f`, `F`, `false` and `0`; other spellings such as `no` or `False` leave it on |
| Params.QueryPropsOfJoin | db/table.go:673-697 | `props=a,b,…` parses to the properties of `a`, `b`, … in order |
| Params.IntParamItoa | db/table.go:649-671 | an integer parameter reads back any 64-bit integer written in decimal |
| Params.QueryLimitItoa | db/table.go:649-659 | `limit=n` gives limit `n` |
| Params.QueryDefaults | db/table.go:649-671 | a missing or unparsable `limit` gives 20, and a missing or unparsable `offset` gives 0 |
| Pager.PagerContext | pager.go:16-39 | definition, no contract; the context handed on, with the parsed `limit` and `offset` stored (`PageAfterPager`) |
| Pager.IntOrZero | pager.go:44-45 | definition, no contract; the `.(int)` assertion with its result ignored: the stored `int`, or 0 when the key is absent or holds another type (`PageAfterPager`, `PageWithoutPager`) |
| Pager.Page | pager.go:42-46 | definition, no contract; the offset and limit read back from the context, 0 where absent or not an `int` (`PageWithoutPager`) |
| Pager.PageAfterPager | pager.go:16-46 | behind the `pager` middleware, `page` returns the same offset and limit as the request's own query helpers |
| Pager.PageWithoutPager | pager.go:42-46 | without the middleware, `page` returns offset 0 and limit 0 |
| AuthUser.Values | authuser/main.go:21 | definition, no contract; the list under an extension key, empty when absent |
| AuthUser.Privileges | authuser/main.go:33-35 | definition, no contract; the `privileges` extension |
| AuthUser.IsNode | authuser/main.go:41-43 | definition, no contract; the caller carries a `node_id` extension |
| AuthUser.Granted | authuser/main.go:20-31 | definition, no contract; `Manager` or the asked privilege is in the list; the scan `HasPrivilege` is proved equal to it |
| AuthUser.HasPrivilege | authuser/main.go:20-31 | the scan answers true exactly when the privileges hold `Manager` or the asked privilege |
| AuthUser.IsManager | authuser/main.go:16-18 | true exactly when `Manager` is among the privileges |
| AuthUser.ManagerGrantsAll | authuser/main.go:20-31 | `Manager` grants every privilege |
| AuthUser.GrantedMonotone | authuser/main.go:20-31 | more privileges never grant less |
| AuthUser.EmptyGrantsNothing | authuser/main.go:20-31 | an empty privilege list grants nothing |
| W2pCrypt.DigestAlgBySize | w2pcrypt/main.go:14-23 | definition, no contract; the `digestAlgBySize` table: hex lengths 32, 40, 56, 64, 96 and 128 name md5, sha1, sha224, sha256, sha384 and sha512 (`GuessAlgOfDigestLength`, `GuessAlgUnknown`) |
| W2pCrypt.GuessAlg | w2pcrypt/main.go:37-44 | definition, no contract; the algorithm whose hex digest has the string's length, or `""` (`GuessAlgOfDigestLength`, `GuessAlgUnknown`) |
| W2pCrypt.ParseStored | w2pcrypt/main.go:87-98 | definition, no contract; algorithm, salt and prefix from the first two `$` (`ParseSalted`) |
| W2pCrypt.Digest | w2pcrypt/main.go:100-129 | definition, no contract; HMAC-SHA512 keyed by key plus salt, or the stored algorithm over password plus salt (`DigestSized`) |
| W2pCrypt.IsEqual | w2pcrypt/main.go:82-132 | definition, no contract; `Crypt.IsEqual`; stated by `IsEqualErrors`, `IsEqualTrueShape` and the three round trips |
| W2pCrypt.Hex | w2pcrypt/main.go:130 | hex encoding yields two lowercase hex digits per byte; `HexAt` gives the digits of each byte and `HexInjective` that distinct digests encode differently |
| W2pCrypt.HexAt | w2pcrypt/main.go:130 | digits `2k` and `2k+1` of the encoding are the high and low nibble of byte `k` |
| W2pCrypt.HexDigitInjective | w2pcrypt/main.go:130 | distinct nibbles have distinct hex digits |
| W2pCrypt.HexInjective | w2pcrypt/main.go:130 | equal encodings come from equal digests, so the string comparison of `IsEqual` compares digests |
| W2pCrypt.GuessAlgOfDigestLength | w2pcrypt/main.go:14-23 | the hex length of each known digest names that algorithm in the size table |
| W2pCrypt.GuessAlgUnknown | w2pcrypt/main.go:37-44 | any other length guesses no algorithm |
| W2pCrypt.IsEqualErrors | w2pcrypt/main.go:82-129 | the error cases, in both directions: an empty stored hash; an HMAC key with an algorithm other than `sha512`; otherwise an unknown digest algorithm |
| W2pCrypt.IsEqualTrueShape | w2pcrypt/main.go:82-131 | a match means the stored string is its `alg$salt$` prefix followed by exactly the hex digest of the algorithm's size |
| W2pCrypt.DigestSized | w2pcrypt/main.go:100-129 | the computed digest has the size of its algorithm, or 64 bytes for HMAC-SHA512 |
| W2pCrypt.ParseSalted | w2pcrypt/main.go:87-92 | `alg$salt$rest` yields the algorithm, the salt and the prefix `alg$salt$` |
| W2pCrypt.SaltedRoundTrip | w2pcrypt/main.go:82-131 | a salted hash `alg$salt$hex(digest(password+salt))` matches its own password |
| W2pCrypt.HmacRoundTrip | w2pcrypt/main.go:100-109 | with an HMAC key, the key plus the salt is the HMAC secret, and the stored algorithm is ignored |
| W2pCrypt.UnsaltedRoundTrip | w2pcrypt/main.go:96-97 | a bare hex digest matches its password: its length gives back its algorithm |
| W2pCrypt.TwoPartRoundTrip | w2pcrypt/main.go:93-95 | a hash stored as `alg$hexdigest`, with no salt, matches its password: the prefix is `alg$` and the digest is taken of the password alone |
| JoinGraph.Edges | db/table.go:73-90 | definition, no contract; the `tableJoins` edge list, table pairs with their column pairs, in order (`RouteFacts.HasEdge`, `RouteFacts.NoEdge`) |
| JoinGraph.CurrentRoutes | db/table.go:91-109 | definition, no contract; the `tableRoutes` of the current request, each with its `via` list (`RouteFacts.CurrentRoutesConnected`) |
| JoinGraph.LegacyRoutes | db_table.go:82-95 | definition, no contract; the twelve `tableRoutes` of the older request (`RouteFacts.LegacyRoutesConnected`, `RouteFacts.LegacyPublicationsGap`, `RouteFacts.LegacyAppsHops`) |
| JoinGraph.GenKey | db/table.go:165-171 | definition, no contract; the two names in order, joined by `:` (`GenKeySymmetric`, `GenKeyPair`) |
| JoinGraph.Key | db/table.go:173-175 | definition, no contract; the key of an edge's two tables |
| JoinGraph.FindJoin | db/table.go:143-153 | definition, no contract; `findJoin` (`FindJoinFirst`, `FindJoinSymmetric`) |
| JoinGraph.JoinSQL | db/table.go:179-185 | definition, no contract; `LEFT JOIN` of the target table on the edge's column conditions joined by `AND` (`ColumnConditions`) |
| JoinGraph.GetHops | db/table.go:402-418 | definition, no contract; `getHops` as written, both branches (`GetHopsForward`, `GetHopsByRoute`) |
| JoinGraph.JoinStep | db/table.go:432-438 | definition, no contract; one hop of `AutoJoin` (`JoinStepEffect`) |
| JoinGraph.Walk | db/table.go:425-440 | definition, no contract; the hop loop of `AutoJoin`, stopping at the first missing edge (`WalkEffect`, `WalkIdempotent`) |
| JoinGraph.AutoJoinSpec | db/table.go:420-442 | definition, no contract; `AutoJoin`, the specification of `Builder.AutoJoin` (`AutoJoinProperties`) |
| JoinGraph.GenKeySymmetric | db/table.go:165-171 | the key of a pair does not depend on the pair's orientation |
| JoinGraph.GenKeyPair | db/table.go:155-173 | for names without `:`, two keys are equal exactly when they belong to the same unordered pair |
| JoinGraph.FindJoinFromFirst | db/table.go:143-153 | the scan from position `i` returns the first edge connecting the tables, and fails exactly when none does |
| JoinGraph.FindJoinFirst | db/table.go:143-153 | `findJoin` returns the first edge of the list connecting the two tables in either orientation, and fails exactly when no edge does |
| JoinGraph.FindJoinFromSymmetric | db/table.go:143-153 | the scan finds the same edge whichever way round the tables are asked |
| JoinGraph.FindJoinSymmetric | db/table.go:143-153 | `findJoin(a, b)` and `findJoin(b, a)` agree |
| JoinGraph.ColumnConditions | db/table.go:179-185 | one `from.col=to.col` condition per column pair, in order |
| JoinGraph.Reverse | db/table.go:408-414 | the reversal maps position k to position n-1-k |
| JoinGraph.ForwardHopsFrom | db/table.go:402-418 | the forward resolver never returns an empty path, and the path always ends at the target |
| JoinGraph.GetHopsFromForward | db/table.go:402-418 | `getHops` scanning from route `i` equals the forward-only resolver |
| JoinGraph.GetHopsForward | db/table.go:402-418 | the reversal branch of `getHops` never runs; the path is never empty and ends at the target |
| JoinGraph.FirstRouteFrom | db/table.go:402-418 | the first route at or after `i` whose end points are the pair, in either orientation, or none |
| JoinGraph.ForwardHopsByPair | db/table.go:402-418 | the forward resolver is the first matching route's `via` list plus the target, or just the target |
| JoinGraph.GetHopsByRoute | db/table.go:402-418 | `getHops(from, to)` is the `via` list of the first route between the two tables plus `to`, or `[to]` when no route joins them |
| JoinGraph.JoinStepEffect | db/table.go:432-438 | one hop records the edge's key, and appends a join exactly when that key was new |
| JoinGraph.WalkJoined | db/table.go:425-440 | the walk records exactly the keys of the edges it traverses before the first missing edge |
| JoinGraph.WalkAppendsJoins | db/table.go:425-440 | the walk only appends join clauses, one per newly recorded key |
| JoinGraph.WalkEffect | db/table.go:425-440 | the walk's recorded keys and appended joins, together |
| JoinGraph.WalkConsistent | db/table.go:425-440 | the walk keeps keys and joins in step |
| JoinGraph.WalkRecorded | db/table.go:432-434 | a walk over edges that are all recorded changes nothing |
| JoinGraph.WalkIdempotent | db/table.go:425-440 | repeating a walk adds nothing |
| JoinGraph.AutoJoinProperties | db/table.go:420-442 | `AutoJoin` of the request's own table is a no-op; otherwise it only appends joins under new keys, keeps the state consistent, and a second call adds nothing |
| JoinGraph.ConnectedByPairs | db/table.go:91-109 | a hop path is walkable when each hop has a direct edge from the previous table |
| RouteFacts.TableNamesPlain | db/table.go:91-109 | no table name on a route holds the key separator `:` |
| RouteFacts.CurrentEndsNamed | db/table.go:91-109 | every current route starts and ends at a known table |
| RouteFacts.LegacyEndsNamed | db_table.go:82-95 | every legacy route starts and ends at a known table |
| RouteFacts.CurrentPlain | db/table.go:91-109 | the current route ends are free of `:`, so `GetHopsByRoute` applies |
| RouteFacts.LegacyPlain | db_table.go:82-95 | the legacy route ends are free of `:` |
| RouteFacts.NoEdge | db/table.go:143-153 | `findJoin` fails when no edge of the list connects the pair |
| RouteFacts.HasEdge | db/table.go:143-153 | `findJoin` succeeds when some edge of the list connects the pair |
| RouteFacts.RouteEdges | db/table.go:74-90 | each consecutive pair on a declared route has a direct edge |
| RouteFacts.LinkedJoin | db/table.go:74-90 | every linked pair has an edge in the edge list |
| RouteFacts.ConnectedByLinked | db/table.go:74-90 | a path made of linked pairs is walkable |
| RouteFacts.CurrentRoutesConnected | db/table.go:91-109 | every current route is walkable hop by hop |
| RouteFacts.LegacyRoutesConnected | db_table.go:82-95 | every legacy route is walkable except the last one, which is not |
| RouteFacts.LegacyGapHops | db_table.go:94 | the legacy hops from `svc_tags` to `apps_publications` are `services`, `apps_publications` |
| RouteFacts.LegacyGapWalk | db_table.go:367-389 | walking those hops joins `services` only, then stops |
| RouteFacts.LegacyPublicationsGap | db_table.go:367-389 | a legacy `AutoJoin` from `svc_tags` to `apps_publications` adds only the `services` join |
| RouteFacts.LegacyAppsHops | db_table.go:87-93 | the older hops from `node_tags` and from `svc_tags` to `apps` pass `apps`, go on to `apps_publications` and come back to `apps` |
| RouteFacts.LegacyAppsWalk | db_table.go:367-389 | walking such hops joins the first two tables, then `apps_publications`, and the return to `apps` adds nothing |
| RouteFacts.LegacyNodeTagsApps | db_table.go:87 | a legacy `AutoJoin("apps")` on `node_tags` appends the joins of `nodes`, `apps` and `apps_publications`, in that order |
| RouteFacts.LegacySvcTagsApps | db_table.go:93 | a legacy `AutoJoin("apps")` on `svc_tags` appends the joins of `services`, `apps` and `apps_publications`, in that order |
| RouteFacts.ReverseHops | db/table.go:402-418 | asking the hops from `auth_membership` to `tags` yields the forward `via` list of the `tags`→`auth_membership` route, not its reverse |
| RouteFacts.ReverseMultiHopJoinsNothing | db/table.go:420-442 | the `tags`→`auth_membership` route is walkable forwards, yet `AutoJoin("tags")` on `auth_membership` adds nothing |
| Filters.FindFilter | db/table.go:73 | definition, no contract; `reFilter.FindStringSubmatch` with leftmost-first backtracking (`FindFilterWellFormed`, `MatchRendered`) |
| Filters.Unnegated | db/table.go:303-306 | definition, no contract; the value with its leading `!`s cut |
| Filters.FilterClause | db/table.go:296-324 | definition, no contract; the clause one match becomes (`FilterClauseShape`) |
| Filters.MatchedCount | db/table.go:283-326 | definition, no contract; how many filters match (`MatchedCountClauses`) |
| Filters.IdentEnd | db/table.go:73 | the greedy `[a-zA-Z_.]+` run ends at the first character outside the class |
| Filters.SpaceEnd | db/table.go:73 | the greedy `\s*` run ends at the first non-space |
| Filters.LineEnd | db/table.go:73 | `(.*)` stops at the first newline |
| Filters.OpAtChar | db/table.go:73 | the operator alternation tried at a position: `=`, `>`, space, `~`, or `<=` |
| Filters.OpAtCaptured | db/table.go:73 | an operator found at a position is one of the captured operators and fits in the string |
| Filters.OpBackCaptured | db/table.go:73 | backtracking through the spaces yields a captured operator within bounds |
| Filters.ValueOneLine | db/table.go:73 | the captured value holds no newline |
| Filters.IdentBackWellFormed | db/table.go:73 | backtracking the identifier yields only well-formed matches |
| Filters.IdentBackSkip | db/table.go:73 | without an operator after the identifier, the match retries one character shorter |
| Filters.IdentBackFound | db/table.go:73 | an operator after the identifier yields a well-formed match |
| Filters.IdentRun | db/table.go:73 | the greedy identifier run from an identifier character is a non-empty identifier |
| Filters.FindFromWellFormed | db/table.go:73 | the leftmost match from any position has an identifier column, a captured operator and a single-line value |
| Filters.FindFilterWellFormed | db/table.go:285 | every match `FindStringSubmatch` returns is well formed |
| Filters.OpBackNone | db/table.go:73 | without operator characters, no operator is found |
| Filters.IdentBackNone | db/table.go:73 | without operator characters, identifier backtracking finds nothing |
| Filters.FindFromNone | db/table.go:73 | without operator characters, no position matches |
| Filters.NoOperatorNoMatch | db/table.go:285-288 | a filter without any operator character is skipped |
| Filters.IdentEndOf | db/table.go:73 | the identifier run of `col` followed by a non-identifier character is exactly `col` |
| Filters.ValueOf | db/table.go:73 | a plain value is captured whole |
| Filters.MatchRendered | db/table.go:73 | `col` + operator + value parses back to exactly that column, operator and value, for `=`, `>`, `~`, `<=` |
| Filters.MatchAfterIdent | db/table.go:73 | the same, with the operator and value given as one suffix |
| Filters.OperatorAt | db/table.go:73 | the operator at the identifier's end is recognised, and the value is the rest |
| Filters.MatchFound | db/table.go:73 | a found operator after the identifier run yields the leftmost match |
| Filters.MatchSpaceRendered | db/table.go:73 | `col value` parses as the space operator with that value, when the value does not start with another operator |
| Filters.GreaterEqualSplits | db/table.go:73 | `a>=5` parses as `a`, `>`, `=5` |
| Filters.LessThanIgnored | db/table.go:73 | `a<5` does not match |
| Filters.SqlOp | db/table.go:296-317 | `~` and space become `LIKE`, the others stay; `IN` is never produced |
| Filters.FilterClauseShape | db/table.go:302-324 | the clause is a `NOT` exactly for a `!` value; `empty` becomes `col IS NULL or col = ?` with `""`; otherwise `col op ?` with the value stripped of its leading `!`s |
| Filters.FilterClauses | db/table.go:284-326 | the filters only produce `WHERE` and `NOT` clauses |
| Filters.FiltersStep | db/table.go:284-326 | each filter adds one clause and counts once when it matches, and adds nothing otherwise |
| Filters.MatchedCountClauses | db/table.go:283-326 | the valid-filter count equals the number of clauses added, and is positive exactly when some filter matches |
| Filters.FilterClausesKeepConsistent | db/table.go:284-326 | filters never add joins, so the state stays consistent |
| QueryBuilder.GroupClauses | db/table.go:444-448 | definition, no contract; one `GROUP BY` per property (`GroupClausesSnoc`) |
| QueryBuilder.OrderBy | db/table.go:450-460 | definition, no contract; the comma-joined order terms (`OrderBySplits`) |
| QueryBuilder.SelectTerm | db/table.go:335-342 | definition, no contract; the select term of a property, aliased by its remap or its `String()` |
| QueryBuilder.JoinTargets | db/table.go:329-345 | definition, no contract; `AutoJoin` to each table in order (`JoinTargetsEffect`, `JoinTargetsIdempotent`) |
| QueryBuilder.GroupClausesSnoc | db/table.go:444-448 | one loop step appends one `GROUP BY` on the property's name |
| QueryBuilder.Builder.constructor | db/table.go:120-133 | a new request has no recorded keys and no clauses |
| QueryBuilder.Builder.Where | db/table.go:135-137 | appends one `WHERE` with its arguments, nothing else |
| QueryBuilder.Builder.Not | db/table.go:139-141 | appends one `NOT` with its arguments, nothing else |
| QueryBuilder.Builder.AutoJoin | db/table.go:420-442 | the hop walk, as `AutoJoinSpec` states it, keeping the state consistent |
| QueryBuilder.Selected | db/table.go:330-332 | definition, no contract; the properties asked for, or the table's own when none are (`Builder.WithJoins`) |
| QueryBuilder.OwnTableTargets | db/table.go:329-345 | joining only the request's own table needs no join key |
| QueryBuilder.Builder.WithJoins | db/table.go:329-345 | with no properties asked, the table's own are used; each property's table is auto-joined in order; one select term per property is returned |
| QueryBuilder.Builder.AddFilter | db/table.go:307-324 | appends the clause of one match |
| QueryBuilder.Builder.AddFilters | db/table.go:284-326 | appends the clauses of the matching filters, in order, and counts them |
| QueryBuilder.Builder.WithGroups | db/table.go:444-448 | appends one `GROUP BY` per property, in order |
| QueryBuilder.Builder.WithOrders | db/table.go:450-460 | no orders change nothing; otherwise one `ORDER BY` of the comma-joined order terms is appended |
| QueryBuilder.Builder.Paginate | db/table.go:466 | appends the offset, then the limit |
| QueryBuilder.JoinTargetsSnoc | db/table.go:336-343 | one loop step auto-joins the next property's table |
| QueryBuilder.AutoJoinRecordsKeys | db/table.go:420-442 | `AutoJoin` records exactly the keys of the hops it walks, and changes nothing when they are recorded already |
| QueryBuilder.JoinTargetsEffect | db/table.go:329-345 | the join loop records the keys of all walked hops, only appends joins, and keeps the state consistent |
| QueryBuilder.JoinTargetsIdempotent | db/table.go:329-345 | running the join loop twice over the same properties adds nothing |
| QueryBuilder.SQLEndsWithQuote | db/table.go:249-254 | the SQL of a property ends in a backquote |
| QueryBuilder.OrderTermDescending | db/table.go:241-247 | an order term ends in ` DESC` exactly for a descending property |
| QueryBuilder.OrderBySplits | db/table.go:450-460 | the `ORDER BY` list splits back into its order terms |
| Acl.IsNodeId | db/table.go:384 | definition, no contract; an id `strconv.Atoi` rejects, taken as a node id |
| Acl.NodeScope | db/table.go:384-389 | definition, no contract; join `apps` and `nodes`, then the two node conditions |
| Acl.UserScope | db/table.go:390-396 | definition, no contract; join the grant table and `auth_membership`, then the two user conditions (`UserScopeUsesGrants`) |
| Acl.Scope | db/table.go:384-396 | definition, no contract; the node or the user scope by the id (`ScopeProperties`) |
| Acl.ApplyScope | db/table.go:384-396 | a node id joins `apps` and `nodes` and filters on `nodes.node_id`; a user id joins the grant table and `auth_membership` and filters on the user |
| Acl.TwoJoins | db/table.go:384-396 | two auto-joins only append joins and keep the state consistent |
| Acl.ScopeProperties | db/table.go:384-396 | the scope appends joins, then two `WHERE`s, the last bound to the caller's id; it uses the node condition exactly for a non-numeric id; it keeps the state consistent |
| Acl.UserScopeUsesGrants | db/table.go:390-396 | a numeric id is matched through the grant table's `group_id` and `auth_membership.user_id` |
| TableRequest.Default | db/table.go:120-133 | definition, no contract; ACL, filters and paging on, write intent off |
| TableRequest.Configured | db/table.go:699-726 | definition, no contract; a flag after the options are applied in order (`LastOptionWins`, `NoOptionDefault`) |
| TableRequest.AclSpec | db/table.go:347-397 | definition, no contract; `withACL` with `withWriteACL` and `withReadACL` (`ManagerUnrestricted`, `ScopedCaller`, `AclConsistent`) |
| TableRequest.FiltersSpec | db/table.go:279-327 | definition, no contract; `withFilters`: nothing when filters are off |
| TableRequest.OrdersSpec | db/table.go:450-460 | definition, no contract; `withOrders` |
| TableRequest.PagingSpec | db/table.go:462-467 | definition, no contract; `withPaging`: nothing when paging is off |
| TableRequest.TxSpec | db/table.go:469-487 | definition, no contract; `TX`: ACL, filters, orders, paging (`TxKeepsAcl`, `FiltersOffIgnored`, `NoValidFilterNoCondition`) |
| TableRequest.AfterAcl | db/table.go:472-486 | definition, no contract; the part of `TX` after the ACL (`AfterAclTail`) |
| TableRequest.TxTail | db/table.go:472-486 | definition, no contract; the clauses `TX` appends after the ACL (`TailNoJoins`, `UnfilteredTail`) |
| TableRequest.TailNoJoins | db/table.go:469-487 | after the ACL, `TX` appends only `WHERE`, `NOT`, `ORDER BY`, `OFFSET` and `LIMIT` clauses |
| TableRequest.AfterAclTail | db/table.go:469-487 | what `TX` does after the ACL appends a fixed clause list and records no key |
| TableRequest.Request.constructor | db/table.go:120-133 | the flags are the defaults (ACL, filters and paging on, write intent off), overridden by the options in order |
| TableRequest.Request.WithFilters | db/table.go:279-327 | filters off: nothing changes; filters on: the count is reset, then counts the matching filters, whose clauses are appended |
| TableRequest.Request.WithWriteACL | db/table.go:358-375 | a `Manager` is unrestricted; anyone else is scoped through `apps_responsibles` |
| TableRequest.Request.WithReadACL | db/table.go:377-397 | ACL off or `Manager`: unrestricted; otherwise scoped through `apps_publications` |
| TableRequest.Request.WithACL | db/table.go:347-356 | ACL off: nothing; otherwise the write or the read scope, by the write-intent flag |
| TableRequest.Request.WithPaging | db/table.go:462-467 | paging on appends offset and limit; paging off changes nothing |
| TableRequest.Request.TX | db/table.go:469-487 | ACL, then the `filters`, then the `orderby`, then the `offset`/`limit` of the query, with the count of valid filters; with filters on, `HasValidFilters` holds exactly when some `filters` value matches |
| TableRequest.Request.HasValidFilters | db/table.go:275-277 | definition, no contract; some filter was accepted; after `TX` with filters on it holds exactly when some `filters` value matches the pattern (`Request.TX`) |
| TableRequest.GroupsSpec | db/table.go:444-448 | definition, no contract; `withGroups`: one `Group` clause per property |
| TableRequest.ResponseJoins | db/table.go:491-496 | definition, no contract; the ACL, then one `AutoJoin` per selected property (`ResponseKeepsAcl`) |
| TableRequest.ResponseSpec | db/table.go:489-523 | definition, no contract; the query `MakeTableResponse` runs: ACL, joins, filters, groups, orders, paging (`ResponseKeepsAcl`, `OwnTableResponseIsTx`, `LegacyTable.LegacyBehindPager`) |
| TableRequest.ResponseTail | db/table.go:498-523 | definition, no contract; the clauses `MakeTableResponse` appends after its joins (`ResponseTailNoJoins`, `ResponseAfterJoins`) |
| TableRequest.Request.ResponseQuery | db/table.go:489-523 | calls `withACL`, `withJoins`, `withFilters`, `withGroups`, `withOrders` and `withPaging` in that order: the new state is `ResponseSpec`, the select terms are those of the selected properties, and the valid-filter count is that of `TX` |
| TableRequest.ResponseTailNoJoins | db/table.go:498-523 | after its joins, `MakeTableResponse` appends only `WHERE`, `NOT`, `GROUP BY`, `ORDER BY`, `OFFSET` and `LIMIT` clauses |
| TableRequest.ResponseAfterJoins | db/table.go:498-523 | the steps after the joins append that tail and record no key |
| TableRequest.UngroupedTail | db/table.go:498-523 | with no `groupby`, the tail is the one `TX` appends after the ACL |
| TableRequest.ResponseKeepsAcl | db/table.go:489-523 | the ACL clauses stay in front, the joins of the selected tables follow them, no later clause is a join, the recorded keys are the ACL's plus those of the selected tables, and a consistent state stays consistent |
| TableRequest.JoinsThenTail | db/table.go:489-523 | appending a join-free tail keeps the prefix and the joins in place and keeps consistency |
| TableRequest.OwnTableResponseIsTx | db/table.go:469-523 | a response that selects only its own table and groups nothing runs exactly the query `TX` prepares |
| TableRequest.LastOptionWins | db/table.go:699-726 | the last option touching a flag decides it |
| TableRequest.NoOptionDefault | db/table.go:120-133 | a flag no option touches keeps its default |
| TableRequest.TxKeepsAcl | db/table.go:469-487 | `TX` keeps the ACL's clauses as a prefix, adds no join after them, and keeps the state consistent |
| TableRequest.ExtendNoJoins | db/table.go:469-487 | appending join-free clauses keeps the prefix and the consistency |
| TableRequest.AclConsistent | db/table.go:347-397 | the ACL keeps the state consistent |
| TableRequest.ManagerUnrestricted | db/table.go:347-397 | with the ACL off, or for a `Manager`, no row restriction is added |
| TableRequest.ScopedCaller | db/table.go:347-397 | any other caller's last condition binds their id, and a user id goes through the write or read grant table as the write intent says |
| TableRequest.FiltersOffIgnored | db/table.go:279-282 | with filters off, the `filters` parameter has no effect on the query |
| TableRequest.NoValidFilterNoCondition | db/table.go:469-487 | with the ACL off and no valid filter, no `WHERE`/`NOT` condition restricts the query: only the ordering and the page bound it, and with paging on the last two clauses are the `offset` and `limit` of the query (0 and 20 by default, `Params.QueryDefaults`) |
| TableRequest.UnfilteredTail | db/table.go:469-487 | without filter clauses, the post-ACL tail is only order and paging |
| TableRequest.TagsDeleteSettings | routes/tags.go:126-131 | the tag deletion route builds its request with ACL off, write intent on, filters and paging on, the settings behind its valid-filter guard |
| LegacyTable.LegacyRequest.constructor | db_table.go:98-106 | a new legacy request on the legacy routes, empty |
| LegacyTable.LegacyRequest.WithFilters | db_table.go:267-310 | appends the clauses of the matching filters, always, with no count |
| LegacyTable.LegacyRequest.WithACL | db_table.go:330-344 | always applies the read scope |
| LegacyTable.LegacyAclAlwaysScopes | db_table.go:330-344 | the legacy ACL always binds the caller's id, even for a `Manager`; for any other caller it equals the current read ACL |
| LegacyTable.LegacyResponseSpec | db_table.go:409-437 | definition, no contract; the query `MakeResponse` runs: read scope, joins, every matching filter, groups, orders, then the `page` offset and limit (`LegacyResponsePaging`, `LegacyWithoutPager`, `LegacyBehindPager`) |
| LegacyTable.LegacyRequest.ResponseQuery | db_table.go:409-437 | calls `withACL`, `withJoins`, `withFilters`, `withGroups`, `withOrders`, then `Offset`/`Limit` from `page`: the new state is `LegacyResponseSpec`, with one select term per selected property |
| LegacyTable.LegacyResponsePaging | db_table.go:435-437 | the older response always ends with the offset and limit `page` returns; no setting switches paging off |
| LegacyTable.LegacyWithoutPager | db_table.go:435-437 | without the `pager` middleware the older response is paged with offset 0 and limit 0 |
| LegacyTable.LegacyBehindPager | db_table.go:409-437 | behind `pager`, for a caller that is not a `Manager`, the older response runs the same query as the current one with default settings |
| AvailProps.AvailAll | db/table.go:547-563 | definition, no contract; `availProps` as written, one list per requested registered property (`AvailPropsAsWritten`) |
| AvailProps.AvailOnce | db/table.go:547-563 | definition, no contract; `availProps` with `done` written, one list per registered table (`AvailPropsOnce`, `AvailOnceMembers`) |
| AvailProps.DoneAfter | db/table.go:547-563 | definition, no contract; the tables done after the corrected loop (`DoneAfterCovers`) |
| AvailProps.AvailPropsAsWritten | db/table.go:547-563 | the loop returns the property list of every registered table, once per requested property |
| AvailProps.AvailAllRepeats | db/table.go:547-563 | two properties of one registered table list that table's properties twice |
| AvailProps.AvailPropsOnce | db/table.go:547-563 | the corrected loop, which records each table in `done`, returns each table's list once |
| AvailProps.AvailOnceMembers | db/table.go:547-563 | a property is listed exactly when it belongs to a registered table that was requested and not yet done |
| AvailProps.AvailOnceAppend | db/table.go:547-563 | processing two lists in a row equals processing the second with the tables of the first done |
| AvailProps.DoneAfterCovers | db/table.go:547-563 | after the loop, every registered table requested is done |
| AvailProps.AvailOnceNothingNew | db/table.go:547-563 | tables already done contribute nothing |
| AvailProps.AvailOnceRepeat | db/table.go:547-563 | asking the same properties twice lists nothing more |
| AvailProps.AvailDistinctAgree | db/table.go:547-563 | with distinct tables, the corrected loop agrees with the code as written |
| AvailProps.AvailRepeatedTable | db/table.go:547-563 | for two properties of one table, the corrected loop lists the table once, where the code as written lists it twice |

## Left out

- Running the SQL. `Count`, `Find` and the response assembly of
  `MakeTableResponse` (`db/table.go:489-545`) and `MakeResponse`
  (`db_table.go:409-458`) are left out: they run queries against the
  database. The clauses of the query they run are modelled by
  `TableRequest.ResponseSpec` and `LegacyTable.LegacyResponseSpec`. In
  `MakeTableResponse` the `meta` test only decides whether `Count` runs
  (`db/table.go:511-517`). In `MakeResponse` `Count` always runs
  (`db_table.go:431`) and `queryMeta` only decides whether the `Meta` field
  is filled (`db_table.go:447`). In neither does it change the clauses.
- The select list as a query clause. The code applies it to the gorm handle
  with `Select`. The model keeps it out of the clause list and returns it
  from `WithJoins` instead.
- The property list of a table, and the registry of tables. Both come from
  reflection over the table's entry type (`makePropMap`, `props`, `Register`),
  so they are parameters: `tableProps` and `Registry`. `props()` iterates a
  Go map, so its order is unspecified and can differ between two calls; the
  model fixes one order per table. The Finding's "twice" is about which
  properties are listed, not their order. `linePropValue`,
  `lineMap`, `remap` and the JSON marshalling are left out.
- The `funcopt` option plumbing. It is modelled as a list of (setting,
  value) options applied in order.
- Logging. The message of a missing auto-join is left out.
- The hash functions. MD5, the SHA family and HMAC-SHA512 are parameters;
  their output sizes are the only assumption made about them.
- HTTP. The handlers, authentication and the request context beyond the
  `limit`/`offset` values of `pager` are left out. The caller is an id plus
  its extensions.
- The `on` map of both request types. The code creates it and never reads
  it.
- Go's slice aliasing. `append(r.Via, to)` may write into the route table's
  backing array. The model treats slices as values.
- W2pCrypt.GuessAlg: it counts characters where the code counts bytes.
  The two agree on ASCII input, and hex digests are ASCII.
- Numbers.Atoi: Go's `int` is taken to be 64 bits wide. Any other width is
  not modelled.
- Configuration, the route handlers other than tag deletion, the user and
  node tables, and the token endpoints are not part of this model.

## Findings

| source | as written | input that shows it | evidently intended | confidence | as-written member | corrected member |
|---|---|---|---|---|---|---|
| db/table.go:547-563 (also db_table.go:460-476) | `availProps` tests `done[prop.Table]` but never writes to `done`, so a table's property list is appended once per requested property of that table | `props=nodes.a,nodes.b` with `nodes` registered: the nodes list appears twice in `available_props` | each registered table's list appears once, as the comment "table props already added" says | high, not executed | AvailProps.AvailPropsAsWritten | AvailProps.AvailPropsOnce |

=== FILE: acl.dfy ===
/** Row-level access control: the joins and conditions that restrict a
    request to the rows the caller may see or change. A caller whose id is
    not an integer is a node; any other caller is a user, restricted
    through the groups its membership grants. */
module Acl {
  import opened Strs
  import opened Numbers
  import opened Sql
  import opened JoinGraph
  import opened QueryBuilder

  /** The grant table consulted for reading and for writing. */
  const ReadGrants: string := "apps_publications"
  const WriteGrants: string := "apps_responsibles"

  /** A caller is a node exactly when `strconv.Atoi` rejects its id. */
  predicate IsNodeId(id: string)
  {
    Atoi(id).None?
  }

  /** The state after the node scope: join `apps` then `nodes`, then tie the
      two on `app` and bind the node id. */
  function NodeScope(edges: seq<Edge>, routes: seq<Route>, table: string, id: string, st: QueryState): QueryState
  {
    var s1 := AutoJoinSpec(edges, routes, table, "apps", st);
    var s2 := AutoJoinSpec(edges, routes, table, "nodes", s1);
    QueryState(s2.joined, s2.clauses + [Where("apps.app = nodes.app", []), Where("nodes.node_id = ?", [id])])
  }

  /** The state after the user scope: join the grant table then
      `auth_membership`, then tie the two on `group_id` and bind the user id. */
  function UserScope(edges: seq<Edge>, routes: seq<Route>, table: string, grants: string, id: string, st: QueryState): QueryState
  {
    var s1 := AutoJoinSpec(edges, routes, table, grants, st);
    var s2 := AutoJoinSpec(edges, routes, table, "auth_membership", s1);
    QueryState(s2.joined, s2.clauses + [Where(grants + ".group_id = auth_membership.group_id", []),
                                        Where("auth_membership.user_id = ?", [id])])
  }

  function Scope(edges: seq<Edge>, routes: seq<Route>, table: string, grants: string, id: string, st: QueryState): QueryState
  {
    if IsNodeId(id) then NodeScope(edges, routes, table, id, st) else UserScope(edges, routes, table, grants, id, st)
  }

  /** The scoping done inline by the ACL methods of both request versions:
      two `AutoJoin`s and two `Where`s, chosen by the kind of id. */
  method ApplyScope(b: Builder, grants: string, id: string)
    requires b.Valid()
    modifies b
    ensures b.Valid()
    ensures b.State() == Scope(b.edges, b.routes, b.table, grants, id, old(b.State()))
  {
    if Atoi(id).None? {
      b.AutoJoin("apps");
      b.AutoJoin("nodes");
      b.Where("apps.app = nodes.app", []);
      b.Where("nodes.node_id = ?", [id]);
    } else {
      b.AutoJoin(grants);
      b.AutoJoin("auth_membership");
      b.Where(grants + ".group_id = auth_membership.group_id", []);
      b.Where("auth_membership.user_id = ?", [id]);
    }
  }

  lemma TwoJoins(edges: seq<Edge>, routes: seq<Route>, table: string, t1: string, t2: string, st: QueryState)
    ensures var r := AutoJoinSpec(edges, routes, table, t2, AutoJoinSpec(edges, routes, table, t1, st));
      st.joined <= r.joined && |r.clauses| >= |st.clauses| && r.clauses[..|st.clauses|] == st.clauses
      && (forall k :: |st.clauses| <= k < |r.clauses| ==> r.clauses[k].Joins?)
      && (Consistent(st) ==> Consistent(r))
  {
    var s1 := AutoJoinSpec(edges, routes, table, t1, st);
    AutoJoinProperties(edges, routes, table, t1, st);
    AutoJoinProperties(edges, routes, table, t2, s1);
    var r := AutoJoinSpec(edges, routes, table, t2, s1);
    assert r.clauses[..|s1.clauses|] == s1.clauses;
    assert r.clauses[..|st.clauses|] == s1.clauses[..|st.clauses|];
    forall k | |st.clauses| <= k < |r.clauses| ensures r.clauses[k].Joins? {
      if k < |s1.clauses| {
        assert r.clauses[k] == s1.clauses[k];
      }
    }
  }

  /** The scope only narrows the query: the earlier clauses stay in place,
      what follows them is joins and then exactly two `Where` conditions, the
      last of which binds the caller's id as its only argument (the id never
      enters the SQL text); a consistent state stays consistent. The node
      condition is chosen exactly when the id is not an integer. */
  lemma {:induction false} ScopeProperties(edges: seq<Edge>, routes: seq<Route>, table: string, grants: string, id: string, st: QueryState)
    ensures var r := Scope(edges, routes, table, grants, id, st);
      |r.clauses| >= |st.clauses| + 2 && r.clauses[..|st.clauses|] == st.clauses
      && st.joined <= r.joined
      && (forall k :: |st.clauses| <= k < |r.clauses| - 2 ==> r.clauses[k].Joins?)
      && r.clauses[|r.clauses| - 2].Where? && r.clauses[|r.clauses| - 2].args == []
      && r.clauses[|r.clauses| - 1].Where? && r.clauses[|r.clauses| - 1].args == [id]
      && (r.clauses[|r.clauses| - 1].expr == "nodes.node_id = ?" <==> IsNodeId(id))
      && (Consistent(st) ==> Consistent(r))
  {
    var r := Scope(edges, routes, table, grants, id, st);
    var t1 := if IsNodeId(id) then "apps" else grants;
    var t2 := if IsNodeId(id) then "nodes" else "auth_membership";
    var s2 := AutoJoinSpec(edges, routes, table, t2, AutoJoinSpec(edges, routes, table, t1, st));
    TwoJoins(edges, routes, table, t1, t2, st);
    var tail := r.clauses[|s2.clauses|..];
    assert r.clauses == s2.clauses + tail;
    assert r.clauses[..|st.clauses|] == s2.clauses[..|st.clauses|];
    forall k | |st.clauses| <= k < |r.clauses| - 2 ensures r.clauses[k].Joins? {
      assert r.clauses[k] == s2.clauses[k];
    }
    if Consistent(st) {
      AppendNonJoins(s2, tail);
    }
  }

  /** A node's scope and a user's scope end in different conditions, and
      the user's is tied to the grant table it was asked for. */
  lemma UserScopeUsesGrants(edges: seq<Edge>, routes: seq<Route>, table: string, grants: string, id: string, st: QueryState)
    requires !IsNodeId(id)
    ensures var r := Scope(edges, routes, table, grants, id, st);
      r.clauses[|r.clauses| - 2] == Where(grants + ".group_id = auth_membership.group_id", [])
      && r.clauses[|r.clauses| - 1] == Where("auth_membership.user_id = ?", [id])
  {
  }
}

=== FILE: authuser.dfy ===
/** The caller's identity as the authentication layer hands it over: an id
    and string-list extensions, among them the `privileges` list. */
module AuthUser {

  const XNodeID: string := "node_id"
  const XApp: string := "app"
  const XPrivileges: string := "privileges"
  const Manager: string := "Manager"

  /** `auth.Info`: the id and the extensions (`map[string][]string`). */
  datatype Info = Info(id: string, extensions: map<string, seq<string>>)

  /** `Extensions.Values(key)`: the list under `key`, empty when absent. */
  function Values(ext: map<string, seq<string>>, key: string): seq<string>
  {
    if key in ext then ext[key] else []
  }

  /** `Privileges(t)`: the `privileges` extension. */
  function Privileges(t: Info): seq<string>
  {
    Values(t.extensions, XPrivileges)
  }

  /** `IsNode(t)`: the caller carries a `node_id` extension. */
  predicate IsNode(t: Info)
  {
    XNodeID in t.extensions
  }

  /** What a privilege list grants: `Manager` grants everything. */
  predicate Granted(privs: seq<string>, priv: string)
  {
    Manager in privs || priv in privs
  }

  /** `HasPrivilege(t, priv)`: scans the privileges, answering true at the
      first `Manager` or `priv`. */
  method HasPrivilege(t: Info, priv: string) returns (b: bool)
    ensures b == Granted(Privileges(t), priv)
  {
    var privs := Values(t.extensions, XPrivileges);
    var i := 0;
    while i < |privs|
      invariant 0 <= i <= |privs|
      invariant Manager !in privs[..i] && priv !in privs[..i]
    {
      if privs[i] == Manager {
        return true;
      }
      if privs[i] == priv {
        return true;
      }
      assert privs[..i + 1] == privs[..i] + [privs[i]];
      i := i + 1;
    }
    assert privs[..i] == privs;
    return false;
  }

  /** `IsManager(t)`: `HasPrivilege(t, "Manager")`. */
  method IsManager(t: Info) returns (b: bool)
    ensures b <==> Manager in Privileges(t)
  {
    b := HasPrivilege(t, Manager);
  }

  /** A Manager has every privilege. */
  lemma ManagerGrantsAll(privs: seq<string>, priv: string)
    requires Manager in privs
    ensures Granted(privs, priv)
  {
  }

  /** Granting is monotone: a list holding every entry of another grants
      at least what the other grants. */
  lemma GrantedMonotone(privs: seq<string>, more: seq<string>, priv: string)
    requires forall k :: 0 <= k < |privs| ==> privs[k] in more
    requires Granted(privs, priv)
    ensures Granted(more, priv)
  {
    if Manager in privs {
      var k :| 0 <= k < |privs| && privs[k] == Manager;
    } else {
      var k :| 0 <= k < |privs| && privs[k] == priv;
    }
  }

  /** An empty privilege list grants nothing. */
  lemma EmptyGrantsNothing(priv: string)
    ensures !Granted([], priv)
  {
  }
}

=== FILE: avail.dfy ===
/** The `available_props` of a response's metadata: the property lists of
    the registered tables the requested properties belong to. */
module AvailProps {
  import opened Properties

  /** The registered tables (`tables`) with the property list of each, as
      the reflection over their entry types yields it. */
  type Registry = map<string, seq<Property>>

  // -----------------------------------------------------------------------
  // As written: the `done` map is read but never written

  /** One list per requested property whose table is registered. */
  function AvailAll(reg: Registry, props: seq<Property>): seq<Property>
    decreases |props|
  {
    if |props| == 0 then []
    else (if props[0].table in reg then reg[props[0].table] else []) + AvailAll(reg, props[1..])
  }

  /** `availProps` as written: `done` is tested but stays empty. */
  method AvailPropsAsWritten(reg: Registry, props: seq<Property>) returns (ap: seq<Property>)
    ensures ap == AvailAll(reg, props)
  {
    var done: set<string> := {};
    ap := [];
    var i := 0;
    while i < |props|
      invariant 0 <= i <= |props|
      invariant done == {}
      invariant ap + AvailAll(reg, props[i..]) == AvailAll(reg, props)
    {
      var prop := props[i];
      assert props[i..][1..] == props[i + 1..];
      if prop.table in done {
        i := i + 1;
        continue;
      }
      if prop.table !in reg {
        i := i + 1;
        continue;
      }
      ap := ap + reg[prop.table];
      i := i + 1;
    }
  }

  /** Two properties of the same registered table list that table's
      properties twice. */
  lemma AvailAllRepeats(reg: Registry, p: Property, q: Property)
    requires p.table == q.table && p.table in reg
    ensures AvailAll(reg, [p, q]) == reg[p.table] + reg[p.table]
  {
    assert [p, q][1..] == [q];
    assert [q][1..] == [];
    assert AvailAll(reg, [q]) == reg[q.table] + AvailAll(reg, []);
    assert reg[q.table] + [] == reg[q.table];
  }

  // -----------------------------------------------------------------------
  // As intended: each table's list once

  /** The lists of the registered tables not yet in `done`, each once, in
      the order the tables are first referenced. */
  function AvailOnce(reg: Registry, props: seq<Property>, done: set<string>): seq<Property>
    decreases |props|
  {
    if |props| == 0 then []
    else
      var t := props[0].table;
      if t in done || t !in reg then AvailOnce(reg, props[1..], done)
      else reg[t] + AvailOnce(reg, props[1..], done + {t})
  }

  /** `availProps` with the table recorded in `done` once its list is added. */
  method AvailPropsOnce(reg: Registry, props: seq<Property>) returns (ap: seq<Property>)
    ensures ap == AvailOnce(reg, props, {})
  {
    var done: set<string> := {};
    ap := [];
    var i := 0;
    while i < |props|
      invariant 0 <= i <= |props|
      invariant ap + AvailOnce(reg, props[i..], done) == AvailOnce(reg, props, {})
    {
      var prop := props[i];
      assert props[i..][1..] == props[i + 1..];
      if prop.table in done {
        i := i + 1;
        continue;
      }
      if prop.table !in reg {
        i := i + 1;
        continue;
      }
      var rest := AvailOnce(reg, props[i + 1..], done + {prop.table});
      assert AvailOnce(reg, props[i..], done) == reg[prop.table] + rest;
      assert (ap + reg[prop.table]) + rest == ap + (reg[prop.table] + rest);
      ap := ap + reg[prop.table];
      done := done + {prop.table};
      i := i + 1;
    }
  }

  /** Done tables once the list was scanned. */
  function DoneAfter(reg: Registry, props: seq<Property>, done: set<string>): set<string>
    decreases |props|
  {
    if |props| == 0 then done
    else
      var t := props[0].table;
      DoneAfter(reg, props[1..], if t in done || t !in reg then done else done + {t})
  }

  /** A property belongs to the result exactly when it belongs to the list
      of some registered table, not yet done, that a requested property
      references. */
  lemma {:induction false} AvailOnceMembers(reg: Registry, props: seq<Property>, done: set<string>, x: Property)
    ensures x in AvailOnce(reg, props, done) <==>
      exists k :: 0 <= k < |props| && props[k].table in reg && props[k].table !in done && x in reg[props[k].table]
    decreases |props|
  {
    if |props| > 0 {
      var t := props[0].table;
      var done1 := if t in done || t !in reg then done else done + {t};
      AvailOnceMembers(reg, props[1..], done1, x);
      if x in AvailOnce(reg, props, done) {
        if t !in done && t in reg && x in reg[t] {
        } else {
          var k :| 0 <= k < |props[1..]| && props[1..][k].table in reg && props[1..][k].table !in done1
            && x in reg[props[1..][k].table];
          assert props[k + 1] == props[1..][k];
        }
      }
      if exists k :: 0 <= k < |props| && props[k].table in reg && props[k].table !in done && x in reg[props[k].table] {
        var k :| 0 <= k < |props| && props[k].table in reg && props[k].table !in done && x in reg[props[k].table];
        if k > 0 && !(t !in done && t in reg && x in reg[t]) {
          assert props[1..][k - 1] == props[k];
          assert props[k].table != t;
        }
      }
    }
  }

  /** The scan of a concatenation continues from what the first part left. */
  lemma {:induction false} AvailOnceAppend(reg: Registry, a: seq<Property>, b: seq<Property>, done: set<string>)
    ensures AvailOnce(reg, a + b, done) == AvailOnce(reg, a, done) + AvailOnce(reg, b, DoneAfter(reg, a, done))
    decreases |a|
  {
    if |a| == 0 {
      assert a + b == b;
    } else {
      var t := a[0].table;
      var done1 := if t in done || t !in reg then done else done + {t};
      assert (a + b)[0] == a[0] && (a + b)[1..] == a[1..] + b;
      AvailOnceAppend(reg, a[1..], b, done1);
    }
  }

  /** After a scan, every registered table it referenced is done. */
  lemma {:induction false} DoneAfterCovers(reg: Registry, props: seq<Property>, done: set<string>)
    ensures done <= DoneAfter(reg, props, done)
    ensures forall k :: 0 <= k < |props| && props[k].table in reg ==> props[k].table in DoneAfter(reg, props, done)
    decreases |props|
  {
    if |props| > 0 {
      var t := props[0].table;
      var done1 := if t in done || t !in reg then done else done + {t};
      DoneAfterCovers(reg, props[1..], done1);
      forall k | 0 < k < |props| && props[k].table in reg
        ensures props[k].table in DoneAfter(reg, props, done)
      {
        assert props[1..][k - 1] == props[k];
      }
    }
  }

  /** Nothing is added for tables already done or not registered. */
  lemma {:induction false} AvailOnceNothingNew(reg: Registry, props: seq<Property>, done: set<string>)
    requires forall k :: 0 <= k < |props| && props[k].table in reg ==> props[k].table in done
    ensures AvailOnce(reg, props, done) == []
    decreases |props|
  {
    if |props| > 0 {
      forall k | 0 <= k < |props[1..]| && props[1..][k].table in reg ensures props[1..][k].table in done {
        assert props[1..][k] == props[k + 1];
      }
      AvailOnceNothingNew(reg, props[1..], done);
    }
  }

  /** Requesting the same properties twice over lists nothing more: each
      table's list appears once however many properties reference it. */
  lemma AvailOnceRepeat(reg: Registry, props: seq<Property>)
    ensures AvailOnce(reg, props + props, {}) == AvailOnce(reg, props, {})
  {
    AvailOnceAppend(reg, props, props, {});
    DoneAfterCovers(reg, props, {});
    AvailOnceNothingNew(reg, props, DoneAfter(reg, props, {}));
  }

  /** Where no two requested properties share a table the two versions
      agree. */
  lemma {:induction false} AvailDistinctAgree(reg: Registry, props: seq<Property>, done: set<string>)
    requires forall i, j :: 0 <= i < j < |props| ==> props[i].table != props[j].table
    requires forall k :: 0 <= k < |props| ==> props[k].table !in done
    ensures AvailOnce(reg, props, done) == AvailAll(reg, props)
    decreases |props|
  {
    if |props| > 0 {
      var t := props[0].table;
      var done1 := if t in done || t !in reg then done else done + {t};
      forall k | 0 <= k < |props[1..]| ensures props[1..][k].table !in done1 {
        assert props[1..][k] == props[k + 1];
      }
      forall i, j | 0 <= i < j < |props[1..]| ensures props[1..][i].table != props[1..][j].table {
        assert props[1..][i] == props[i + 1] && props[1..][j] == props[j + 1];
      }
      AvailDistinctAgree(reg, props[1..], done1);
    }
  }

  /** The case that shows the difference: two properties of one table. */
  lemma AvailRepeatedTable(reg: Registry, p: Property, q: Property)
    requires p.table == q.table && p.table in reg && |reg[p.table]| > 0
    ensures AvailOnce(reg, [p, q], {}) == reg[p.table]
    ensures AvailAll(reg, [p, q]) == reg[p.table] + reg[p.table] != AvailOnce(reg, [p, q], {})
  {
    AvailAllRepeats(reg, p, q);
    assert [p, q][1..] == [q];
    assert [q][1..] == [];
    assert AvailOnce(reg, [p, q], {}) == reg[p.table] + AvailOnce(reg, [q], {} + {p.table});
    assert {} + {p.table} == {p.table};
    assert q.table in {p.table};
    assert AvailOnce(reg, [q], {p.table}) == AvailOnce(reg, [], {p.table});
    assert reg[p.table] + [] == reg[p.table];
    assert |reg[p.table] + reg[p.table]| > |reg[p.table]|;
  }
}

=== FILE: builder.dfy ===
/** The query-building part shared by both versions of the request: the
    handle, the set of join keys already emitted, and the methods that
    chain clauses onto the handle (`Where`, `Not`, `AutoJoin`,
    `withGroups`, `withOrders`, paging). */
module QueryBuilder {
  import opened Strs
  import opened Sql
  import opened JoinGraph
  import opened Properties
  import opened Filters

  /** One `Group` clause per property, with its unquoted `table.column`. */
  function GroupClauses(groups: seq<Property>): seq<Clause>
  {
    seq(|groups|, k requires 0 <= k < |groups| => Group(groups[k].String()))
  }

  lemma GroupClausesSnoc(groups: seq<Property>, i: nat)
    requires i < |groups|
    ensures GroupClauses(groups[..i + 1]) == GroupClauses(groups[..i]) + [Group(groups[i].String())]
  {
    var a, b := GroupClauses(groups[..i + 1]), GroupClauses(groups[..i]) + [Group(groups[i].String())];
    assert |a| == |b|;
    forall k | 0 <= k < |a| ensures a[k] == b[k] {
      assert groups[..i + 1][k] == groups[k];
    }
  }

  /** The order terms: quoted columns, ` DESC` for descending ones. */
  function OrderTerms(orders: seq<Property>): seq<string>
  {
    seq(|orders|, k requires 0 <= k < |orders| => orders[k].SQLWithOrder())
  }

  /** The single `ORDER BY` value of a non-empty list of properties. */
  function OrderBy(orders: seq<Property>): string
  {
    Join(OrderTerms(orders), ",")
  }

  /** The column list entry of a property: its quoted column, aliased to
      its remap or else to its unquoted `table.column`. */
  function SelectTerm(p: Property): string
  {
    p.SQL() + " as `" + (if p.remap != "" then p.remap else p.String()) + "`"
  }

  /** The tables of a property list. */
  function Tables(props: seq<Property>): seq<string>
  {
    seq(|props|, k requires 0 <= k < |props| => props[k].table)
  }

  /** `AutoJoin` to each target in turn. */
  function JoinTargets(edges: seq<Edge>, routes: seq<Route>, table: string, targets: seq<string>, st: QueryState): QueryState
  {
    if |targets| == 0 then st
    else AutoJoinSpec(edges, routes, table, targets[|targets| - 1], JoinTargets(edges, routes, table, targets[..|targets| - 1], st))
  }

  /** The join keys `AutoJoin(target)` needs. */
  function AutoJoinKeys(edges: seq<Edge>, routes: seq<Route>, table: string, target: string): set<string>
  {
    if target == table then {} else WalkedKeys(edges, table, GetHops(routes, table, target), 0)
  }

  /** The join keys of all targets. */
  function TargetKeys(edges: seq<Edge>, routes: seq<Route>, table: string, targets: seq<string>): set<string>
  {
    if |targets| == 0 then {}
    else TargetKeys(edges, routes, table, targets[..|targets| - 1]) + AutoJoinKeys(edges, routes, table, targets[|targets| - 1])
  }

  /** The properties `withJoins` selects: those asked for, or else all of
      the table's own. */
  function Selected(props: seq<Property>, tableProps: seq<Property>): seq<Property>
  {
    if |props| == 0 then tableProps else props
  }

  /** Targets that are all the request's own table need no join key. */
  lemma {:induction false} OwnTableTargets(edges: seq<Edge>, routes: seq<Route>, table: string, targets: seq<string>)
    requires forall k :: 0 <= k < |targets| ==> targets[k] == table
    ensures TargetKeys(edges, routes, table, targets) == {}
    decreases |targets|
  {
    if |targets| > 0 {
      OwnTableTargets(edges, routes, table, targets[..|targets| - 1]);
    }
  }

  class Builder {
    /** The request's own table, and the route table its version uses. */
    const table: string
    const edges: seq<Edge>
    const routes: seq<Route>
    var joined: set<string>
    var clauses: seq<Clause>

    function State(): QueryState
      reads this
    {
      QueryState(joined, clauses)
    }

    predicate Valid()
      reads this
    {
      Consistent(State())
    }

    /** `db.Table(name)` with empty `joined`/`on` key sets. */
    constructor (table: string, routes: seq<Route>)
      ensures this.table == table && this.edges == Edges && this.routes == routes
      ensures State() == Empty && Valid()
    {
      this.table := table;
      this.edges := Edges;
      this.routes := routes;
      joined := {};
      clauses := [];
    }

    /** `request.Where`: chains one `Where` clause. */
    method Where(expr: string, args: seq<string>)
      requires Valid()
      modifies this
      ensures Valid()
      ensures joined == old(joined) && clauses == old(clauses) + [Clause.Where(expr, args)]
    {
      AppendNonJoins(State(), [Clause.Where(expr, args)]);
      clauses := clauses + [Clause.Where(expr, args)];
    }

    /** `request.Not`: chains one `Not` clause. */
    method Not(expr: string, args: seq<string>)
      requires Valid()
      modifies this
      ensures Valid()
      ensures joined == old(joined) && clauses == old(clauses) + [Clause.Not(expr, args)]
    {
      AppendNonJoins(State(), [Clause.Not(expr, args)]);
      clauses := clauses + [Clause.Not(expr, args)];
    }

    /** `AutoJoin(target)`: walks the hops from the request's table towards
        `target`, emitting a `LEFT JOIN` for each edge whose key is not yet
        in `joined`, and giving up at the first hop without an edge. */
    method AutoJoin(target: string)
      requires Valid()
      modifies this
      ensures Valid()
      ensures State() == AutoJoinSpec(edges, routes, table, target, old(State()))
    {
      if target == table {
        return;
      }
      var hops := GetHops(routes, table, target);
      var here := table;
      var i := 0;
      while i < |hops|
        invariant 0 <= i <= |hops|
        invariant Walk(edges, table, hops, 0, old(State())) == Walk(edges, here, hops, i, State())
        invariant Valid()
      {
        var there := hops[i];
        var j := FindJoin(edges, here, there);
        if j.None? {
          return;
        }
        var e := j.value;
        if Key(e) !in joined {
          WalkConsistent(edges, here, hops, i, State());
          JoinStepEffect(State(), e, there);
          JoinCountAppend(clauses, [Joins(JoinSQL(e, there))]);
          joined := joined + {Key(e)};
          clauses := clauses + [Joins(JoinSQL(e, there))];
        }
        here := there;
        i := i + 1;
      }
    }

    /** `withJoins`: the table's own properties when none were asked for,
        an `AutoJoin` to each property's table in order, and one select
        term per property, returned for the `Select` call. */
    method WithJoins(props: seq<Property>, tableProps: seq<Property>) returns (selects: seq<string>)
      requires Valid()
      modifies this
      ensures Valid()
      ensures var ps := Selected(props, tableProps);
        State() == JoinTargets(edges, routes, table, Tables(ps), old(State()))
        && |selects| == |ps| && forall k :: 0 <= k < |ps| ==> selects[k] == SelectTerm(ps[k])
    {
      var ps := props;
      if |ps| == 0 {
        ps := tableProps;
      }
      ghost var ts := Tables(ps);
      ghost var st0 := State();
      var i := 0;
      while i < |ps|
        invariant 0 <= i <= |ps|
        invariant Valid()
        invariant State() == JoinTargets(edges, routes, table, ts[..i], st0)
      {
        JoinTargetsSnoc(edges, routes, table, ts, i, st0);
        AutoJoin(ps[i].table);
        i := i + 1;
      }
      assert ts[..i] == ts;
      selects := seq(|ps|, k requires 0 <= k < |ps| => SelectTerm(ps[k]));
    }

    /** The body of the `withFilters` loop of both versions for one matched filter: the
        operator mapped, leading `!`s turned into a `Not`, `empty` into a
        NULL-or-empty test, and the value bound to the condition. */
    method AddFilter(m: Match)
      requires Valid()
      modifies this
      ensures Valid()
      ensures joined == old(joined) && clauses == old(clauses) + [FilterClause(m)]
    {
      var op := SqlOp(m.op);
      var neg := StartsWith(m.value, '!');
      var value := if neg then TrimLeft(m.value, '!') else m.value;
      if value == "empty" {
        var where := m.col + " IS NULL or " + m.col + " = ?";
        if neg {
          Not(where, [""]);
        } else {
          Where(where, [""]);
        }
      } else {
        if StartsWith(value, '(') && op == " " {
          op := "IN";
        }
        var where := m.col + " " + op + " ?";
        if neg {
          Not(where, [value]);
        } else {
          Where(where, [value]);
        }
      }
    }

    /** The `withFilters` loop of both versions: each string the pattern
        matches adds its clause; the number of matches is returned (the
        current version keeps it as its count of valid filters). */
    method AddFilters(fs: seq<string>) returns (count: nat)
      requires Valid()
      modifies this
      ensures Valid()
      ensures joined == old(joined) && clauses == old(clauses) + FilterClauses(fs)
      ensures count == MatchedCount(fs)
    {
      count := 0;
      var i := 0;
      while i < |fs|
        invariant 0 <= i <= |fs|
        invariant Valid()
        invariant joined == old(joined) && clauses == old(clauses) + FilterClauses(fs[..i])
        invariant count == MatchedCount(fs[..i])
      {
        var l := FindFilter(fs[i]);
        FiltersStep(fs, i);
        if l.Some? {
          AppendAssoc(old(clauses), FilterClauses(fs[..i]), [FilterClause(l.value)]);
          AddFilter(l.value);
          count := count + 1;
        } else {
          assert FilterClauses(fs[..i + 1]) == FilterClauses(fs[..i]) + [];
        }
        i := i + 1;
      }
      assert fs[..i] == fs;
    }

    /** `withGroups`: one `Group` clause per property, in order. */
    method WithGroups(groups: seq<Property>)
      requires Valid()
      modifies this
      ensures Valid()
      ensures joined == old(joined) && clauses == old(clauses) + GroupClauses(groups)
    {
      var i := 0;
      while i < |groups|
        invariant 0 <= i <= |groups|
        invariant joined == old(joined) && clauses == old(clauses) + GroupClauses(groups[..i])
        invariant Valid()
      {
        var g := [Group(groups[i].String())];
        AppendNonJoins(State(), g);
        GroupClausesSnoc(groups, i);
        AppendAssoc(old(clauses), GroupClauses(groups[..i]), g);
        clauses := clauses + g;
        i := i + 1;
      }
      assert groups[..i] == groups;
    }

    /** `withOrders`: nothing for an empty list, otherwise a single `Order`
        clause joining the order terms with `,`. */
    method WithOrders(orders: seq<Property>)
      requires Valid()
      modifies this
      ensures Valid()
      ensures joined == old(joined)
      ensures |orders| == 0 ==> clauses == old(clauses)
      ensures |orders| > 0 ==> clauses == old(clauses) + [Order(OrderBy(orders))]
    {
      if |orders| == 0 {
        return;
      }
      var terms: seq<string> := [];
      var i := 0;
      while i < |orders|
        invariant 0 <= i <= |orders|
        invariant terms == OrderTerms(orders[..i])
      {
        terms := terms + [orders[i].SQLWithOrder()];
        i := i + 1;
      }
      assert orders[..i] == orders;
      AppendNonJoins(State(), [Order(Join(terms, ","))]);
      clauses := clauses + [Order(Join(terms, ","))];
    }

    /** `tx.Offset(offset).Limit(limit)`. */
    method Paginate(offset: int, limit: int)
      requires Valid()
      modifies this
      ensures Valid()
      ensures joined == old(joined) && clauses == old(clauses) + [Offset(offset), Limit(limit)]
    {
      AppendNonJoins(State(), [Offset(offset), Limit(limit)]);
      clauses := clauses + [Offset(offset), Limit(limit)];
    }
  }

  // -----------------------------------------------------------------------
  // Joining a list of tables

  lemma JoinTargetsSnoc(edges: seq<Edge>, routes: seq<Route>, table: string, ts: seq<string>, i: nat, st: QueryState)
    requires i < |ts|
    ensures JoinTargets(edges, routes, table, ts[..i + 1], st)
      == AutoJoinSpec(edges, routes, table, ts[i], JoinTargets(edges, routes, table, ts[..i], st))
  {
    assert ts[..i + 1][..i] == ts[..i];
  }

  lemma AutoJoinRecordsKeys(edges: seq<Edge>, routes: seq<Route>, table: string, target: string, st: QueryState)
    ensures AutoJoinSpec(edges, routes, table, target, st).joined == st.joined + AutoJoinKeys(edges, routes, table, target)
    ensures AutoJoinKeys(edges, routes, table, target) <= st.joined ==> AutoJoinSpec(edges, routes, table, target, st) == st
  {
    if target != table {
      var hops := GetHops(routes, table, target);
      WalkJoined(edges, table, hops, 0, st);
      if AutoJoinKeys(edges, routes, table, target) <= st.joined {
        WalkRecorded(edges, table, hops, 0, st);
      }
    }
  }

  /** Joining a list of tables records exactly the keys they need, keeps
      the earlier clauses in front, appends only joins and keeps the state
      consistent; when every key is already recorded it changes nothing. */
  lemma {:induction false} JoinTargetsEffect(edges: seq<Edge>, routes: seq<Route>, table: string, targets: seq<string>, st: QueryState)
    ensures var r := JoinTargets(edges, routes, table, targets, st);
      r.joined == st.joined + TargetKeys(edges, routes, table, targets)
      && |r.clauses| >= |st.clauses| && r.clauses[..|st.clauses|] == st.clauses
      && (forall k :: |st.clauses| <= k < |r.clauses| ==> r.clauses[k].Joins?)
      && (Consistent(st) ==> Consistent(r))
    ensures TargetKeys(edges, routes, table, targets) <= st.joined ==> JoinTargets(edges, routes, table, targets, st) == st
    decreases |targets|
  {
    if |targets| > 0 {
      var init := targets[..|targets| - 1];
      var t := targets[|targets| - 1];
      var s1 := JoinTargets(edges, routes, table, init, st);
      JoinTargetsEffect(edges, routes, table, init, st);
      AutoJoinRecordsKeys(edges, routes, table, t, s1);
      AutoJoinProperties(edges, routes, table, t, s1);
      var r := JoinTargets(edges, routes, table, targets, st);
      assert r.clauses[..|st.clauses|] == r.clauses[..|s1.clauses|][..|st.clauses|];
      forall k | |st.clauses| <= k < |r.clauses| ensures r.clauses[k].Joins? {
        if k < |s1.clauses| {
          assert r.clauses[k] == s1.clauses[k];
        }
      }
    }
  }

  /** Joining the same tables a second time adds nothing, so a table listed
      by several properties, or reached by several routes, is joined once. */
  lemma JoinTargetsIdempotent(edges: seq<Edge>, routes: seq<Route>, table: string, targets: seq<string>, st: QueryState)
    ensures JoinTargets(edges, routes, table, targets, JoinTargets(edges, routes, table, targets, st))
      == JoinTargets(edges, routes, table, targets, st)
  {
    var r := JoinTargets(edges, routes, table, targets, st);
    JoinTargetsEffect(edges, routes, table, targets, st);
    JoinTargetsEffect(edges, routes, table, targets, r);
  }

  // -----------------------------------------------------------------------
  // What the ordering clause says

  lemma SQLEndsWithQuote(p: Property)
    ensures |p.SQL()| > 0 && p.SQL()[|p.SQL()| - 1] == '`'
  {
  }

  /** An order term ends in ` DESC` exactly for a descending property. */
  lemma OrderTermDescending(p: Property)
    ensures var t := p.SQLWithOrder();
      p.desc <==> |t| >= 5 && t[|t| - 5..] == " DESC"
  {
    SQLEndsWithQuote(p);
    var t := p.SQLWithOrder();
    if p.desc {
      assert t == p.SQL() + " DESC";
      assert t[|t| - 5..] == " DESC";
    } else {
      assert t[|t| - 1] == '`';
    }
  }

  /** When no table or column name holds a comma, the `ORDER BY` value
      splits back on `,` into one term per property, in input order. */
  lemma OrderBySplits(orders: seq<Property>)
    requires |orders| > 0
    requires forall k :: 0 <= k < |orders| ==> ',' !in orders[k].SQLWithOrder()
    ensures Split(OrderBy(orders), ',') == OrderTerms(orders)
  {
    SplitJoin(OrderTerms(orders), ',');
  }
}

=== FILE: filters.dfy ===
/** The filter micro-language: strings such as `app=acme`, `svc_id>3` or
    `tag_name !empty`, matched by the pattern
    `([a-zA-Z_.]+)\s*(=|>| |~|>=|<=)\s*(.*)` with Go's leftmost-first
    (backtracking) semantics, and the `Where`/`Not` clause each match
    becomes. */
module Filters {
  import opened Strs
  import opened Sql

  /** The submatches: column, operator and value. */
  datatype Match = Match(col: string, op: string, value: string)

  /** `[a-zA-Z_.]` */
  predicate IsIdentChar(c: char)
  {
    ('a' <= c <= 'z') || ('A' <= c <= 'Z') || c == '_' || c == '.'
  }

  /** Go's `\s`: `[\t\n\f\r ]`. */
  predicate IsSpace(c: char)
  {
    c == '\t' || c == '\n' || c == '\U{000C}' || c == '\r' || c == ' '
  }

  /** End of the identifier run starting at `i` (greedy `[a-zA-Z_.]*`). */
  function IdentEnd(s: string, i: nat): (r: nat)
    requires i <= |s|
    ensures i <= r <= |s|
    ensures forall k :: i <= k < r ==> IsIdentChar(s[k])
    ensures r == |s| || !IsIdentChar(s[r])
    decreases |s| - i
  {
    if i < |s| && IsIdentChar(s[i]) then IdentEnd(s, i + 1) else i
  }

  /** End of the whitespace run starting at `i` (greedy `\s*`). */
  function SpaceEnd(s: string, i: nat): (r: nat)
    requires i <= |s|
    ensures i <= r <= |s|
    ensures forall k :: i <= k < r ==> IsSpace(s[k])
    ensures r == |s| || !IsSpace(s[r])
    decreases |s| - i
  {
    if i < |s| && IsSpace(s[i]) then SpaceEnd(s, i + 1) else i
  }

  /** End of `.*` from `i`: `.` matches anything but a newline. */
  function LineEnd(s: string, i: nat): (r: nat)
    requires i <= |s|
    ensures i <= r <= |s|
    ensures forall k :: i <= k < r ==> s[k] != '\n'
    ensures r == |s| || s[r] == '\n'
    decreases |s| - i
  {
    if i < |s| && s[i] != '\n' then LineEnd(s, i + 1) else i
  }

  /** The alternatives of the operator group, in the order they are tried. */
  const Operators: seq<string> := ["=", ">", " ", "~", ">=", "<="]

  /** The literal `lit` occurs in `s` at position `k`. */
  predicate HasAt(s: string, k: nat, lit: string)
  {
    k + |lit| <= |s| && s[k..k + |lit|] == lit
  }

  function OpFrom(s: string, k: nat, i: nat): Option<string>
    requires i <= |Operators|
    decreases |Operators| - i
  {
    if i == |Operators| then None
    else if HasAt(s, k, Operators[i]) then Some(Operators[i])
    else OpFrom(s, k, i + 1)
  }

  /** The alternation `=|>| |~|>=|<=` at position `k`: the first
      alternative that matches there. */
  function OpAt(s: string, k: nat): Option<string>
  {
    OpFrom(s, k, 0)
  }

  /** Backtracking of the first `\s*`: the operator is tried at the end of
      the whitespace, then at each shorter whitespace prefix down to `e`. */
  function OpBack(s: string, e: nat, k: nat): Option<(nat, string)>
    requires e <= k <= |s|
    decreases k - e
  {
    match OpAt(s, k)
    case Some(op) => Some((k, op))
    case None => if k == e then None else OpBack(s, e, k - 1)
  }

  /** The rest of the match once the operator `op` sits at `k`: the second
      `\s*` and then `(.*)`, which always match. */
  function ValueAfter(s: string, k: nat, op: string): string
    requires k + |op| <= |s|
  {
    var v := SpaceEnd(s, k + |op|);
    s[v..LineEnd(s, v)]
  }

  /** Backtracking of `[a-zA-Z_.]+` started at `p`: the identifier is tried
      as `s[p..e]` for `e` from its greatest end down to `p + 1`. */
  function IdentBack(s: string, p: nat, e: nat): Option<Match>
    requires p < e <= |s|
    decreases e
  {
    match OpBack(s, e, SpaceEnd(s, e))
    case Some((k, op)) =>
      if k + |op| <= |s| then Some(Match(s[p..e], op, ValueAfter(s, k, op))) else None
    case None => if e == p + 1 then None else IdentBack(s, p, e - 1)
  }

  /** An attempt to match starting at position `p`. */
  function MatchAt(s: string, p: nat): Option<Match>
    requires p <= |s|
  {
    if p < |s| && IsIdentChar(s[p]) then IdentBack(s, p, IdentEnd(s, p)) else None
  }

  function FindFrom(s: string, p: nat): Option<Match>
    requires p <= |s|
    decreases |s| - p
  {
    if p == |s| then None
    else match MatchAt(s, p)
      case Some(m) => Some(m)
      case None => FindFrom(s, p + 1)
  }

  /** `reFilter.FindStringSubmatch(s)`: the leftmost match, if any. */
  function FindFilter(s: string): Option<Match>
  {
    FindFrom(s, 0)
  }

  // ---------------------------------------------------------------------
  // What the matcher can capture

  /** The operators the matcher can report: `>=` is not among them, since
      the alternative `>` is tried first and always wins. */
  predicate CapturedOp(op: string)
  {
    op == "=" || op == ">" || op == " " || op == "~" || op == "<="
  }

  /** Column, operator and value of a match, as the pattern constrains them. */
  predicate WellFormed(m: Match)
  {
    IsIdent(m.col) && CapturedOp(m.op) && '\n' !in m.value
  }

  /** The operator tried at `k` is decided by the character there: `=`,
      `>`, space and `~` stand for themselves, and `<` only when an `=`
      follows. The alternative `>=` is never the first to match. */
  lemma OpAtChar(s: string, k: nat)
    ensures OpAt(s, k) ==
      if k >= |s| then None
      else if s[k] == '=' then Some("=")
      else if s[k] == '>' then Some(">")
      else if s[k] == ' ' then Some(" ")
      else if s[k] == '~' then Some("~")
      else if s[k] == '<' && k + 1 < |s| && s[k + 1] == '=' then Some("<=")
      else None
  {
    if k < |s| {
      assert s[k..k + 1] == [s[k]];
      assert k + 2 <= |s| ==> s[k..k + 2] == [s[k], s[k + 1]];
      assert HasAt(s, k, "=") <==> s[k] == '=';
      assert HasAt(s, k, ">") <==> s[k] == '>';
      assert HasAt(s, k, " ") <==> s[k] == ' ';
      assert HasAt(s, k, "~") <==> s[k] == '~';
      assert HasAt(s, k, ">=") <==> k + 1 < |s| && s[k] == '>' && s[k + 1] == '=';
      assert HasAt(s, k, "<=") <==> k + 1 < |s| && s[k] == '<' && s[k + 1] == '=';
    }
  }

  lemma OpAtCaptured(s: string, k: nat)
    requires k <= |s| && OpAt(s, k).Some?
    ensures CapturedOp(OpAt(s, k).value) && k + |OpAt(s, k).value| <= |s|
  {
    OpAtChar(s, k);
  }

  lemma {:induction false} OpBackCaptured(s: string, e: nat, k: nat)
    requires e <= k <= |s|
    ensures var r := OpBack(s, e, k);
      r.Some? ==> e <= r.value.0 <= k && CapturedOp(r.value.1) && r.value.0 + |r.value.1| <= |s|
    decreases k - e
  {
    if OpAt(s, k).Some? {
      OpAtCaptured(s, k);
    } else if k > e {
      OpBackCaptured(s, e, k - 1);
    }
  }

  lemma ValueOneLine(s: string, k: nat, op: string)
    requires k + |op| <= |s|
    ensures '\n' !in ValueAfter(s, k, op)
  {
    var v := SpaceEnd(s, k + |op|);
    var val := ValueAfter(s, k, op);
    forall j | 0 <= j < |val| ensures val[j] != '\n' {
      assert val[j] == s[v + j];
    }
  }

  lemma {:induction false} IdentBackWellFormed(s: string, p: nat, e: nat)
    requires p < e <= |s| && IsIdent(s[p..e])
    ensures var r := IdentBack(s, p, e); r.Some? ==> WellFormed(r.value)
    decreases e
  {
    if OpBack(s, e, SpaceEnd(s, e)).Some? {
      IdentBackFound(s, p, e);
    } else {
      IdentBackSkip(s, p, e);
      if e > p + 1 {
        IdentShorter(s, p, e);
        IdentBackWellFormed(s, p, e - 1);
      }
    }
  }

  lemma IdentShorter(s: string, p: nat, e: nat)
    requires p + 1 < e <= |s| && IsIdent(s[p..e])
    ensures IsIdent(s[p..e - 1])
  {
    var col, shorter := s[p..e], s[p..e - 1];
    forall j | 0 <= j < |shorter| ensures IsIdentChar(shorter[j]) {
      assert shorter[j] == col[j];
    }
  }

  /** One backtracking step: no operator after `s[p..e]`, so the match is
      the one with the identifier one character shorter, or none when no
      shorter identifier is left. */
  lemma IdentBackSkip(s: string, p: nat, e: nat)
    requires p < e <= |s| && OpBack(s, e, SpaceEnd(s, e)).None?
    ensures IdentBack(s, p, e) == if e == p + 1 then None else IdentBack(s, p, e - 1)
  {
  }

  /** With an operator after the identifier `s[p..e]`, the match found is
      well formed. */
  lemma IdentBackFound(s: string, p: nat, e: nat)
    requires p < e <= |s| && IsIdent(s[p..e])
    requires OpBack(s, e, SpaceEnd(s, e)).Some?
    ensures var r := IdentBack(s, p, e); r.Some? ==> WellFormed(r.value)
  {
    var (k, op) := OpBack(s, e, SpaceEnd(s, e)).value;
    OpBackCaptured(s, e, SpaceEnd(s, e));
    ValueOneLine(s, k, op);
  }

  /** The greedy identifier run from `p` is an identifier. */
  lemma IdentRun(s: string, p: nat)
    requires p < |s| && IsIdentChar(s[p])
    ensures p < IdentEnd(s, p) && IsIdent(s[p..IdentEnd(s, p)])
  {
    var e := IdentEnd(s, p);
    assert forall j :: 0 <= j < e - p ==> s[p..e][j] == s[p + j];
  }

  lemma {:induction false} FindFromWellFormed(s: string, p: nat)
    requires p <= |s|
    ensures var r := FindFrom(s, p); r.Some? ==> WellFormed(r.value)
    decreases |s| - p
  {
    if p < |s| {
      if MatchAt(s, p).Some? {
        IdentRun(s, p);
        IdentBackWellFormed(s, p, IdentEnd(s, p));
      } else {
        FindFromWellFormed(s, p + 1);
      }
    }
  }

  /** Every match has a non-empty identifier column, one of the operators
      `=`, `>`, ` `, `~`, `<=` (never `>=`), and a value without newline. */
  lemma FindFilterWellFormed(s: string)
    ensures var r := FindFilter(s); r.Some? ==> WellFormed(r.value)
  {
    FindFromWellFormed(s, 0);
  }

  // ---------------------------------------------------------------------
  // Strings that do not match

  /** None of the characters an operator can start with. */
  predicate NoOperatorChar(s: string)
  {
    forall k :: 0 <= k < |s| ==> s[k] != '=' && s[k] != '>' && s[k] != ' ' && s[k] != '~'
  }

  lemma {:induction false} OpBackNone(s: string, e: nat, k: nat)
    requires e <= k <= |s| && NoOperatorChar(s)
    ensures OpBack(s, e, k).None?
    decreases k - e
  {
    OpAtChar(s, k);
    if k > e {
      OpBackNone(s, e, k - 1);
    }
  }

  lemma {:induction false} IdentBackNone(s: string, p: nat, e: nat)
    requires p < e <= |s| && NoOperatorChar(s)
    ensures IdentBack(s, p, e).None?
    decreases e
  {
    OpBackNone(s, e, SpaceEnd(s, e));
    IdentBackSkip(s, p, e);
    if e > p + 1 {
      IdentBackNone(s, p, e - 1);
    }
  }

  lemma {:induction false} FindFromNone(s: string, p: nat)
    requires p <= |s| && NoOperatorChar(s)
    ensures FindFrom(s, p).None?
    decreases |s| - p
  {
    if p < |s| {
      if IsIdentChar(s[p]) {
        IdentBackNone(s, p, IdentEnd(s, p));
      }
      FindFromNone(s, p + 1);
    }
  }

  /** A string holding none of `=`, `>`, ` `, `~` is not a filter: a bare
      `<` (as in `a<5`) is not an operator, and `<=` needs an `=`. */
  lemma NoOperatorNoMatch(s: string)
    requires NoOperatorChar(s)
    ensures FindFilter(s).None?
  {
    FindFromNone(s, 0);
  }

  // ---------------------------------------------------------------------
  // Rendering and re-matching

  predicate IsIdent(col: string)
  {
    |col| > 0 && forall k :: 0 <= k < |col| ==> IsIdentChar(col[k])
  }

  /** A value the trailing `\s*(.*)` captures whole: one line, not starting
      with whitespace. */
  predicate PlainValue(value: string)
  {
    '\n' !in value && (value == "" || !IsSpace(value[0]))
  }

  lemma IdentEndOf(col: string, rest: string)
    requires IsIdent(col) && (rest == [] || !IsIdentChar(rest[0]))
    ensures IdentEnd(col + rest, 0) == |col|
  {
    var s := col + rest;
    assert forall k :: 0 <= k < |col| ==> s[k] == col[k];
    assert |rest| > 0 ==> s[|col|] == rest[0];
  }

  lemma ValueOf(s: string, at: nat, value: string)
    requires at <= |s| && s[at..] == value && PlainValue(value)
    ensures SpaceEnd(s, at) == at && LineEnd(s, at) == |s|
  {
    if at < |s| {
      assert s[at] == value[0];
    }
    assert forall k :: at <= k < |s| ==> s[k] == value[k - at];
  }

  /** `col` immediately followed by one of the operators `=`, `>`, `~`,
      `<=` and a plain value is matched back into those three parts. */
  lemma MatchRendered(col: string, op: string, value: string)
    requires IsIdent(col) && (op == "=" || op == ">" || op == "~" || op == "<=") && PlainValue(value)
    ensures FindFilter(col + op + value) == Some(Match(col, op, value))
  {
    var rest := op + value;
    assert col + op + value == col + rest;
    MatchAfterIdent(col, rest, op, value);
  }

  lemma MatchAfterIdent(col: string, rest: string, op: string, value: string)
    requires IsIdent(col) && (op == "=" || op == ">" || op == "~" || op == "<=") && PlainValue(value)
    requires rest == op + value
    ensures FindFilter(col + rest) == Some(Match(col, op, value))
  {
    var s := col + rest;
    var e := |col|;
    assert s[e..] == rest;
    assert s[e] == rest[0] == op[0];
    IdentEndOf(col, rest);
    assert SpaceEnd(s, e) == e;
    OperatorAt(s, e, op, value);
    assert s[..e] == col;
    MatchFound(s, e, e, op, value);
  }

  lemma OperatorAt(s: string, e: nat, op: string, value: string)
    requires (op == "=" || op == ">" || op == "~" || op == "<=") && PlainValue(value)
    requires e <= |s| && s[e..] == op + value
    ensures e + |op| <= |s| && OpAt(s, e) == Some(op) && ValueAfter(s, e, op) == value
  {
    assert s[e] == op[0];
    OpAtChar(s, e);
    if op == "<=" {
      assert s[e + 1] == '=';
    }
    assert s[e + |op|..] == value;
    ValueOf(s, e + |op|, value);
  }

  /** The match found once the identifier ends at `e` and the operator is
      found at `k`. */
  lemma MatchFound(s: string, e: nat, k: nat, op: string, value: string)
    requires 0 < e <= k <= |s| && IdentEnd(s, 0) == e
    requires OpBack(s, e, SpaceEnd(s, e)) == Some((k, op))
    requires k + |op| <= |s| && ValueAfter(s, k, op) == value
    ensures FindFilter(s) == Some(Match(s[..e], op, value))
  {
    assert IsIdentChar(s[0]);
    assert IdentBack(s, 0, e) == Some(Match(s[..e], op, value));
  }

  /** `col value` with a single space is a space-operator filter, provided
      the value does not itself begin with an operator character. */
  lemma MatchSpaceRendered(col: string, value: string)
    requires IsIdent(col) && PlainValue(value)
    requires value == "" || (value[0] != '=' && value[0] != '>' && value[0] != '~' && value[0] != '<')
    ensures FindFilter(col + " " + value) == Some(Match(col, " ", value))
  {
    var s := col + " " + value;
    assert s == col + (" " + value);
    IdentEndOf(col, " " + value);
    var e := |col|;
    assert s[e] == ' ';
    assert s[e + 1..] == value;
    ValueOf(s, e + 1, value);
    assert SpaceEnd(s, e) == e + 1 by {
      assert s[e + 1..] == value;
      if e + 1 < |s| {
        assert s[e + 1] == value[0];
      }
    }
    assert OpAt(s, e + 1).None? by {
      OpAtChar(s, e + 1);
      if e + 1 < |s| {
        assert s[e + 1] == value[0];
      }
    }
    OpAtChar(s, e);
    assert OpBack(s, e, e + 1) == Some((e, " "));
    assert s[..e] == col;
    assert ValueAfter(s, e, " ") == value;
    MatchFound(s, e, e, " ", value);
  }

  /** `a>=5` is the operator `>` with the value `=5`. */
  lemma GreaterEqualSplits()
    ensures FindFilter("a>=5") == Some(Match("a", ">", "=5"))
  {
    assert "a>=5" == "a" + ">" + "=5";
    MatchRendered("a", ">", "=5");
  }

  /** `a<5` is not a filter. */
  lemma LessThanIgnored()
    ensures FindFilter("a<5").None?
  {
    NoOperatorNoMatch("a<5");
  }

  // ---------------------------------------------------------------------
  // Clauses

  /** `~` and a space both mean `LIKE`; the other operators are used as is. */
  function SqlOp(op: string): (r: string)
    ensures CapturedOp(op) ==> r in {"=", ">", "LIKE", "<="}
    ensures r == "LIKE" <==> op == "~" || op == " " || op == "LIKE"
  {
    if op == "~" || op == " " then "LIKE" else op
  }

  /** The clause a matched filter adds in `withFilters`: leading `!`s
      negate (a `Not` clause); the value `empty` tests for NULL or the empty
      string; any other value is bound to `col op ?`. The upgrade to `IN`
      tests the operator after it was mapped, so it cannot fire. */
  function FilterClause(m: Match): Clause
  {
    var op := SqlOp(m.op);
    var neg := StartsWith(m.value, '!');
    var value := if neg then TrimLeft(m.value, '!') else m.value;
    if value == "empty" then
      var where := m.col + " IS NULL or " + m.col + " = ?";
      if neg then Not(where, [""]) else Where(where, [""])
    else
      var op2 := if StartsWith(value, '(') && op == " " then "IN" else op;
      var where := m.col + " " + op2 + " ?";
      if neg then Not(where, [value]) else Where(where, [value])
  }

  /** The value with every leading `!` removed. */
  function Unnegated(value: string): string
  {
    if StartsWith(value, '!') then TrimLeft(value, '!') else value
  }

  /** The clause is a `Not` exactly when the value starts with `!`; the
      value `empty` (after the `!`s) becomes a NULL-or-empty test bound to
      `""`; any other value is bound, without its `!`s, to `col op ?` where
      `op` is the mapped operator and never `IN`. */
  lemma FilterClauseShape(m: Match)
    ensures FilterClause(m).Not? <==> StartsWith(m.value, '!')
    ensures FilterClause(m).Where? || FilterClause(m).Not?
    ensures Unnegated(m.value) == "empty" ==>
      FilterClause(m).expr == m.col + " IS NULL or " + m.col + " = ?" && FilterClause(m).args == [""]
    ensures Unnegated(m.value) != "empty" ==>
      FilterClause(m).expr == m.col + " " + SqlOp(m.op) + " ?" && FilterClause(m).args == [Unnegated(m.value)]
    ensures !StartsWith(Unnegated(m.value), '!')
  {
  }

  /** The clauses the matching strings of a list add, in order. */
  function FilterClauses(filters: seq<string>): (r: seq<Clause>)
    ensures forall k :: 0 <= k < |r| ==> r[k].Where? || r[k].Not?
  {
    if |filters| == 0 then []
    else
      var last := FindFilter(filters[|filters| - 1]);
      FilterClauses(filters[..|filters| - 1]) + (if last.Some? then [FilterClause(last.value)] else [])
  }

  /** One more string adds its clause, and one to the count, exactly when
      the pattern matches it. */
  lemma FiltersStep(filters: seq<string>, i: nat)
    requires i < |filters|
    ensures var m := FindFilter(filters[i]);
      FilterClauses(filters[..i + 1]) == FilterClauses(filters[..i]) + (if m.Some? then [FilterClause(m.value)] else [])
      && MatchedCount(filters[..i + 1]) == MatchedCount(filters[..i]) + (if m.Some? then 1 else 0)
  {
    assert filters[..i + 1][..i] == filters[..i];
  }

  /** The number of strings of a list the pattern matches. */
  function MatchedCount(filters: seq<string>): nat
  {
    if |filters| == 0 then 0
    else MatchedCount(filters[..|filters| - 1]) + (if FindFilter(filters[|filters| - 1]).Some? then 1 else 0)
  }

  /** One clause per matching string; the count is positive exactly when
      some string of the list matches. */
  lemma {:induction false} MatchedCountClauses(filters: seq<string>)
    ensures |FilterClauses(filters)| == MatchedCount(filters)
    ensures MatchedCount(filters) > 0 <==> exists k :: 0 <= k < |filters| && FindFilter(filters[k]).Some?
    decreases |filters|
  {
    if |filters| > 0 {
      var init := filters[..|filters| - 1];
      MatchedCountClauses(init);
      if MatchedCount(init) > 0 {
        var k :| 0 <= k < |init| && FindFilter(init[k]).Some?;
        assert filters[k] == init[k];
      }
      if MatchedCount(filters) > 0 && MatchedCount(init) == 0 {
        assert FindFilter(filters[|filters| - 1]).Some?;
      }
      forall k | 0 <= k < |filters| && FindFilter(filters[k]).Some?
        ensures MatchedCount(filters) > 0
      {
        if k < |init| {
          assert init[k] == filters[k];
        }
      }
    }
  }

  /** The clauses added by filters never hold a join, so a consistent query
      state stays consistent. */
  lemma FilterClausesKeepConsistent(st: QueryState, filters: seq<string>)
    requires Consistent(st)
    ensures Consistent(QueryState(st.joined, st.clauses + FilterClauses(filters)))
  {
    AppendNonJoins(st, FilterClauses(filters));
  }
}

=== FILE: joins.dfy ===
/** The static join graph (`tableJoins`), the route table (`tableRoutes`)
    and the path resolver `getHops`, with the specification of the hop walk
    `AutoJoin` performs. The edge list is the same in both versions of the
    engine; the route lists differ. */
module JoinGraph {
  import opened Strs
  import opened Sql

  /** `tableJoin`: the tables `from` and `to` are joined on pairs of columns. */
  datatype Edge = Edge(from: string, to: string, cols: seq<(string, string)>)

  /** `tableRoute`: reach `to` from `from` through the tables in `via`. */
  datatype Route = Route(from: string, to: string, via: seq<string>)

  const Edges: seq<Edge> := [
    Edge("tags", "node_tags", [("tag_id", "tag_id")]),
    Edge("tags", "svc_tags", [("tag_id", "tag_id")]),
    Edge("nodes", "node_tags", [("node_id", "node_id")]),
    Edge("nodes", "svcmon", [("node_id", "node_id")]),
    Edge("nodes", "apps", [("app", "app")]),
    Edge("services", "apps", [("svc_app", "app")]),
    Edge("services", "svcmon", [("svc_id", "svc_id")]),
    Edge("services", "svc_tags", [("svc_id", "svc_id")]),
    Edge("svcmon", "svc_tags", [("svc_id", "svc_id")]),
    Edge("svcmon", "resmon", [("node_id", "node_id"), ("svc_id", "svc_id")]),
    Edge("auth_user", "auth_membership", [("user_id", "user_id")]),
    Edge("auth_membership", "apps_publications", [("group_id", "group_id")]),
    Edge("auth_membership", "apps_responsibles", [("group_id", "group_id")]),
    Edge("apps", "apps_publications", [("id", "app_id")]),
    Edge("apps", "apps_responsibles", [("id", "app_id")])
  ]

  /** The route table of the current engine. */
  const CurrentRoutes: seq<Route> := [
    Route("tags", "nodes", ["node_tags"]),
    Route("tags", "services", ["svc_tags"]),
    Route("tags", "apps_publications", ["svc_tags", "services", "apps"]),
    Route("tags", "auth_membership", ["svc_tags", "services", "apps", "apps_publications"]),
    Route("nodes", "apps_publications", ["apps"]),
    Route("nodes", "apps_responsibles", ["apps"]),
    Route("nodes", "auth_membership", ["apps", "apps_publications"]),
    Route("node_tags", "apps", ["nodes"]),
    Route("node_tags", "apps_publications", ["nodes", "apps"]),
    Route("node_tags", "auth_membership", ["nodes", "apps", "apps_publications"]),
    Route("services", "nodes", ["svcmon"]),
    Route("services", "apps_publications", ["apps"]),
    Route("services", "apps_responsibles", ["apps"]),
    Route("services", "auth_membership", ["apps", "apps_publications"]),
    Route("svc_tags", "apps", ["services"]),
    Route("svc_tags", "apps_publications", ["services", "apps"]),
    Route("svc_tags", "auth_membership", ["services", "apps", "apps_publications"])
  ]

  /** The route table of the older engine. */
  const LegacyRoutes: seq<Route> := [
    Route("tags", "nodes", ["node_tags"]),
    Route("tags", "services", ["svc_tags"]),
    Route("nodes", "apps_publications", ["apps"]),
    Route("nodes", "auth_membership", ["apps", "apps_publications"]),
    Route("node_tags", "apps", ["nodes", "apps", "apps_publications"]),
    Route("node_tags", "apps_publications", ["nodes", "apps"]),
    Route("services", "nodes", ["svcmon"]),
    Route("services", "apps_publications", ["apps"]),
    Route("services", "apps_responsibles", ["apps"]),
    Route("services", "auth_membership", ["apps", "apps_publications"]),
    Route("svc_tags", "apps", ["services", "apps", "apps_publications"]),
    Route("svc_tags", "apps_publications", ["services"])
  ]

  // ---------------------------------------------------------------------
  // Pair keys

  /** `genKey(a, b)`: the two names in Go string order, separated by `:`. */
  function GenKey(a: string, b: string): string
  {
    if Less(a, b) then a + ":" + b else b + ":" + a
  }

  /** `tableJoin.Key`: the key under which `joinedTables` records an edge. */
  function Key(e: Edge): string
  {
    GenKey(e.from, e.to)
  }

  /** The key does not depend on the orientation of the pair. */
  lemma GenKeySymmetric(a: string, b: string)
    ensures GenKey(a, b) == GenKey(b, a)
  {
    LessTrichotomy(a, b);
  }

  lemma ColonSplit(x: string, y: string, u: string, v: string)
    requires ':' !in x && ':' !in u
    requires x + ":" + y == u + ":" + v
    ensures x == u && y == v
  {
    var s := x + ":" + y;
    assert IndexOf(s, ':') == Some(|x|) by {
      assert s[|x|] == ':' && s[..|x|] == x;
    }
    assert IndexOf(s, ':') == Some(|u|) by {
      assert s[|u|] == ':' && s[..|u|] == u;
    }
    assert x == s[..|x|] && u == s[..|u|];
    assert y == s[|x| + 1..] && v == s[|u| + 1..];
  }

  /** For names without `:`, two keys are equal exactly when they are keys
      of the same unordered pair. */
  lemma GenKeyPair(a: string, b: string, c: string, d: string)
    requires ':' !in a && ':' !in b && ':' !in c && ':' !in d
    ensures GenKey(a, b) == GenKey(c, d) <==> (a == c && b == d) || (a == d && b == c)
  {
    LessTrichotomy(a, b);
    LessTrichotomy(c, d);
    GenKeySymmetric(a, b);
    GenKeySymmetric(c, d);
    if GenKey(a, b) == GenKey(c, d) {
      var (x, y) := if Less(a, b) then (a, b) else (b, a);
      var (u, v) := if Less(c, d) then (c, d) else (d, c);
      ColonSplit(x, y, u, v);
    }
  }

  // ---------------------------------------------------------------------
  // Edge lookup

  /** Edge `e` connects `a` and `b`, in either orientation. */
  predicate Connects(e: Edge, a: string, b: string)
  {
    (e.from == a && e.to == b) || (e.from == b && e.to == a)
  }

  function FindJoinFrom(edges: seq<Edge>, a: string, b: string, i: nat): Option<Edge>
    requires i <= |edges|
    decreases |edges| - i
  {
    if i == |edges| then None
    else
      var e := edges[i];
      if a == e.from && b == e.to then Some(e)
      else if b == e.from && a == e.to then Some(e)
      else FindJoinFrom(edges, a, b, i + 1)
  }

  /** `findJoin(a, b)`: the first edge of the list joining `a` and `b`, in
      either orientation, or none. */
  function FindJoin(edges: seq<Edge>, a: string, b: string): Option<Edge>
  {
    FindJoinFrom(edges, a, b, 0)
  }

  lemma {:induction false} FindJoinFromFirst(edges: seq<Edge>, a: string, b: string, i: nat)
    requires i <= |edges|
    ensures var r := FindJoinFrom(edges, a, b, i);
      (r.Some? ==> exists k :: i <= k < |edges| && r.value == edges[k] && Connects(edges[k], a, b)
                     && forall m :: i <= m < k ==> !Connects(edges[m], a, b))
      && (r.None? <==> forall k :: i <= k < |edges| ==> !Connects(edges[k], a, b))
    decreases |edges| - i
  {
    if i < |edges| {
      FindJoinFromFirst(edges, a, b, i + 1);
      var r := FindJoinFrom(edges, a, b, i);
      if !Connects(edges[i], a, b) && r.Some? {
        var k :| i + 1 <= k < |edges| && r.value == edges[k] && Connects(edges[k], a, b)
                 && forall m :: i + 1 <= m < k ==> !Connects(edges[m], a, b);
        assert forall m :: i <= m < k ==> !Connects(edges[m], a, b);
      }
    }
  }

  /** `findJoin` returns the first edge of the list that joins the two
      tables, in either orientation, and fails exactly when no edge does. */
  lemma FindJoinFirst(edges: seq<Edge>, a: string, b: string)
    ensures var r := FindJoin(edges, a, b);
      (r.Some? ==> exists k :: 0 <= k < |edges| && r.value == edges[k] && Connects(edges[k], a, b)
                     && forall m :: 0 <= m < k ==> !Connects(edges[m], a, b))
      && (r.None? <==> forall k :: 0 <= k < |edges| ==> !Connects(edges[k], a, b))
  {
    FindJoinFromFirst(edges, a, b, 0);
  }

  lemma {:induction false} FindJoinFromSymmetric(edges: seq<Edge>, a: string, b: string, i: nat)
    requires i <= |edges|
    ensures FindJoinFrom(edges, a, b, i) == FindJoinFrom(edges, b, a, i)
    decreases |edges| - i
  {
    if i < |edges| {
      FindJoinFromSymmetric(edges, a, b, i + 1);
    }
  }

  /** Looking an edge up in either direction finds the same edge, or fails
      in both directions. */
  lemma FindJoinSymmetric(edges: seq<Edge>, a: string, b: string)
    ensures FindJoin(edges, a, b) == FindJoin(edges, b, a)
  {
    FindJoinFromSymmetric(edges, a, b, 0);
  }

  /** One `from.col=to.col` condition of an edge. */
  function ColumnCondition(e: Edge, c: (string, string)): string
  {
    "`" + e.from + "`.`" + c.0 + "`=`" + e.to + "`.`" + c.1 + "`"
  }

  function ColumnConditions(e: Edge): (r: seq<string>)
    ensures |r| == |e.cols|
    ensures forall k :: 0 <= k < |r| ==> r[k] == ColumnCondition(e, e.cols[k])
  {
    seq(|e.cols|, k requires 0 <= k < |e.cols| => ColumnCondition(e, e.cols[k]))
  }

  /** `tableJoin.SQL(there)`: the `LEFT JOIN` of table `there`. */
  function JoinSQL(e: Edge, there: string): string
  {
    "LEFT JOIN `" + there + "` ON " + Join(ColumnConditions(e), " AND ")
  }

  // ---------------------------------------------------------------------
  // Routes

  function Reverse(s: seq<string>): (r: seq<string>)
    ensures |r| == |s|
    ensures forall k :: 0 <= k < |s| ==> r[k] == s[|s| - 1 - k]
  {
    if |s| == 0 then [] else Reverse(s[1..]) + [s[0]]
  }

  function GetHopsFrom(routes: seq<Route>, from: string, to: string, i: nat): seq<string>
    requires i <= |routes|
    decreases |routes| - i
  {
    if i == |routes| then [to]
    else
      var r := routes[i];
      var routeKey := GenKey(r.from, r.to);
      if routeKey == GenKey(from, to) then r.via + [to]
      else if routeKey == GenKey(to, from) then Reverse([to] + r.via)
      else GetHopsFrom(routes, from, to, i + 1)
  }

  /** `getHops(from, to)` as written: the first route whose key equals the
      key of the pair gives its `via` tables followed by `to`; a second test
      against the key of the reversed pair would return the reversed path;
      without a route the single hop `to` is returned. */
  function GetHops(routes: seq<Route>, from: string, to: string): seq<string>
  {
    GetHopsFrom(routes, from, to, 0)
  }

  /** Reference resolver without the reversal branch. */
  function ForwardHopsFrom(routes: seq<Route>, from: string, to: string, i: nat): (r: seq<string>)
    requires i <= |routes|
    ensures |r| >= 1 && r[|r| - 1] == to
    decreases |routes| - i
  {
    if i == |routes| then [to]
    else if GenKey(routes[i].from, routes[i].to) == GenKey(from, to) then routes[i].via + [to]
    else ForwardHopsFrom(routes, from, to, i + 1)
  }

  lemma {:induction false} GetHopsFromForward(routes: seq<Route>, from: string, to: string, i: nat)
    requires i <= |routes|
    ensures GetHopsFrom(routes, from, to, i) == ForwardHopsFrom(routes, from, to, i)
    decreases |routes| - i
  {
    GenKeySymmetric(from, to);
    if i < |routes| {
      GetHopsFromForward(routes, from, to, i + 1);
    }
  }

  /** The reversal branch of `getHops` can never run: the key of the
      reversed pair is the key already tested, so the result is always the
      forward path, which is never empty and always ends in `to`. */
  lemma GetHopsForward(routes: seq<Route>, from: string, to: string)
    ensures GetHops(routes, from, to) == ForwardHopsFrom(routes, from, to, 0)
    ensures |GetHops(routes, from, to)| >= 1
    ensures GetHops(routes, from, to)[|GetHops(routes, from, to)| - 1] == to
  {
    GetHopsFromForward(routes, from, to, 0);
  }

  /** The route's end points are the unordered pair `{a, b}`. */
  predicate RouteJoins(r: Route, a: string, b: string)
  {
    (r.from == a && r.to == b) || (r.from == b && r.to == a)
  }

  /** Index of the first route, at or after `i`, between `a` and `b`. */
  function FirstRouteFrom(routes: seq<Route>, a: string, b: string, i: nat): (r: Option<nat>)
    requires i <= |routes|
    ensures r.Some? ==> (i <= r.value < |routes| && RouteJoins(routes[r.value], a, b)
                         && forall k :: i <= k < r.value ==> !RouteJoins(routes[k], a, b))
    ensures r.None? ==> forall k :: i <= k < |routes| ==> !RouteJoins(routes[k], a, b)
    decreases |routes| - i
  {
    if i == |routes| then None
    else if RouteJoins(routes[i], a, b) then Some(i)
    else FirstRouteFrom(routes, a, b, i + 1)
  }

  /** No route end point holds `:`, the separator of the pair keys. */
  predicate PlainNames(routes: seq<Route>)
  {
    forall k :: 0 <= k < |routes| ==> ':' !in routes[k].from && ':' !in routes[k].to
  }

  lemma {:induction false} ForwardHopsByPair(routes: seq<Route>, from: string, to: string, i: nat)
    requires i <= |routes| && PlainNames(routes) && ':' !in from && ':' !in to
    ensures ForwardHopsFrom(routes, from, to, i) ==
      match FirstRouteFrom(routes, from, to, i)
      case Some(k) => routes[k].via + [to]
      case None => [to]
    decreases |routes| - i
  {
    if i < |routes| {
      GenKeyPair(routes[i].from, routes[i].to, from, to);
      ForwardHopsByPair(routes, from, to, i + 1);
    }
  }

  /** With plain table names, `getHops(from, to)` is the `via` list of the
      first route between `from` and `to` (in either orientation) followed
      by `to`, and just `[to]` when no route connects them. */
  lemma GetHopsByRoute(routes: seq<Route>, from: string, to: string)
    requires PlainNames(routes) && ':' !in from && ':' !in to
    ensures GetHops(routes, from, to) ==
      match FirstRouteFrom(routes, from, to, 0)
      case Some(k) => routes[k].via + [to]
      case None => [to]
  {
    GetHopsForward(routes, from, to);
    ForwardHopsByPair(routes, from, to, 0);
  }

  // ---------------------------------------------------------------------
  // The hop walk of AutoJoin

  /** One step of the walk: record the edge and emit its join unless its key
      is already recorded. */
  function JoinStep(st: QueryState, e: Edge, there: string): QueryState
  {
    if Key(e) in st.joined then st
    else QueryState(st.joined + {Key(e)}, st.clauses + [Joins(JoinSQL(e, there))])
  }

  /** The walk from `here` over `hops[i..]`: stops, keeping what was already
      added, at the first hop without a direct edge. */
  function Walk(edges: seq<Edge>, here: string, hops: seq<string>, i: nat, st: QueryState): QueryState
    requires i <= |hops|
    decreases |hops| - i
  {
    if i == |hops| then st
    else match FindJoin(edges, here, hops[i])
      case None => st
      case Some(e) => Walk(edges, hops[i], hops, i + 1, JoinStep(st, e, hops[i]))
  }

  /** What `AutoJoin(target)` does to a request on `table`. */
  function AutoJoinSpec(edges: seq<Edge>, routes: seq<Route>, table: string, target: string, st: QueryState): QueryState
  {
    if target == table then st
    else Walk(edges, table, GetHops(routes, table, target), 0, st)
  }

  /** The keys of the edges the walk traverses before it stops. */
  function WalkedKeys(edges: seq<Edge>, here: string, hops: seq<string>, i: nat): set<string>
    requires i <= |hops|
    decreases |hops| - i
  {
    if i == |hops| then {}
    else match FindJoin(edges, here, hops[i])
      case None => {}
      case Some(e) => {Key(e)} + WalkedKeys(edges, hops[i], hops, i + 1)
  }

  /** A step appends at most one join clause, and records a new key exactly
      when it does. */
  lemma JoinStepEffect(st: QueryState, e: Edge, there: string)
    ensures var r := JoinStep(st, e, there);
      r.joined == st.joined + {Key(e)}
      && (r.clauses == st.clauses || r.clauses == st.clauses + [Joins(JoinSQL(e, there))])
      && |r.joined| == |st.joined| + (|r.clauses| - |st.clauses|)
  {
  }

  /** The walk records exactly the keys of the traversed edges. */
  lemma {:induction false} WalkJoined(edges: seq<Edge>, here: string, hops: seq<string>, i: nat, st: QueryState)
    requires i <= |hops|
    ensures Walk(edges, here, hops, i, st).joined == st.joined + WalkedKeys(edges, here, hops, i)
    decreases |hops| - i
  {
    if i < |hops| {
      match FindJoin(edges, here, hops[i])
      case None =>
      case Some(e) =>
        JoinStepEffect(st, e, hops[i]);
        WalkJoined(edges, hops[i], hops, i + 1, JoinStep(st, e, hops[i]));
    }
  }

  /** The walk only appends join clauses, each under a key it had not yet
      recorded. */
  lemma {:induction false} WalkAppendsJoins(edges: seq<Edge>, here: string, hops: seq<string>, i: nat, st: QueryState)
    requires i <= |hops|
    ensures var r := Walk(edges, here, hops, i, st);
      |r.clauses| >= |st.clauses| && r.clauses[..|st.clauses|] == st.clauses
      && (forall k :: |st.clauses| <= k < |r.clauses| ==> r.clauses[k].Joins?)
      && |r.joined| == |st.joined| + (|r.clauses| - |st.clauses|)
    decreases |hops| - i
  {
    if i < |hops| {
      match FindJoin(edges, here, hops[i])
      case None =>
      case Some(e) =>
        var st1 := JoinStep(st, e, hops[i]);
        JoinStepEffect(st, e, hops[i]);
        WalkAppendsJoins(edges, hops[i], hops, i + 1, st1);
        var r := Walk(edges, hops[i], hops, i + 1, st1);
        assert r.clauses[..|st.clauses|] == r.clauses[..|st1.clauses|][..|st.clauses|];
    }
  }

  lemma WalkEffect(edges: seq<Edge>, here: string, hops: seq<string>, i: nat, st: QueryState)
    requires i <= |hops|
    ensures var r := Walk(edges, here, hops, i, st);
      r.joined == st.joined + WalkedKeys(edges, here, hops, i)
      && |r.clauses| >= |st.clauses| && r.clauses[..|st.clauses|] == st.clauses
      && (forall k :: |st.clauses| <= k < |r.clauses| ==> r.clauses[k].Joins?)
      && |r.joined| == |st.joined| + (|r.clauses| - |st.clauses|)
  {
    WalkJoined(edges, here, hops, i, st);
    WalkAppendsJoins(edges, here, hops, i, st);
  }

  /** A walk keeps a consistent state consistent. */
  lemma WalkConsistent(edges: seq<Edge>, here: string, hops: seq<string>, i: nat, st: QueryState)
    requires i <= |hops| && Consistent(st)
    ensures Consistent(Walk(edges, here, hops, i, st))
  {
    WalkEffect(edges, here, hops, i, st);
    var r := Walk(edges, here, hops, i, st);
    var added := r.clauses[|st.clauses|..];
    assert r.clauses == st.clauses + added;
    JoinCountAppend(st.clauses, added);
    AllJoins(added);
  }

  lemma {:induction false} AllJoins(cs: seq<Clause>)
    requires forall k :: 0 <= k < |cs| ==> cs[k].Joins?
    ensures JoinCount(cs) == |cs|
    decreases |cs|
  {
    if |cs| > 0 {
      AllJoins(cs[..|cs| - 1]);
    }
  }

  /** A walk over edges that are all recorded already changes nothing. */
  lemma {:induction false} WalkRecorded(edges: seq<Edge>, here: string, hops: seq<string>, i: nat, st: QueryState)
    requires i <= |hops| && WalkedKeys(edges, here, hops, i) <= st.joined
    ensures Walk(edges, here, hops, i, st) == st
    decreases |hops| - i
  {
    if i < |hops| {
      match FindJoin(edges, here, hops[i])
      case None =>
      case Some(e) =>
        WalkRecorded(edges, hops[i], hops, i + 1, st);
    }
  }

  /** Walking the same hops twice adds nothing the second time. */
  lemma WalkIdempotent(edges: seq<Edge>, here: string, hops: seq<string>, i: nat, st: QueryState)
    requires i <= |hops|
    ensures Walk(edges, here, hops, i, Walk(edges, here, hops, i, st)) == Walk(edges, here, hops, i, st)
  {
    WalkEffect(edges, here, hops, i, st);
    WalkRecorded(edges, here, hops, i, Walk(edges, here, hops, i, st));
  }

  /** `AutoJoin` is a no-op on the request's own table, only appends join
      clauses under fresh keys, keeps the state consistent, and a second
      `AutoJoin` to the same table adds nothing. */
  lemma AutoJoinProperties(edges: seq<Edge>, routes: seq<Route>, table: string, target: string, st: QueryState)
    ensures target == table ==> AutoJoinSpec(edges, routes, table, target, st) == st
    ensures var r := AutoJoinSpec(edges, routes, table, target, st);
      st.joined <= r.joined && |r.clauses| >= |st.clauses| && r.clauses[..|st.clauses|] == st.clauses
      && (forall k :: |st.clauses| <= k < |r.clauses| ==> r.clauses[k].Joins?)
    ensures Consistent(st) ==> Consistent(AutoJoinSpec(edges, routes, table, target, st))
    ensures AutoJoinSpec(edges, routes, table, target, AutoJoinSpec(edges, routes, table, target, st))
      == AutoJoinSpec(edges, routes, table, target, st)
  {
    if target != table {
      var hops := GetHops(routes, table, target);
      WalkEffect(edges, table, hops, 0, st);
      if Consistent(st) {
        WalkConsistent(edges, table, hops, 0, st);
      }
      WalkIdempotent(edges, table, hops, 0, st);
    }
  }

  /** Every consecutive pair of `here, hops[i..]` has a direct edge. */
  predicate Connected(edges: seq<Edge>, here: string, hops: seq<string>, i: nat)
    requires i <= |hops|
    decreases |hops| - i
  {
    i == |hops| || (FindJoin(edges, here, hops[i]).Some? && Connected(edges, hops[i], hops, i + 1))
  }

  /** The path a route declares, walked from its `from` table. */
  predicate RouteConnected(edges: seq<Edge>, r: Route)
  {
    Connected(edges, r.from, r.via + [r.to], 0)
  }

  /** A path is connected when each hop has a direct edge from the one
      before it. */
  lemma {:induction false} ConnectedByPairs(edges: seq<Edge>, here: string, hops: seq<string>, i: nat)
    requires i <= |hops|
    requires i < |hops| ==> FindJoin(edges, here, hops[i]).Some?
    requires forall k :: i < k < |hops| ==> FindJoin(edges, hops[k - 1], hops[k]).Some?
    ensures Connected(edges, here, hops, i)
    decreases |hops| - i
  {
    if i < |hops| {
      ConnectedByPairs(edges, hops[i], hops, i + 1);
    }
  }
}

=== FILE: legacy.dfy ===
/** The older request of the main package: the same query building on its
    own route table, but without settings: every matching filter is
    applied and access control always applies. */
module LegacyTable {
  import opened Sql
  import opened JoinGraph
  import opened Filters
  import opened QueryBuilder
  import opened Acl
  import opened AuthUser
  import opened Properties
  import opened Params
  import opened Pager
  import TableRequest

  /** The query `MakeResponse` runs: the read scope, the joins of the
      selected properties, every matching filter, grouping and ordering,
      then the offset and limit `page` reads from the request context,
      which no setting switches off. */
  function LegacyResponseSpec(edges: seq<Edge>, routes: seq<Route>, table: string, tableProps: seq<Property>, user: Info, q: Query, ctx: Context, st: QueryState): QueryState
  {
    var j := JoinTargets(edges, routes, table, Tables(Selected(QueryProps(q, table), tableProps)), Scope(edges, routes, table, ReadGrants, user.id, st));
    var o := TableRequest.OrdersSpec(QueryOrders(q, table),
      TableRequest.GroupsSpec(QueryGroups(q, table), QueryState(j.joined, j.clauses + FilterClauses(QueryFilters(q)))));
    QueryState(o.joined, o.clauses + [Offset(Page(ctx).0), Limit(Page(ctx).1)])
  }

  class LegacyRequest {
    const tx: Builder

    predicate Valid()
      reads this, tx
    {
      tx.Valid()
    }

    /** `table.Request()`: a fresh handle with empty join sets. */
    constructor (table: string)
      ensures fresh(tx) && tx.table == table && tx.edges == Edges && tx.routes == LegacyRoutes && tx.State() == Empty
      ensures Valid()
    {
      tx := new Builder(table, LegacyRoutes);
    }

    /** `withFilters`: every string the pattern matches adds its clause;
        nothing is counted. */
    method WithFilters(fs: seq<string>)
      requires Valid()
      modifies tx
      ensures Valid()
      ensures tx.joined == old(tx.joined) && tx.clauses == old(tx.clauses) + FilterClauses(fs)
    {
      var _ := tx.AddFilters(fs);
    }

    /** `withACL`: the node scope for a non-integer id, otherwise the user
        scope through the readers' grant table; no exemption. */
    method WithACL(user: Info)
      requires Valid()
      modifies tx
      ensures Valid()
      ensures tx.State() == Scope(tx.edges, tx.routes, tx.table, ReadGrants, user.id, old(tx.State()))
    {
      ApplyScope(tx, ReadGrants, user.id);
    }

    /** The query-building part of `MakeResponse`: access control, the
        joins and select terms of the `props` parameter (the table's own
        properties when it is empty), the `filters`, `groupby` and
        `orderby` parameters, then the page found in the context. */
    method ResponseQuery(user: Info, q: Query, ctx: Context, tableProps: seq<Property>) returns (selects: seq<string>)
      requires Valid()
      modifies tx
      ensures Valid()
      ensures tx.State() == LegacyResponseSpec(tx.edges, tx.routes, tx.table, tableProps, user, q, ctx, old(tx.State()))
      ensures var ps := Selected(QueryProps(q, tx.table), tableProps);
        |selects| == |ps| && forall k :: 0 <= k < |ps| ==> selects[k] == SelectTerm(ps[k])
    {
      WithACL(user);
      selects := tx.WithJoins(QueryProps(q, tx.table), tableProps);
      WithFilters(QueryFilters(q));
      tx.WithGroups(QueryGroups(q, tx.table));
      tx.WithOrders(QueryOrders(q, tx.table));
      var (offset, limit) := Page(ctx);
      tx.Paginate(offset, limit);
    }
  }

  /** The older access control restricts every caller, a Manager too, and
      for any caller that is not a Manager it is the read scope of the
      current request. */
  lemma {:induction false} LegacyAclAlwaysScopes(edges: seq<Edge>, routes: seq<Route>, table: string, user: Info, st: QueryState)
    ensures var r := Scope(edges, routes, table, ReadGrants, user.id, st);
      |r.clauses| >= |st.clauses| + 2 && r.clauses[|r.clauses| - 1].args == [user.id]
    ensures Manager !in Privileges(user) ==>
      Scope(edges, routes, table, ReadGrants, user.id, st)
        == TableRequest.AclSpec(TableRequest.Settings(true, false, true, true), edges, routes, table, user, st)
    ensures Manager in Privileges(user) ==>
      TableRequest.AclSpec(TableRequest.Settings(true, false, true, true), edges, routes, table, user, st) == st
  {
    ScopeProperties(edges, routes, table, ReadGrants, user.id, st);
  }

  /** The older response always pages, with the offset and limit `page`
      finds in the context. */
  lemma LegacyResponsePaging(edges: seq<Edge>, routes: seq<Route>, table: string, tableProps: seq<Property>, user: Info, q: Query, ctx: Context, st: QueryState)
    ensures var r := LegacyResponseSpec(edges, routes, table, tableProps, user, q, ctx, st);
      |r.clauses| >= 2 && r.clauses[|r.clauses| - 2] == Offset(Page(ctx).0) && r.clauses[|r.clauses| - 1] == Limit(Page(ctx).1)
  {
  }

  /** Served without the `pager` middleware, the older response ends in
      `Offset(0)`, `Limit(0)`. */
  lemma LegacyWithoutPager(edges: seq<Edge>, routes: seq<Route>, table: string, tableProps: seq<Property>, user: Info, q: Query, ctx: Context, st: QueryState)
    requires OffsetKey !in ctx && LimitKey !in ctx
    ensures var r := LegacyResponseSpec(edges, routes, table, tableProps, user, q, ctx, st);
      r.clauses[|r.clauses| - 2] == Offset(0) && r.clauses[|r.clauses| - 1] == Limit(0)
  {
    PageWithoutPager(ctx);
    LegacyResponsePaging(edges, routes, table, tableProps, user, q, ctx, st);
  }

  /** Behind the `pager` middleware and for a caller that is not a
      Manager, the older response runs the same query as the current one
      with its default settings. */
  lemma LegacyBehindPager(edges: seq<Edge>, routes: seq<Route>, table: string, tableProps: seq<Property>, user: Info, q: Query, ctx: Context, st: QueryState)
    requires Manager !in Privileges(user)
    ensures LegacyResponseSpec(edges, routes, table, tableProps, user, q, PagerContext(q, ctx), st)
      == TableRequest.ResponseSpec(TableRequest.Settings(true, false, true, true), edges, routes, table, tableProps, user, q, st)
  {
    PageAfterPager(q, ctx);
  }
}

=== FILE: numbers.dfy ===
/** Go's `strconv.Atoi` on a 64-bit platform, and its inverse `strconv.Itoa`. */
module Numbers {
  import opened Strs

  const MinInt64: int := -0x8000_0000_0000_0000
  const MaxInt64: int := 0x7fff_ffff_ffff_ffff

  predicate IsDigit(c: char)
  {
    '0' <= c <= '9'
  }

  predicate AllDigits(s: string)
  {
    forall k :: 0 <= k < |s| ==> IsDigit(s[k])
  }

  /** Value of a string of decimal digits, most significant first. */
  function DigitsValue(s: string): nat
    requires AllDigits(s)
  {
    if |s| == 0 then 0
    else DigitsValue(s[..|s| - 1]) * 10 + (s[|s| - 1] as int - '0' as int)
  }

  /** `strconv.Atoi(s)`: an optional `+` or `-`, then at least one decimal
      digit, and a value that fits in Go's 64-bit `int`; anything else is
      an error (`None`). Underscores are not accepted in base 10. */
  function Atoi(s: string): (r: Option<int>)
    ensures r.Some? ==> MinInt64 <= r.value <= MaxInt64
    ensures |s| == 0 ==> r.None?
    ensures r.Some? ==> forall k :: 0 <= k < |s| ==> IsDigit(s[k]) || (k == 0 && s[k] in "+-")
  {
    if |s| == 0 then None
    else
      var signed := s[0] == '-' || s[0] == '+';
      var body := if signed then s[1..] else s;
      if |body| == 0 || !AllDigits(body) then None
      else
        var v: int := if s[0] == '-' then 0 - DigitsValue(body) as int else DigitsValue(body);
        if MinInt64 <= v <= MaxInt64 then Some(v) else None
  }

  function DigitChar(d: nat): char
    requires d < 10
  {
    ('0' as int + d) as char
  }

  /** Decimal digits of a natural number, most significant first. */
  function NatDigits(n: nat): (r: string)
    ensures |r| >= 1 && AllDigits(r)
  {
    if n < 10 then [DigitChar(n)] else NatDigits(n / 10) + [DigitChar(n % 10)]
  }

  /** `strconv.Itoa(n)`: the decimal rendering, with `-` for negatives. */
  function Itoa(n: int): string
  {
    if n < 0 then "-" + NatDigits(-n) else NatDigits(n)
  }

  lemma {:induction false} NatDigitsValue(n: nat)
    ensures DigitsValue(NatDigits(n)) == n
  {
    if n >= 10 {
      var s := NatDigits(n);
      assert s[..|s| - 1] == NatDigits(n / 10);
      NatDigitsValue(n / 10);
    }
  }

  /** Parsing the decimal rendering of any 64-bit integer gives it back. */
  lemma AtoiItoa(n: int)
    requires MinInt64 <= n <= MaxInt64
    ensures Atoi(Itoa(n)) == Some(n)
  {
    var s := Itoa(n);
    if n < 0 {
      NatDigitsValue(-n);
      assert s[1..] == NatDigits(-n);
    } else {
      NatDigitsValue(n);
      assert IsDigit(s[0]);
    }
  }
}

=== FILE: params.dfy ===
/** Query-string parameters of a table request and their defaults. */
module Params {
  import opened Strs
  import opened Numbers
  import opened Properties

  /** `url.Values`: every value given for each key, in order. */
  type Query = map<string, seq<string>>

  /** `Values.Get(key)`: the first value, or `""`. */
  function Get(q: Query, key: string): string
  {
    if key in q && |q[key]| > 0 then q[key][0] else ""
  }

  /** An integer parameter: its default when empty or not a Go `int`. */
  function IntParam(param: string, default: int): int
  {
    if param == "" then default
    else match Atoi(param)
      case Some(v) => v
      case None => default
  }

  const DefaultLimit: int := 20
  const DefaultOffset: int := 0

  /** `queryMeta`: false exactly for `f`, `F`, `false` and `0`. */
  function QueryMeta(q: Query): bool
  {
    match Get(q, "meta")
    case "f" => false
    case "F" => false
    case "false" => false
    case "0" => false
    case _ => true
  }

  /** Metadata is on by default: without a `meta` parameter, or with an
      empty one. */
  lemma QueryMetaDefault(q: Query)
    ensures "meta" !in q ==> QueryMeta(q)
    ensures "meta" in q && q["meta"] == [] ==> QueryMeta(q)
    ensures Get(q, "meta") == "" ==> QueryMeta(q)
  {
  }

  /** Only the first `meta` value decides; later ones are ignored. */
  lemma QueryMetaFirstValue(q: Query, v: string, rest: seq<string>)
    ensures QueryMeta(q["meta" := [v] + rest]) == QueryMeta(q["meta" := [v]])
  {
  }

  /** Only the four spellings `f`, `F`, `false`, `0` turn metadata off;
      any other value, such as `no` or `False`, leaves it on. */
  lemma QueryMetaOff(q: Query)
    ensures !QueryMeta(q) ==> Get(q, "meta") in {"f", "F", "false", "0"}
    ensures QueryMeta(q["meta" := ["no"]]) && QueryMeta(q["meta" := ["False"]])
  {
  }

  /** `queryFilters`: every `filters` value, or none. */
  function QueryFilters(q: Query): seq<string>
  {
    if "filters" in q then q["filters"] else []
  }

  /** `queryLimit`: the `limit` parameter, 20 by default. */
  function QueryLimit(q: Query): int
  {
    IntParam(Get(q, "limit"), DefaultLimit)
  }

  /** `queryOffset`: the `offset` parameter, 0 by default. */
  function QueryOffset(q: Query): int
  {
    IntParam(Get(q, "offset"), DefaultOffset)
  }

  /** `queryProps`, `queryGroups`, `queryOrders`: the `props`, `groupby`
      and `orderby` lists parsed against the request's table. */
  function QueryProps(q: Query, table: string): seq<Property>
  {
    ParseAll(Specifiers(Get(q, "props")), table)
  }

  function QueryGroups(q: Query, table: string): seq<Property>
  {
    ParseAll(Specifiers(Get(q, "groupby")), table)
  }

  function QueryOrders(q: Query, table: string): seq<Property>
  {
    ParseAll(Specifiers(Get(q, "orderby")), table)
  }

  /** A list of specifiers sent comma-separated (none empty, none holding a
      comma) comes back as one property per specifier, in order. */
  lemma QueryPropsOfJoin(specs: seq<string>, table: string)
    requires forall k :: 0 <= k < |specs| ==> specs[k] != "" && ',' !in specs[k]
    ensures var q: Query := map["props" := [Join(specs, ",")]];
      QueryProps(q, table) == ParseAll(specs, table)
  {
    SpecifiersOfJoin(specs);
  }

  /** Any 64-bit integer sent in its decimal form is read back as itself. */
  lemma {:induction false} IntParamItoa(n: int, default: int)
    requires MinInt64 <= n <= MaxInt64
    ensures IntParam(Itoa(n), default) == n
  {
    AtoiItoa(n);
  }

  lemma {:induction false} QueryLimitItoa(n: int)
    requires MinInt64 <= n <= MaxInt64
    ensures QueryLimit(map["limit" := [Itoa(n)]]) == n
  {
    IntParamItoa(n, DefaultLimit);
  }

  /** Without a `limit` or `offset` key the defaults 20 and 0 apply; a
      value that is not an integer falls back to the same defaults. */
  lemma QueryDefaults(q: Query)
    ensures "limit" !in q ==> QueryLimit(q) == 20
    ensures "offset" !in q ==> QueryOffset(q) == 0
    ensures Atoi(Get(q, "limit")).None? ==> QueryLimit(q) == 20
    ensures Atoi(Get(q, "offset")).None? ==> QueryOffset(q) == 0
  {
  }
}

/** The `pager` middleware and the `page` lookup. */
module Pager {
  import opened Params

  const OffsetKey: string := "offset"
  const LimitKey: string := "limit"

  /** A value stored in a request context; `page` only accepts `int`s. */
  datatype CtxValue = IntValue(n: int) | OtherValue

  type Context = map<string, CtxValue>

  /** `pager`: the context handed to the next handler, with the parsed
      `limit` (default 20) and `offset` (default 0). */
  function PagerContext(q: Query, ctx: Context): Context
  {
    var limit := IntParam(Get(q, "limit"), DefaultLimit);
    var offset := IntParam(Get(q, "offset"), DefaultOffset);
    ctx["limit" := IntValue(limit)]["offset" := IntValue(offset)]
  }

  function IntOrZero(ctx: Context, key: string): int
  {
    if key in ctx && ctx[key].IntValue? then ctx[key].n else 0
  }

  /** `page`: offset and limit from the context, 0 where absent. */
  function Page(ctx: Context): (int, int)
  {
    (IntOrZero(ctx, OffsetKey), IntOrZero(ctx, LimitKey))
  }

  /** Behind the middleware, `page` sees what `pager` stored under the
      same keys: the parsed offset and limit, defaults included. */
  lemma PageAfterPager(q: Query, ctx: Context)
    ensures Page(PagerContext(q, ctx)) == (QueryOffset(q), QueryLimit(q))
  {
  }

  /** Without the middleware (no values in the context) the route gets
      offset 0 and limit 0. */
  lemma PageWithoutPager(ctx: Context)
    requires OffsetKey !in ctx && LimitKey !in ctx
    ensures Page(ctx) == (0, 0)
  {
  }
}

=== FILE: properties.dfy ===
/** Property specifiers: `[~][table.]column[:alias]`, as parsed from the
    `props`, `groupby` and `orderby` query parameters. */
module Properties {
  import opened Strs

  /** A reference to a column; `remap` is the display alias and `desc`
      the descending-order marker. */
  datatype Property = Property(table: string, name: string, remap: string, desc: bool)
  {
    /** The external identifier: `table.name`, or `name` without a table. */
    function String(): string
    {
      if table == "" then name else table + "." + name
    }

    /** The column as quoted SQL identifiers. */
    function SQL(): string
    {
      if table == "" then "`" + name + "`" else "`" + table + "`.`" + name + "`"
    }

    function SQLWithOrder(): string
    {
      if desc then SQL() + " DESC" else SQL()
    }

    /** The full specifier this property is written as, alias and marker included. */
    function Spec(): string
    {
      (if desc then "~" else "") + String() + (if remap != "" then ":" + remap else "")
    }
  }

  /** `parseProperty(s, table)`: strips every leading `~` (setting `desc`),
      splits the alias off at the first `:`, then the table off at the first
      `.`; without a `.` the table is `defaultTable`. A specifier that is
      empty once the `~` are gone yields a property with no table. */
  function ParseProperty(s: string, defaultTable: string): Property
  {
    var desc := StartsWith(s, '~');
    var s1 := if desc then TrimLeft(s, '~') else s;
    if s1 == "" then Property("", "", "", desc)
    else
      var l := SplitN(s1, ':', 2);
      var s2 := if |l| == 2 then l[0] else s1;
      var remap := if |l| == 2 then l[1] else "";
      var l2 := SplitN(s2, '.', 2);
      if |l2| == 2 then Property(l2[0], l2[1], remap, desc)
      else Property(defaultTable, l2[0], remap, desc)
  }

  /** The descending marker is exactly a leading `~`; a specifier made only
      of `~` (or the empty one) gives a property with no table and no name. */
  lemma ParseDescending(s: string, defaultTable: string)
    ensures ParseProperty(s, defaultTable).desc <==> StartsWith(s, '~')
    ensures TrimLeft(s, '~') == "" ==>
      ParseProperty(s, defaultTable) == Property("", "", "", StartsWith(s, '~'))
  {
  }

  lemma SplitNoSeparator(s: string, c: char, n: nat)
    requires n >= 1 && c !in s
    ensures SplitN(s, c, n) == [s]
  {
  }

  lemma TableColumnNoColon(table: string, name: string)
    requires ':' !in table && ':' !in name
    ensures ':' !in table + "." + name
  {
    var core := table + "." + name;
    forall k | 0 <= k < |core| ensures core[k] != ':' {
      if k < |table| { assert core[k] == table[k]; }
      else if k > |table| { assert core[k] == name[k - |table| - 1]; }
    }
  }

  /** Alias split of a specifier without `~`: the part before the first `:`
      and the alias after it. */
  lemma SplitAlias(core: string, remap: string)
    requires ':' !in core
    ensures var s := core + (if remap != "" then ":" + remap else "");
      SplitN(s, ':', 2) == if remap != "" then [core, remap] else [core]
  {
    if remap != "" {
      assert core + (":" + remap) == core + [':'] + remap;
      SplitAtFirst(core, remap, ':');
    } else {
      assert core + "" == core;
      SplitNoSeparator(core, ':', 2);
    }
  }

  /** Well-formed properties survive rendering and re-parsing: with a
      table that holds no `.`, `:` and does not start with `~`, and a name
      without `:`, the specifier of `p` parses back to `p`. */
  lemma ParseSpecRoundTrip(p: Property, defaultTable: string)
    requires p.table != "" && p.table[0] != '~'
    requires '.' !in p.table && ':' !in p.table && ':' !in p.name
    ensures ParseProperty(p.Spec(), defaultTable) == p
  {
    var core := p.table + "." + p.name;
    TableColumnNoColon(p.table, p.name);
    var afterDesc := core + (if p.remap != "" then ":" + p.remap else "");
    assert p.Spec() == (if p.desc then "~" else "") + afterDesc;
    assert afterDesc[0] == p.table[0];
    var s1 := if StartsWith(p.Spec(), '~') then TrimLeft(p.Spec(), '~') else p.Spec();
    assert s1 == afterDesc by {
      if p.desc {
        assert p.Spec() == "~" + afterDesc;
        assert p.Spec()[1..] == afterDesc;
      }
    }
    SplitAlias(core, p.remap);
    assert core == p.table + ['.'] + p.name;
    SplitAtFirst(p.table, p.name, '.');
  }

  /** In particular the external identifier parses back to the same table
      and column, with no alias and no descending marker. */
  lemma ParseStringRoundTrip(p: Property, defaultTable: string)
    requires p.table != "" && p.table[0] != '~'
    requires '.' !in p.table && ':' !in p.table && ':' !in p.name
    ensures ParseProperty(p.String(), defaultTable) == Property(p.table, p.name, "", false)
  {
    ParseSpecRoundTrip(Property(p.table, p.name, "", false), defaultTable);
  }

  /** A bare column name (no `~`, `.` or `:`) belongs to the default table. */
  lemma ParseBareColumn(s: string, defaultTable: string)
    requires s != "" && s[0] != '~' && '.' !in s && ':' !in s
    ensures ParseProperty(s, defaultTable) == Property(defaultTable, s, "", false)
  {
    SplitNoSeparator(s, ':', 2);
    SplitNoSeparator(s, '.', 2);
  }

  /** The pieces of a list that are not empty, in order. */
  function NonEmpty(pieces: seq<string>): (r: seq<string>)
    ensures |r| <= |pieces|
    ensures forall k :: 0 <= k < |r| ==> r[k] != "" && r[k] in pieces
  {
    if |pieces| == 0 then []
    else
      var last := pieces[|pieces| - 1];
      NonEmpty(pieces[..|pieces| - 1]) + (if last == "" then [] else [last])
  }

  /** Dropping the empty pieces commutes with concatenation: the kept
      pieces of `a + b` are those of `a`, then those of `b`, in order. */
  lemma {:induction false} NonEmptyAppend(a: seq<string>, b: seq<string>)
    ensures NonEmpty(a + b) == NonEmpty(a) + NonEmpty(b)
    decreases |b|
  {
    if |b| > 0 {
      var b' := b[..|b| - 1];
      assert a + b == (a + b') + [b[|b| - 1]];
      assert (a + b)[..|a + b| - 1] == a + b';
      NonEmptyAppend(a, b');
      assert b[..|b| - 1] == b';
    } else {
      assert a + b == a;
    }
  }

  /** Every non-empty piece is kept, and nothing else is. */
  lemma {:induction false} NonEmptyKeepsAll(pieces: seq<string>)
    ensures forall x :: x != "" ==> (x in NonEmpty(pieces) <==> x in pieces)
    decreases |pieces|
  {
    if |pieces| > 0 {
      var init := pieces[..|pieces| - 1];
      NonEmptyKeepsAll(init);
      assert pieces == init + [pieces[|pieces| - 1]];
    }
  }

  /** The specifiers of a comma-separated list, empty ones dropped. */
  function Specifiers(s: string): seq<string>
  {
    NonEmpty(Split(s, ','))
  }

  /** Each specifier parsed against `table`, in order. */
  function ParseAll(specs: seq<string>, table: string): (r: seq<Property>)
    ensures |r| == |specs|
  {
    if |specs| == 0 then [] else ParseAll(specs[..|specs| - 1], table) + [ParseProperty(specs[|specs| - 1], table)]
  }

  lemma {:induction false} ParseAllAt(specs: seq<string>, table: string)
    ensures forall k :: 0 <= k < |specs| ==> ParseAll(specs, table)[k] == ParseProperty(specs[k], table)
  {
    if |specs| > 0 {
      ParseAllAt(specs[..|specs| - 1], table);
    }
  }

  /** `parsePropSlice(s)`: split on `,`, skip empty pieces and parse the
      others against the request's table, keeping their order. */
  method ParsePropSlice(s: string, table: string) returns (props: seq<Property>)
    ensures props == ParseAll(Specifiers(s), table)
    ensures |props| == |Specifiers(s)|
    ensures forall k :: 0 <= k < |props| ==> props[k] == ParseProperty(Specifiers(s)[k], table)
  {
    var pieces := Split(s, ',');
    props := [];
    var i := 0;
    while i < |pieces|
      invariant 0 <= i <= |pieces|
      invariant props == ParseAll(NonEmpty(pieces[..i]), table)
    {
      ParseSliceStep(pieces, i, table);
      if pieces[i] != "" {
        props := props + [ParseProperty(pieces[i], table)];
      }
      i := i + 1;
    }
    assert pieces[..i] == pieces;
    ParseAllAt(Specifiers(s), table);
  }

  lemma ParseSliceStep(pieces: seq<string>, i: nat, table: string)
    requires i < |pieces|
    ensures ParseAll(NonEmpty(pieces[..i + 1]), table)
      == ParseAll(NonEmpty(pieces[..i]), table) + (if pieces[i] == "" then [] else [ParseProperty(pieces[i], table)])
  {
    assert pieces[..i + 1][..i] == pieces[..i];
    var xs := NonEmpty(pieces[..i]);
    if pieces[i] == "" {
      assert NonEmpty(pieces[..i + 1]) == xs + [];
      assert xs + [] == xs;
    } else {
      assert NonEmpty(pieces[..i + 1]) == xs + [pieces[i]];
      assert (xs + [pieces[i]])[..|xs|] == xs;
    }
  }

  lemma {:induction false} NonEmptyOfNonEmpty(pieces: seq<string>)
    requires forall k :: 0 <= k < |pieces| ==> pieces[k] != ""
    ensures NonEmpty(pieces) == pieces
  {
    if |pieces| > 0 {
      NonEmptyOfNonEmpty(pieces[..|pieces| - 1]);
    }
  }

  /** A list of non-empty specifiers without commas, joined with `,`, is
      read back as exactly that list: `parsePropSlice` inverts the
      comma-separated rendering. */
  lemma SpecifiersOfJoin(specs: seq<string>)
    requires forall k :: 0 <= k < |specs| ==> specs[k] != "" && ',' !in specs[k]
    ensures Specifiers(Join(specs, ",")) == specs
  {
    if |specs| == 0 {
      assert Split("", ',') == [""];
    } else {
      SplitJoin(specs, ',');
      NonEmptyOfNonEmpty(specs);
    }
  }

  /** Empty pieces, such as the one a trailing comma leaves, are ignored. */
  lemma SpecifiersNeverEmpty(s: string)
    ensures forall k :: 0 <= k < |Specifiers(s)| ==> Specifiers(s)[k] != "" && ',' !in Specifiers(s)[k]
  {
  }
}

=== FILE: request.dfy ===
/** The table request of the `db` package: a query handle together with
    the settings chosen when it was created (access control, write intent,
    filters, paging) and the number of filters it accepted. */
module TableRequest {
  import opened Strs
  import opened Sql
  import opened JoinGraph
  import opened Properties
  import opened Filters
  import opened QueryBuilder
  import opened Acl
  import opened AuthUser
  import opened Params

  /** The four settings a request option can change. */
  datatype Setting = AclSetting | WriteIntentSetting | FiltersSetting | PagingSetting

  /** `TableRequestWithACL(v)` and its three siblings. */
  datatype RequestOption = With(setting: Setting, v: bool)

  /** Access control, filters and paging are on unless switched off; a
      request is read-only unless it declares a write intent. */
  function Default(s: Setting): bool
  {
    s != WriteIntentSetting
  }

  /** The value of a setting after the options were applied in order. */
  function Configured(opts: seq<RequestOption>, s: Setting): bool
  {
    if |opts| == 0 then Default(s)
    else if opts[|opts| - 1].setting == s then opts[|opts| - 1].v
    else Configured(opts[..|opts| - 1], s)
  }

  /** The settings of a request, as one value. */
  datatype Settings = Settings(acl: bool, writeIntent: bool, filters: bool, paging: bool)

  // -----------------------------------------------------------------------
  // What each step does to the query state

  /** `withACL`: nothing when access control is off or the caller is a
      Manager; otherwise the caller's scope, through the grant table of
      writers for a write intent and of readers otherwise. */
  function AclSpec(c: Settings, edges: seq<Edge>, routes: seq<Route>, table: string, user: Info, st: QueryState): QueryState
  {
    if !c.acl || Manager in Privileges(user) then st
    else Scope(edges, routes, table, if c.writeIntent then WriteGrants else ReadGrants, user.id, st)
  }

  /** `withFilters`: one clause per matching filter, when filters are on. */
  function FiltersSpec(c: Settings, filters: seq<string>, st: QueryState): QueryState
  {
    if c.filters then QueryState(st.joined, st.clauses + FilterClauses(filters)) else st
  }

  /** `withOrders`: one `Order` clause for a non-empty list. */
  function OrdersSpec(orders: seq<Property>, st: QueryState): QueryState
  {
    if |orders| == 0 then st else QueryState(st.joined, st.clauses + [Order(OrderBy(orders))])
  }

  /** `withPaging`: offset then limit, when paging is on. */
  function PagingSpec(c: Settings, offset: int, limit: int, st: QueryState): QueryState
  {
    if c.paging then QueryState(st.joined, st.clauses + [Offset(offset), Limit(limit)]) else st
  }

  /** `TX`: access control, filters, ordering and paging, in that order. */
  function TxSpec(c: Settings, edges: seq<Edge>, routes: seq<Route>, table: string, user: Info, q: Query, st: QueryState): QueryState
  {
    AfterAcl(c, QueryFilters(q), QueryOrders(q, table), QueryOffset(q), QueryLimit(q), AclSpec(c, edges, routes, table, user, st))
  }

  /** Filters, ordering and paging, applied to the state access control
      left. */
  function AfterAcl(c: Settings, fs: seq<string>, orders: seq<Property>, offset: int, limit: int, a: QueryState): QueryState
  {
    PagingSpec(c, offset, limit, OrdersSpec(orders, FiltersSpec(c, fs, a)))
  }

  /** What `TX` appends after access control, for the given filters,
      order list and paging. */
  function TxTail(c: Settings, fs: seq<string>, orders: seq<Property>, offset: int, limit: int): (r: seq<Clause>)
  {
    (if c.filters then FilterClauses(fs) else [])
    + (if |orders| == 0 then [] else [Order(OrderBy(orders))])
    + (if c.paging then [Offset(offset), Limit(limit)] else [])
  }

  /** The tail holds filter conditions, the ordering and the paging, and
      never a join. */
  lemma TailNoJoins(c: Settings, fs: seq<string>, orders: seq<Property>, offset: int, limit: int)
    ensures var r := TxTail(c, fs, orders, offset, limit);
      forall k :: 0 <= k < |r| ==> r[k].Where? || r[k].Not? || r[k].Order? || r[k].Offset? || r[k].Limit?
  {
    var f := if c.filters then FilterClauses(fs) else [];
    var o := if |orders| == 0 then [] else [Order(OrderBy(orders))];
    var p := if c.paging then [Offset(offset), Limit(limit)] else [];
    var r := TxTail(c, fs, orders, offset, limit);
    assert r == f + o + p;
    forall k | 0 <= k < |r| ensures r[k].Where? || r[k].Not? || r[k].Order? || r[k].Offset? || r[k].Limit? {
      if k < |f| {
        assert r[k] == f[k];
      } else if k < |f| + |o| {
        assert r[k] == o[k - |f|];
      } else {
        assert r[k] == p[k - |f| - |o|];
      }
    }
  }

  /** After access control, the rest of `TX` appends the tail and keeps
      the join keys. */
  lemma AfterAclTail(c: Settings, fs: seq<string>, orders: seq<Property>, offset: int, limit: int, a: QueryState)
    ensures AfterAcl(c, fs, orders, offset, limit, a) == QueryState(a.joined, a.clauses + TxTail(c, fs, orders, offset, limit))
  {
    var f := if c.filters then FilterClauses(fs) else [];
    var o := if |orders| == 0 then [] else [Order(OrderBy(orders))];
    var p := if c.paging then [Offset(offset), Limit(limit)] else [];
    var s2 := FiltersSpec(c, fs, a);
    assert s2 == QueryState(a.joined, a.clauses + f);
    var s3 := OrdersSpec(orders, s2);
    assert s3 == QueryState(a.joined, a.clauses + f + o);
    assert a.clauses + f + o + p == a.clauses + (f + o + p);
  }

  /** `withGroups`: one `Group` clause per property. */
  function GroupsSpec(groups: seq<Property>, st: QueryState): QueryState
  {
    QueryState(st.joined, st.clauses + GroupClauses(groups))
  }

  /** The joins of `MakeTableResponse`: one `AutoJoin` per selected
      property, on the state access control left. */
  function ResponseJoins(c: Settings, edges: seq<Edge>, routes: seq<Route>, table: string, tableProps: seq<Property>, user: Info, q: Query, st: QueryState): QueryState
  {
    JoinTargets(edges, routes, table, Tables(Selected(QueryProps(q, table), tableProps)), AclSpec(c, edges, routes, table, user, st))
  }

  /** The query `MakeTableResponse` runs: access control, the joins of
      the selected properties, filters, grouping, ordering and paging, in
      that order. */
  function ResponseSpec(c: Settings, edges: seq<Edge>, routes: seq<Route>, table: string, tableProps: seq<Property>, user: Info, q: Query, st: QueryState): QueryState
  {
    var j := ResponseJoins(c, edges, routes, table, tableProps, user, q, st);
    PagingSpec(c, QueryOffset(q), QueryLimit(q),
      OrdersSpec(QueryOrders(q, table), GroupsSpec(QueryGroups(q, table), FiltersSpec(c, QueryFilters(q), j))))
  }

  /** What `MakeTableResponse` appends after the joins. */
  function ResponseTail(c: Settings, fs: seq<string>, groups: seq<Property>, orders: seq<Property>, offset: int, limit: int): seq<Clause>
  {
    (if c.filters then FilterClauses(fs) else [])
    + GroupClauses(groups)
    + (if |orders| == 0 then [] else [Order(OrderBy(orders))])
    + (if c.paging then [Offset(offset), Limit(limit)] else [])
  }

  class Request {
    const tx: Builder
    const acl: bool
    const writeIntent: bool
    const filters: bool
    const paging: bool
    var validFiltersCount: nat

    function Config(): Settings
    {
      Settings(acl, writeIntent, filters, paging)
    }

    predicate Valid()
      reads this, tx
    {
      tx.Valid()
    }

    /** `Table.Request(opts...)`: a fresh handle on the table, the default
        settings, then each option in turn. */
    constructor (table: string, opts: seq<RequestOption>)
      ensures fresh(tx) && tx.table == table && tx.edges == Edges && tx.routes == CurrentRoutes && tx.State() == Empty
      ensures acl == Configured(opts, AclSetting) && writeIntent == Configured(opts, WriteIntentSetting)
      ensures filters == Configured(opts, FiltersSetting) && paging == Configured(opts, PagingSetting)
      ensures validFiltersCount == 0
      ensures Valid()
    {
      var a, w, f, p := true, false, true, true;
      var i := 0;
      while i < |opts|
        invariant 0 <= i <= |opts|
        invariant a == Configured(opts[..i], AclSetting) && w == Configured(opts[..i], WriteIntentSetting)
        invariant f == Configured(opts[..i], FiltersSetting) && p == Configured(opts[..i], PagingSetting)
      {
        assert opts[..i + 1][..i] == opts[..i];
        match opts[i].setting {
          case AclSetting => a := opts[i].v;
          case WriteIntentSetting => w := opts[i].v;
          case FiltersSetting => f := opts[i].v;
          case PagingSetting => p := opts[i].v;
        }
        i := i + 1;
      }
      assert opts[..i] == opts;
      tx := new Builder(table, CurrentRoutes);
      acl, writeIntent, filters, paging := a, w, f, p;
      validFiltersCount := 0;
    }

    /** `HasValidFilters`: at least one filter was accepted. */
    predicate HasValidFilters()
      reads this
    {
      validFiltersCount > 0
    }

    /** `withFilters`: when filters are on, resets the count, then for each
        string the pattern matches adds its clause and counts it. */
    method WithFilters(fs: seq<string>)
      requires Valid()
      modifies this, tx
      ensures Valid()
      ensures !filters ==> tx.State() == old(tx.State()) && validFiltersCount == old(validFiltersCount)
      ensures filters ==> validFiltersCount == MatchedCount(fs)
      ensures tx.State() == FiltersSpec(Config(), fs, old(tx.State()))
    {
      if !filters {
        return;
      }
      validFiltersCount := 0;
      var count := tx.AddFilters(fs);
      validFiltersCount := count;
    }

    /** `withWriteACL`: no restriction for a Manager, otherwise the
        caller's scope through the grant table of writers. */
    method WithWriteACL(user: Info)
      requires Valid()
      modifies tx
      ensures Valid()
      ensures Manager in Privileges(user) ==> tx.State() == old(tx.State())
      ensures Manager !in Privileges(user) ==>
        tx.State() == Scope(tx.edges, tx.routes, tx.table, WriteGrants, user.id, old(tx.State()))
    {
      var manager := IsManager(user);
      if manager {
        return;
      }
      ApplyScope(tx, WriteGrants, user.id);
    }

    /** `withReadACL`: checks the setting again, then as for writing with
        the grant table of readers. */
    method WithReadACL(user: Info)
      requires Valid()
      modifies tx
      ensures Valid()
      ensures !acl || Manager in Privileges(user) ==> tx.State() == old(tx.State())
      ensures acl && Manager !in Privileges(user) ==>
        tx.State() == Scope(tx.edges, tx.routes, tx.table, ReadGrants, user.id, old(tx.State()))
    {
      if !acl {
        return;
      }
      var manager := IsManager(user);
      if manager {
        return;
      }
      ApplyScope(tx, ReadGrants, user.id);
    }

    /** `withACL`: the write or read scope, when access control is on. */
    method WithACL(user: Info)
      requires Valid()
      modifies tx
      ensures Valid()
      ensures tx.State() == AclSpec(Config(), tx.edges, tx.routes, tx.table, user, old(tx.State()))
    {
      if !acl {
        return;
      }
      if writeIntent {
        WithWriteACL(user);
      } else {
        WithReadACL(user);
      }
    }

    /** `withPaging`: offset and limit, when paging is on. */
    method WithPaging(offset: int, limit: int)
      requires Valid()
      modifies tx
      ensures Valid()
      ensures tx.State() == PagingSpec(Config(), offset, limit, old(tx.State()))
    {
      if !paging {
        return;
      }
      tx.Paginate(offset, limit);
    }

    /** `TX`: the handle prepared for the caller and the query string. */
    method TX(user: Info, q: Query)
      requires Valid()
      modifies this, tx
      ensures Valid()
      ensures tx.State() == TxSpec(Config(), tx.edges, tx.routes, tx.table, user, q, old(tx.State()))
      ensures filters ==> validFiltersCount == MatchedCount(QueryFilters(q))
      ensures !filters ==> validFiltersCount == old(validFiltersCount)
      ensures filters ==> (HasValidFilters() <==> exists k :: 0 <= k < |QueryFilters(q)| && FindFilter(QueryFilters(q)[k]).Some?)
    {
      WithACL(user);
      WithFilters(QueryFilters(q));
      MatchedCountClauses(QueryFilters(q));
      tx.WithOrders(QueryOrders(q, tx.table));
      var offset := QueryOffset(q);
      var limit := QueryLimit(q);
      WithPaging(offset, limit);
    }
    /** The query-building part of `MakeTableResponse`: access control,
        the joins and select terms of the `props` parameter (the table's
        own properties when it is empty), then the `filters`, `groupby`,
        `orderby` and `offset`/`limit` parameters. */
    method ResponseQuery(user: Info, q: Query, tableProps: seq<Property>) returns (selects: seq<string>)
      requires Valid()
      modifies this, tx
      ensures Valid()
      ensures tx.State() == ResponseSpec(Config(), tx.edges, tx.routes, tx.table, tableProps, user, q, old(tx.State()))
      ensures var ps := Selected(QueryProps(q, tx.table), tableProps);
        |selects| == |ps| && forall k :: 0 <= k < |ps| ==> selects[k] == SelectTerm(ps[k])
      ensures filters ==> validFiltersCount == MatchedCount(QueryFilters(q))
      ensures !filters ==> validFiltersCount == old(validFiltersCount)
    {
      WithACL(user);
      selects := tx.WithJoins(QueryProps(q, tx.table), tableProps);
      WithFilters(QueryFilters(q));
      tx.WithGroups(QueryGroups(q, tx.table));
      tx.WithOrders(QueryOrders(q, tx.table));
      var offset := QueryOffset(q);
      var limit := QueryLimit(q);
      WithPaging(offset, limit);
    }
  }

  // -----------------------------------------------------------------------
  // Properties of the settings

  /** The last option given for a setting decides it; options for other
      settings leave it alone; without any option it keeps its default. */
  lemma {:induction false} LastOptionWins(opts: seq<RequestOption>, s: Setting, v: bool, rest: seq<RequestOption>)
    requires forall k :: 0 <= k < |rest| ==> rest[k].setting != s
    ensures Configured(opts + [With(s, v)] + rest, s) == v
    decreases |rest|
  {
    if |rest| > 0 {
      var all := opts + [With(s, v)] + rest;
      assert all[..|all| - 1] == opts + [With(s, v)] + rest[..|rest| - 1];
      LastOptionWins(opts, s, v, rest[..|rest| - 1]);
    }
  }

  lemma {:induction false} NoOptionDefault(opts: seq<RequestOption>, s: Setting)
    requires forall k :: 0 <= k < |opts| ==> opts[k].setting != s
    ensures Configured(opts, s) == Default(s)
    decreases |opts|
  {
    if |opts| > 0 {
      NoOptionDefault(opts[..|opts| - 1], s);
    }
  }

  // -----------------------------------------------------------------------
  // Properties of the prepared query

  /** After access control, `TX` adds no join: the access-control clauses
      stay in front, untouched, whatever the query string holds, and every
      later clause is a filter condition, the ordering or the paging. A
      consistent state stays consistent. */
  lemma {:induction false} TxKeepsAcl(c: Settings, edges: seq<Edge>, routes: seq<Route>, table: string, user: Info, q: Query, st: QueryState)
    ensures var a := AclSpec(c, edges, routes, table, user, st);
      var r := TxSpec(c, edges, routes, table, user, q, st);
      |r.clauses| >= |a.clauses| && r.clauses[..|a.clauses|] == a.clauses && r.joined == a.joined
      && (forall k :: |a.clauses| <= k < |r.clauses| ==> !r.clauses[k].Joins?)
      && (Consistent(st) ==> Consistent(r))
  {
    var fs, orders, offset, limit := QueryFilters(q), QueryOrders(q, table), QueryOffset(q), QueryLimit(q);
    var a := AclSpec(c, edges, routes, table, user, st);
    var tail := TxTail(c, fs, orders, offset, limit);
    AfterAclTail(c, fs, orders, offset, limit, a);
    TailNoJoins(c, fs, orders, offset, limit);
    ExtendNoJoins(a, tail);
    if Consistent(st) {
      AclConsistent(c, edges, routes, table, user, st);
    }
  }

  /** The tail `MakeTableResponse` appends after its joins holds filter
      conditions, groups, the ordering and the paging, never a join. */
  lemma ResponseTailNoJoins(c: Settings, fs: seq<string>, groups: seq<Property>, orders: seq<Property>, offset: int, limit: int)
    ensures var t := ResponseTail(c, fs, groups, orders, offset, limit);
      forall k :: 0 <= k < |t| ==> t[k].Where? || t[k].Not? || t[k].Group? || t[k].Order? || t[k].Offset? || t[k].Limit?
  {
    var f := if c.filters then FilterClauses(fs) else [];
    var g := GroupClauses(groups);
    var op := (if |orders| == 0 then [] else [Order(OrderBy(orders))]) + (if c.paging then [Offset(offset), Limit(limit)] else []);
    var t := ResponseTail(c, fs, groups, orders, offset, limit);
    assert t == f + g + op;
    TailNoJoins(c, fs, orders, offset, limit);
    assert TxTail(c, fs, orders, offset, limit) == f + op;
    forall k | 0 <= k < |t| ensures t[k].Where? || t[k].Not? || t[k].Group? || t[k].Order? || t[k].Offset? || t[k].Limit? {
      if k < |f| {
        assert t[k] == (f + op)[k];
      } else if k < |f| + |g| {
        assert t[k] == g[k - |f|];
      } else {
        assert t[k] == (f + op)[k - |g|];
      }
    }
  }

  /** After its joins, `MakeTableResponse` appends the tail and keeps the
      join keys. */
  lemma ResponseAfterJoins(c: Settings, fs: seq<string>, groups: seq<Property>, orders: seq<Property>, offset: int, limit: int, j: QueryState)
    ensures PagingSpec(c, offset, limit, OrdersSpec(orders, GroupsSpec(groups, FiltersSpec(c, fs, j))))
      == QueryState(j.joined, j.clauses + ResponseTail(c, fs, groups, orders, offset, limit))
  {
    var f := if c.filters then FilterClauses(fs) else [];
    var g := GroupClauses(groups);
    var o := if |orders| == 0 then [] else [Order(OrderBy(orders))];
    var p := if c.paging then [Offset(offset), Limit(limit)] else [];
    var s1 := FiltersSpec(c, fs, j);
    assert s1 == QueryState(j.joined, j.clauses + f);
    var s2 := GroupsSpec(groups, s1);
    assert s2.clauses == j.clauses + (f + g);
    var s3 := OrdersSpec(orders, s2);
    assert s3.clauses == j.clauses + (f + g + o);
    var s4 := PagingSpec(c, offset, limit, s3);
    assert s4.clauses == j.clauses + (f + g + o + p);
    assert ResponseTail(c, fs, groups, orders, offset, limit) == f + g + o + p;
  }

  /** With no `groupby`, the steps after the joins are exactly those `TX`
      takes after access control. */
  lemma UngroupedTail(c: Settings, fs: seq<string>, groups: seq<Property>, orders: seq<Property>, offset: int, limit: int)
    requires |groups| == 0
    ensures ResponseTail(c, fs, groups, orders, offset, limit) == TxTail(c, fs, orders, offset, limit)
  {
    assert GroupClauses(groups) == [];
  }

  /** `MakeTableResponse` keeps the access-control clauses in front, puts
      the joins of the selected properties right after them and no join
      after those; it records the keys of access control and of the
      selected tables, and keeps a consistent state consistent. */
  lemma {:induction false} ResponseKeepsAcl(c: Settings, edges: seq<Edge>, routes: seq<Route>, table: string, tableProps: seq<Property>, user: Info, q: Query, st: QueryState)
    ensures var a := AclSpec(c, edges, routes, table, user, st);
      var j := ResponseJoins(c, edges, routes, table, tableProps, user, q, st);
      var r := ResponseSpec(c, edges, routes, table, tableProps, user, q, st);
      |a.clauses| <= |j.clauses| <= |r.clauses| && r.clauses[..|a.clauses|] == a.clauses
      && (forall k :: |a.clauses| <= k < |j.clauses| ==> r.clauses[k].Joins?)
      && (forall k :: |j.clauses| <= k < |r.clauses| ==> !r.clauses[k].Joins?)
      && r.joined == a.joined + TargetKeys(edges, routes, table, Tables(Selected(QueryProps(q, table), tableProps)))
      && (Consistent(st) ==> Consistent(r))
  {
    var fs, groups, orders, offset, limit := QueryFilters(q), QueryGroups(q, table), QueryOrders(q, table), QueryOffset(q), QueryLimit(q);
    var ts := Tables(Selected(QueryProps(q, table), tableProps));
    var a := AclSpec(c, edges, routes, table, user, st);
    var j := ResponseJoins(c, edges, routes, table, tableProps, user, q, st);
    var t := ResponseTail(c, fs, groups, orders, offset, limit);
    JoinTargetsEffect(edges, routes, table, ts, a);
    ResponseAfterJoins(c, fs, groups, orders, offset, limit, j);
    ResponseTailNoJoins(c, fs, groups, orders, offset, limit);
    JoinsThenTail(a, j, t);
    if Consistent(st) {
      AclConsistent(c, edges, routes, table, user, st);
    }
  }

  /** Joins after a prefix, then a join-free tail: the prefix stays in
      front, the joins stay where they were, the tail adds no join and
      keeps a consistent state consistent. */
  lemma JoinsThenTail(a: QueryState, j: QueryState, t: seq<Clause>)
    requires |a.clauses| <= |j.clauses| && j.clauses[..|a.clauses|] == a.clauses
    requires forall k :: 0 <= k < |t| ==> t[k].Where? || t[k].Not? || t[k].Group? || t[k].Order? || t[k].Offset? || t[k].Limit?
    ensures var r := QueryState(j.joined, j.clauses + t);
      r.clauses[..|a.clauses|] == a.clauses
      && (forall k :: |a.clauses| <= k < |j.clauses| ==> r.clauses[k] == j.clauses[k])
      && (forall k :: |j.clauses| <= k < |r.clauses| ==> !r.clauses[k].Joins?)
      && (Consistent(j) ==> Consistent(r))
  {
    var r := QueryState(j.joined, j.clauses + t);
    assert r.clauses[..|j.clauses|] == j.clauses;
    assert r.clauses[..|a.clauses|] == j.clauses[..|a.clauses|];
    forall k | |j.clauses| <= k < |r.clauses| ensures !r.clauses[k].Joins? {
      assert r.clauses[k] == t[k - |j.clauses|];
    }
    if Consistent(j) {
      AppendNonJoins(j, t);
    }
  }

  /** A response that selects only its own table's columns and groups
      nothing runs the query `TX` prepares. */
  lemma {:induction false} OwnTableResponseIsTx(c: Settings, edges: seq<Edge>, routes: seq<Route>, table: string, tableProps: seq<Property>, user: Info, q: Query, st: QueryState)
    requires |QueryGroups(q, table)| == 0
    requires var ps := Selected(QueryProps(q, table), tableProps);
      forall k :: 0 <= k < |ps| ==> ps[k].table == table
    ensures ResponseSpec(c, edges, routes, table, tableProps, user, q, st) == TxSpec(c, edges, routes, table, user, q, st)
  {
    var ts := Tables(Selected(QueryProps(q, table), tableProps));
    var a := AclSpec(c, edges, routes, table, user, st);
    OwnTableTargets(edges, routes, table, ts);
    JoinTargetsEffect(edges, routes, table, ts, a);
    assert ResponseJoins(c, edges, routes, table, tableProps, user, q, st) == a;
    var fs, groups, orders, offset, limit := QueryFilters(q), QueryGroups(q, table), QueryOrders(q, table), QueryOffset(q), QueryLimit(q);
    ResponseAfterJoins(c, fs, groups, orders, offset, limit, a);
    UngroupedTail(c, fs, groups, orders, offset, limit);
    AfterAclTail(c, fs, orders, offset, limit, a);
  }

  /** Appending clauses that are no join keeps the prefix and the join
      keys, and keeps a consistent state consistent. */
  lemma ExtendNoJoins(a: QueryState, tail: seq<Clause>)
    requires forall k :: 0 <= k < |tail| ==> tail[k].Where? || tail[k].Not? || tail[k].Order? || tail[k].Offset? || tail[k].Limit?
    ensures var r := QueryState(a.joined, a.clauses + tail);
      |r.clauses| >= |a.clauses| && r.clauses[..|a.clauses|] == a.clauses
      && (forall k :: |a.clauses| <= k < |r.clauses| ==> !r.clauses[k].Joins?)
      && (Consistent(a) ==> Consistent(r))
  {
    var r := QueryState(a.joined, a.clauses + tail);
    assert r.clauses[..|a.clauses|] == a.clauses;
    forall k | |a.clauses| <= k < |r.clauses| ensures !r.clauses[k].Joins? {
      assert r.clauses[k] == tail[k - |a.clauses|];
    }
    if Consistent(a) {
      AppendNonJoins(a, tail);
    }
  }

  /** Access control keeps a consistent state consistent. */
  lemma AclConsistent(c: Settings, edges: seq<Edge>, routes: seq<Route>, table: string, user: Info, st: QueryState)
    requires Consistent(st)
    ensures Consistent(AclSpec(c, edges, routes, table, user, st))
  {
    if c.acl && Manager !in Privileges(user) {
      ScopeProperties(edges, routes, table, if c.writeIntent then WriteGrants else ReadGrants, user.id, st);
    }
  }

  lemma ManagerUnrestricted(c: Settings, edges: seq<Edge>, routes: seq<Route>, table: string, user: Info, st: QueryState)
    requires !c.acl || Manager in Privileges(user)
    ensures AclSpec(c, edges, routes, table, user, st) == st
  {
  }

  /** Any other caller of a request with access control ends up bound to
      its own id, through the writers' grant table exactly when the request
      declares a write intent. */
  lemma {:induction false} ScopedCaller(c: Settings, edges: seq<Edge>, routes: seq<Route>, table: string, user: Info, st: QueryState)
    requires c.acl && Manager !in Privileges(user)
    ensures var a := AclSpec(c, edges, routes, table, user, st);
      a.clauses[|a.clauses| - 1].Where? && a.clauses[|a.clauses| - 1].args == [user.id]
    ensures !IsNodeId(user.id) ==>
      var a := AclSpec(c, edges, routes, table, user, st);
      a.clauses[|a.clauses| - 2].expr
        == (if c.writeIntent then WriteGrants else ReadGrants) + ".group_id = auth_membership.group_id"
  {
    var grants := if c.writeIntent then WriteGrants else ReadGrants;
    ScopeProperties(edges, routes, table, grants, user.id, st);
    if !IsNodeId(user.id) {
      UserScopeUsesGrants(edges, routes, table, grants, user.id, st);
    }
  }

  /** With filters off, the `filters` parameter has no effect at all. */
  lemma FiltersOffIgnored(c: Settings, edges: seq<Edge>, routes: seq<Route>, table: string, user: Info, q: Query, fs: seq<string>, st: QueryState)
    requires !c.filters
    ensures TxSpec(c, edges, routes, table, user, q["filters" := fs], st) == TxSpec(c, edges, routes, table, user, q, st)
  {
    var q2 := q["filters" := fs];
    assert Get(q2, "orderby") == Get(q, "orderby");
    assert Get(q2, "offset") == Get(q, "offset");
    assert Get(q2, "limit") == Get(q, "limit");
  }

  /** The request a bulk delete of tags makes (no access control, write
      intent): when no filter is accepted, no `WHERE` or `NOT` condition
      restricts the prepared query; only the ordering and the page (limit
      20 by default) bound it. This is what the route refuses when
      `HasValidFilters` is false and no body names the entries. */
  lemma {:induction false} NoValidFilterNoCondition(c: Settings, edges: seq<Edge>, routes: seq<Route>, table: string, user: Info, q: Query)
    requires !c.acl && c.filters
    requires MatchedCount(QueryFilters(q)) == 0
    ensures var r := TxSpec(c, edges, routes, table, user, q, Empty);
      forall k :: 0 <= k < |r.clauses| ==> r.clauses[k].Order? || r.clauses[k].Offset? || r.clauses[k].Limit?
    ensures var r := TxSpec(c, edges, routes, table, user, q, Empty);
      c.paging ==> |r.clauses| >= 2 && r.clauses[|r.clauses| - 2] == Offset(QueryOffset(q)) && r.clauses[|r.clauses| - 1] == Limit(QueryLimit(q))
  {
    var fs, orders, offset, limit := QueryFilters(q), QueryOrders(q, table), QueryOffset(q), QueryLimit(q);
    MatchedCountClauses(fs);
    var a := AclSpec(c, edges, routes, table, user, Empty);
    assert a.clauses == [];
    var tail := TxTail(c, fs, orders, offset, limit);
    UnfilteredTail(c, fs, orders, offset, limit);
    AfterAclTail(c, fs, orders, offset, limit, a);
    var r := TxSpec(c, edges, routes, table, user, q, Empty);
    assert r.clauses == a.clauses + tail;
    assert r.clauses == tail;
  }

  /** Without a filter clause, the tail is the ordering and the paging. */
  lemma UnfilteredTail(c: Settings, fs: seq<string>, orders: seq<Property>, offset: int, limit: int)
    requires FilterClauses(fs) == []
    ensures var r := TxTail(c, fs, orders, offset, limit);
      forall k :: 0 <= k < |r| ==> r[k].Order? || r[k].Offset? || r[k].Limit?
  {
    var r := TxTail(c, fs, orders, offset, limit);
    var f: seq<Clause> := if c.filters then FilterClauses(fs) else [];
    assert f == [];
    if |orders| == 0 && c.paging {
      assert r == [] + [] + [Offset(offset), Limit(limit)];
    } else if |orders| == 0 {
      assert r == [] + [] + [];
    } else if c.paging {
      assert r == [] + [Order(OrderBy(orders))] + [Offset(offset), Limit(limit)];
    } else {
      assert r == [] + [Order(OrderBy(orders))] + [];
    }
  }

  /** Options as given by the bulk delete of tags yield that request. */
  lemma TagsDeleteSettings()
    ensures var opts := [With(AclSetting, false), With(WriteIntentSetting, true)];
      Configured(opts, AclSetting) == false && Configured(opts, WriteIntentSetting) == true
      && Configured(opts, FiltersSetting) && Configured(opts, PagingSetting)
  {
    var opts := [With(AclSetting, false), With(WriteIntentSetting, true)];
    assert opts[..1] == [With(AclSetting, false)];
    assert opts[..1][..0] == [];
  }
}

=== FILE: routes.dfy ===
/** Facts about the two concrete route tables over the edge list. */
module RouteFacts {
  import opened Strs
  import opened Sql
  import opened JoinGraph

  /** The tables the route end points name. */
  const TableNames: set<string> := {"tags", "nodes", "services", "node_tags", "svc_tags", "apps",
                                    "apps_publications", "apps_responsibles", "auth_membership"}

  lemma TableNamesPlain()
    ensures forall n :: n in TableNames ==> ':' !in n
  {
  }

  lemma CurrentEndsNamed()
    ensures forall k :: 0 <= k < |CurrentRoutes| ==> CurrentRoutes[k].from in TableNames && CurrentRoutes[k].to in TableNames
  {
  }

  lemma LegacyEndsNamed()
    ensures forall k :: 0 <= k < |LegacyRoutes| ==> LegacyRoutes[k].from in TableNames && LegacyRoutes[k].to in TableNames
  {
  }

  lemma LegacyPlain()
    ensures PlainNames(LegacyRoutes)
  {
    TableNamesPlain();
    LegacyEndsNamed();
  }

  lemma CurrentPlain()
    ensures PlainNames(CurrentRoutes)
  {
    TableNamesPlain();
    CurrentEndsNamed();
  }

  lemma LegacyGapHops()
    ensures GetHops(LegacyRoutes, "svc_tags", "apps_publications") == ["services", "apps_publications"]
  {
    LegacyPlain();
    var k := FirstRouteFrom(LegacyRoutes, "svc_tags", "apps_publications", 0);
    assert k == Some(11);
    GetHopsByRoute(LegacyRoutes, "svc_tags", "apps_publications");
    assert LegacyRoutes[11].via + ["apps_publications"] == ["services", "apps_publications"];
  }

  lemma LegacyGapWalk()
    ensures Walk(Edges, "svc_tags", ["services", "apps_publications"], 0, Empty)
      == QueryState({"services:svc_tags"},
                    [Joins(JoinSQL(Edge("services", "svc_tags", [("svc_id", "svc_id")]), "services"))])
  {
    var hops := ["services", "apps_publications"];
    assert FindJoin(Edges, "svc_tags", "services") == Some(Edges[7]);
    assert GenKey("services", "svc_tags") == "services:svc_tags";
    var st := JoinStep(Empty, Edges[7], "services");
    NoEdge("services", "apps_publications");
    assert Walk(Edges, "services", hops, 1, st) == st;
  }

  /** With the older route table, the route from `svc_tags` to
      `apps_publications` skips `apps`: the hops are `services` then
      `apps_publications`, and `services` has no direct edge to
      `apps_publications`, so `AutoJoin` adds the `services` join and stops. */
  lemma LegacyPublicationsGap()
    ensures GetHops(LegacyRoutes, "svc_tags", "apps_publications") == ["services", "apps_publications"]
    ensures AutoJoinSpec(Edges, LegacyRoutes, "svc_tags", "apps_publications", Empty)
      == QueryState({"services:svc_tags"},
                    [Joins(JoinSQL(Edge("services", "svc_tags", [("svc_id", "svc_id")]), "services"))])
  {
    LegacyGapHops();
    LegacyGapWalk();
  }

  /** With the older route table, the routes from `node_tags` and from
      `svc_tags` to `apps` list `apps` and then `apps_publications` in their
      `via`, so the hops run past `apps` and come back to it. */
  lemma LegacyAppsHops()
    ensures GetHops(LegacyRoutes, "node_tags", "apps") == ["nodes", "apps", "apps_publications", "apps"]
    ensures GetHops(LegacyRoutes, "svc_tags", "apps") == ["services", "apps", "apps_publications", "apps"]
  {
    LegacyPlain();
    var k := FirstRouteFrom(LegacyRoutes, "node_tags", "apps", 0);
    assert k == Some(4);
    GetHopsByRoute(LegacyRoutes, "node_tags", "apps");
    var m := FirstRouteFrom(LegacyRoutes, "svc_tags", "apps", 0);
    assert m == Some(10);
    GetHopsByRoute(LegacyRoutes, "svc_tags", "apps");
  }

  /** The walk over such hops joins `apps_publications` after `apps`; the
      way back to `apps` reuses a recorded edge and adds nothing. */
  lemma LegacyAppsWalk(here: string, mid: string, a: Edge, b: Edge)
    requires FindJoin(Edges, here, mid) == Some(a) && FindJoin(Edges, mid, "apps") == Some(b)
    requires Key(a) != Key(b) && Key(Edges[13]) != Key(a) && Key(Edges[13]) != Key(b)
    ensures Walk(Edges, here, [mid, "apps", "apps_publications", "apps"], 0, Empty).clauses
      == [Joins(JoinSQL(a, mid)), Joins(JoinSQL(b, "apps")), Joins(JoinSQL(Edges[13], "apps_publications"))]
  {
    var hops := [mid, "apps", "apps_publications", "apps"];
    var e := Edges[13];
    AppsPublicationsEdge();
    var s1 := JoinStep(Empty, a, mid);
    var s2 := JoinStep(s1, b, "apps");
    var s3 := JoinStep(s2, e, "apps_publications");
    assert s3.clauses == [Joins(JoinSQL(a, mid)), Joins(JoinSQL(b, "apps")), Joins(JoinSQL(e, "apps_publications"))];
    assert JoinStep(s3, e, "apps") == s3;
    assert Walk(Edges, "apps_publications", hops, 3, s3) == s3;
    assert Walk(Edges, "apps", hops, 2, s2) == s3;
  }

  lemma AppsPublicationsEdge()
    ensures FindJoin(Edges, "apps", "apps_publications") == Some(Edges[13])
    ensures FindJoin(Edges, "apps_publications", "apps") == Some(Edges[13])
  {
    assert FindJoinFrom(Edges, "apps", "apps_publications", 13) == Some(Edges[13]);
    assert FindJoinFrom(Edges, "apps", "apps_publications", 7) == Some(Edges[13]);
    assert FindJoinFrom(Edges, "apps", "apps_publications", 0) == Some(Edges[13]);
    FindJoinSymmetric(Edges, "apps", "apps_publications");
  }

  /** With the older route table, a request on `node_tags` that joins
      `apps` also LEFT JOINs `apps_publications`. */
  lemma LegacyNodeTagsApps()
    ensures AutoJoinSpec(Edges, LegacyRoutes, "node_tags", "apps", Empty).clauses
      == [Joins(JoinSQL(Edge("nodes", "node_tags", [("node_id", "node_id")]), "nodes")),
          Joins(JoinSQL(Edge("nodes", "apps", [("app", "app")]), "apps")),
          Joins(JoinSQL(Edge("apps", "apps_publications", [("id", "app_id")]), "apps_publications"))]
  {
    LegacyAppsHops();
    NodeTagsAppsSteps();
    LegacyAppsWalk("node_tags", "nodes", Edges[2], Edges[4]);
  }

  lemma NodeTagsAppsSteps()
    ensures FindJoin(Edges, "node_tags", "nodes") == Some(Edges[2]) && FindJoin(Edges, "nodes", "apps") == Some(Edges[4])
    ensures Key(Edges[2]) == "node_tags:nodes" && Key(Edges[4]) == "apps:nodes" && Key(Edges[13]) == "apps:apps_publications"
  {
    NodeTagsAppsEdges();
    NodeTagsAppsKeys();
  }

  lemma NodeTagsAppsEdges()
    ensures FindJoin(Edges, "node_tags", "nodes") == Some(Edges[2]) && FindJoin(Edges, "nodes", "apps") == Some(Edges[4])
  {
    assert FindJoin(Edges, "node_tags", "nodes") == Some(Edges[2]);
  }

  lemma NodeTagsAppsKeys()
    ensures Key(Edges[2]) == "node_tags:nodes" && Key(Edges[4]) == "apps:nodes" && Key(Edges[13]) == "apps:apps_publications"
  {
    assert GenKey("nodes", "node_tags") == "node_tags:nodes";
    assert GenKey("nodes", "apps") == "apps:nodes";
    assert GenKey("apps", "apps_publications") == "apps:apps_publications";
  }

  /** The same for a request on `svc_tags`. */
  lemma LegacySvcTagsApps()
    ensures AutoJoinSpec(Edges, LegacyRoutes, "svc_tags", "apps", Empty).clauses
      == [Joins(JoinSQL(Edge("services", "svc_tags", [("svc_id", "svc_id")]), "services")),
          Joins(JoinSQL(Edge("services", "apps", [("svc_app", "app")]), "apps")),
          Joins(JoinSQL(Edge("apps", "apps_publications", [("id", "app_id")]), "apps_publications"))]
  {
    LegacyAppsHops();
    SvcTagsAppsSteps();
    LegacyAppsWalk("svc_tags", "services", Edges[7], Edges[5]);
  }

  lemma SvcTagsAppsSteps()
    ensures FindJoin(Edges, "svc_tags", "services") == Some(Edges[7]) && FindJoin(Edges, "services", "apps") == Some(Edges[5])
    ensures Key(Edges[7]) == "services:svc_tags" && Key(Edges[5]) == "apps:services" && Key(Edges[13]) == "apps:apps_publications"
  {
    SvcTagsAppsEdges();
    SvcTagsAppsKeys();
  }

  lemma SvcTagsAppsEdges()
    ensures FindJoin(Edges, "svc_tags", "services") == Some(Edges[7]) && FindJoin(Edges, "services", "apps") == Some(Edges[5])
  {
    assert FindJoin(Edges, "svc_tags", "services") == Some(Edges[7]);
  }

  lemma SvcTagsAppsKeys()
    ensures Key(Edges[7]) == "services:svc_tags" && Key(Edges[5]) == "apps:services" && Key(Edges[13]) == "apps:apps_publications"
  {
    assert GenKey("services", "svc_tags") == "services:svc_tags";
    assert GenKey("services", "apps") == "apps:services";
    assert GenKey("apps", "apps_publications") == "apps:apps_publications";
  }

  lemma NoEdge(a: string, b: string)
    requires forall k :: 0 <= k < |Edges| ==> !Connects(Edges[k], a, b)
    ensures FindJoin(Edges, a, b) == None
  {
    FindJoinFirst(Edges, a, b);
  }

  lemma HasEdge(a: string, b: string, k: nat)
    requires k < |Edges| && Connects(Edges[k], a, b)
    ensures FindJoin(Edges, a, b).Some?
  {
    FindJoinFirst(Edges, a, b);
  }

  /** The direct edges the declared routes rely on. */
  lemma RouteEdges()
    ensures FindJoin(Edges, "tags", "node_tags").Some?
    ensures FindJoin(Edges, "node_tags", "nodes").Some?
    ensures FindJoin(Edges, "tags", "svc_tags").Some?
    ensures FindJoin(Edges, "svc_tags", "services").Some?
    ensures FindJoin(Edges, "services", "apps").Some?
    ensures FindJoin(Edges, "apps", "apps_publications").Some?
    ensures FindJoin(Edges, "apps_publications", "apps").Some?
    ensures FindJoin(Edges, "apps_publications", "auth_membership").Some?
    ensures FindJoin(Edges, "nodes", "apps").Some?
    ensures FindJoin(Edges, "apps", "apps_responsibles").Some?
    ensures FindJoin(Edges, "services", "svcmon").Some?
    ensures FindJoin(Edges, "svcmon", "nodes").Some?
  {
    HasEdge("tags", "node_tags", 0);
    HasEdge("node_tags", "nodes", 2);
    HasEdge("tags", "svc_tags", 1);
    HasEdge("svc_tags", "services", 7);
    HasEdge("services", "apps", 5);
    HasEdge("apps", "apps_publications", 13);
    HasEdge("apps_publications", "apps", 13);
    HasEdge("apps_publications", "auth_membership", 11);
    HasEdge("nodes", "apps", 4);
    HasEdge("apps", "apps_responsibles", 14);
    HasEdge("services", "svcmon", 6);
    HasEdge("svcmon", "nodes", 3);
  }

  /** The hop pairs of the declared routes that have a direct edge. */
  const Linked: set<(string, string)> := {
    ("tags", "node_tags"), ("node_tags", "nodes"), ("tags", "svc_tags"), ("svc_tags", "services"),
    ("services", "apps"), ("apps", "apps_publications"), ("apps_publications", "apps"),
    ("apps_publications", "auth_membership"), ("nodes", "apps"), ("apps", "apps_responsibles"),
    ("services", "svcmon"), ("svcmon", "nodes")
  }

  lemma LinkedJoin()
    ensures forall p :: p in Linked ==> FindJoin(Edges, p.0, p.1).Some?
  {
    RouteEdges();
  }

  /** A path whose consecutive pairs are all in `Linked` is connected. */
  lemma ConnectedByLinked(here: string, hops: seq<string>)
    requires |hops| > 0 ==> (here, hops[0]) in Linked
    requires forall k :: 0 < k < |hops| ==> (hops[k - 1], hops[k]) in Linked
    ensures Connected(Edges, here, hops, 0)
  {
    LinkedJoin();
    ConnectedByPairs(Edges, here, hops, 0);
  }

  /** Every route of the current table, walked from its `from` table, has a
      direct edge at each hop. */
  lemma CurrentRoutesConnected()
    ensures forall k :: 0 <= k < |CurrentRoutes| ==> RouteConnected(Edges, CurrentRoutes[k])
  {
    forall k | 0 <= k < |CurrentRoutes| ensures RouteConnected(Edges, CurrentRoutes[k]) {
      var r := CurrentRoutes[k];
      ConnectedByLinked(r.from, r.via + [r.to]);
    }
  }

  /** Every route of the older table but the last is connected; the last
      one (`svc_tags` to `apps_publications` through `services`) is not. */
  lemma LegacyRoutesConnected()
    ensures forall k :: 0 <= k < |LegacyRoutes| - 1 ==> RouteConnected(Edges, LegacyRoutes[k])
    ensures !RouteConnected(Edges, LegacyRoutes[|LegacyRoutes| - 1])
  {
    forall k | 0 <= k < |LegacyRoutes| - 1 ensures RouteConnected(Edges, LegacyRoutes[k]) {
      var r := LegacyRoutes[k];
      ConnectedByLinked(r.from, r.via + [r.to]);
    }
    var r := LegacyRoutes[11];
    var hops := r.via + [r.to];
    assert hops == ["services", "apps_publications"];
    NoEdge("services", "apps_publications");
    assert !Connected(Edges, "services", hops, 1);
  }

  lemma ReverseHops()
    ensures GetHops(CurrentRoutes, "auth_membership", "tags")
      == ["svc_tags", "services", "apps", "apps_publications", "tags"]
  {
    CurrentPlain();
    var k := FirstRouteFrom(CurrentRoutes, "auth_membership", "tags", 0);
    assert k == Some(3);
    GetHopsByRoute(CurrentRoutes, "auth_membership", "tags");
  }

  /** A route declared from `tags` to `auth_membership` is connected in that
      direction, but a request on `auth_membership` that joins `tags` gets
      the same hops in the same order, starting at `svc_tags`, which has no
      edge to `auth_membership`: nothing is joined. */
  lemma ReverseMultiHopJoinsNothing()
    ensures RouteConnected(Edges, Route("tags", "auth_membership", ["svc_tags", "services", "apps", "apps_publications"]))
    ensures AutoJoinSpec(Edges, CurrentRoutes, "auth_membership", "tags", Empty) == Empty
  {
    CurrentRoutesConnected();
    assert CurrentRoutes[3] == Route("tags", "auth_membership", ["svc_tags", "services", "apps", "apps_publications"]);
    ReverseHops();
    NoEdge("auth_membership", "svc_tags");
  }
}

=== FILE: sql.dfy ===
/** The gorm query handle `tx *gorm.DB`, seen from the builder: an
    append-only list of the clauses chained onto it, together with the set
    of join keys the request has already emitted (`joinedTables`). */
module Sql {

  /** One chained call on the handle, named after the gorm method. */
  datatype Clause =
    | Joins(sql: string)
    | Where(expr: string, args: seq<string>)
    | Not(expr: string, args: seq<string>)
    | Group(name: string)
    | Order(value: string)
    | Offset(offset: int)
    | Limit(limit: int)

  /** The mutable part of a request: the `joined` key set and the clauses. */
  datatype QueryState = QueryState(joined: set<string>, clauses: seq<Clause>)

  const Empty: QueryState := QueryState({}, [])

  /** Number of `Joins` clauses in a list. */
  function JoinCount(clauses: seq<Clause>): nat
  {
    if |clauses| == 0 then 0
    else JoinCount(clauses[..|clauses| - 1]) + (if clauses[|clauses| - 1].Joins? then 1 else 0)
  }

  /** Every emitted `LEFT JOIN` was recorded under its own key: there are
      exactly as many join keys as join clauses, so no key was emitted twice. */
  predicate Consistent(st: QueryState)
  {
    |st.joined| == JoinCount(st.clauses)
  }

  lemma {:induction false} JoinCountAppend(a: seq<Clause>, b: seq<Clause>)
    ensures JoinCount(a + b) == JoinCount(a) + JoinCount(b)
    decreases |b|
  {
    if |b| == 0 {
      assert a + b == a;
    } else {
      assert (a + b)[..|a + b| - 1] == a + b[..|b| - 1];
      JoinCountAppend(a, b[..|b| - 1]);
    }
  }

  lemma AppendAssoc(a: seq<Clause>, b: seq<Clause>, c: seq<Clause>)
    ensures (a + b) + c == a + (b + c)
  {
  }

  /** Appending clauses that are not joins keeps a consistent state consistent. */
  lemma AppendNonJoins(st: QueryState, more: seq<Clause>)
    requires Consistent(st)
    requires forall k :: 0 <= k < |more| ==> !more[k].Joins?
    ensures Consistent(QueryState(st.joined, st.clauses + more))
  {
    JoinCountAppend(st.clauses, more);
    NoJoins(more);
  }

  lemma {:induction false} NoJoins(cs: seq<Clause>)
    requires forall k :: 0 <= k < |cs| ==> !cs[k].Joins?
    ensures JoinCount(cs) == 0
    decreases |cs|
  {
    if |cs| > 0 {
      NoJoins(cs[..|cs| - 1]);
    }
  }
}

=== FILE: strs.dfy ===
/** String helpers with the semantics of Go's `strings` package and of
    Go's built-in string order, on strings modelled as `seq<char>`. */
module Strs {

  datatype Option<T> = None | Some(value: T)

  /** Go's `a < b` on strings: byte-wise lexicographic order. Comparing
      code points gives the same order as comparing UTF-8 bytes. The
      comparison walks an index so that it evaluates on literals. */
  predicate LessFrom(a: string, b: string, i: nat)
    requires i <= |a| && i <= |b|
    decreases |a| - i
  {
    if i == |a| then i < |b|
    else if i == |b| then false
    else if a[i] != b[i] then a[i] < b[i]
    else LessFrom(a, b, i + 1)
  }

  predicate Less(a: string, b: string)
  {
    LessFrom(a, b, 0)
  }

  lemma {:induction false} LessFromTrichotomy(a: string, b: string, i: nat)
    requires i <= |a| && i <= |b| && a[..i] == b[..i]
    ensures LessFrom(a, b, i) ==> !LessFrom(b, a, i)
    ensures a != b ==> LessFrom(a, b, i) || LessFrom(b, a, i)
    decreases |a| - i
  {
    if i == |a| || i == |b| {
      if i == |a| && i == |b| {
        assert a == a[..i] && b == b[..i];
      } else if i == |a| {
        assert a == a[..i];
      } else {
        assert b == b[..i];
      }
    } else if a[i] == b[i] {
      assert a[..i + 1] == a[..i] + [a[i]];
      assert b[..i + 1] == b[..i] + [b[i]];
      LessFromTrichotomy(a, b, i + 1);
    }
  }

  /** Go's string order is a strict total order. */
  lemma LessTrichotomy(a: string, b: string)
    ensures Less(a, b) ==> !Less(b, a)
    ensures a != b ==> Less(a, b) || Less(b, a)
    ensures !Less(a, a)
  {
    LessFromTrichotomy(a, b, 0);
    LessFromTrichotomy(a, a, 0);
  }

  /** `strings.HasPrefix(s, string(c))` for a one-character prefix. */
  predicate StartsWith(s: string, c: char)
  {
    |s| > 0 && s[0] == c
  }

  /** `strings.TrimLeft(s, string(c))`: drops every leading `c`. */
  function TrimLeft(s: string, c: char): (r: string)
    ensures |r| <= |s| && r == s[|s| - |r|..]
    ensures !StartsWith(r, c)
    ensures forall k :: 0 <= k < |s| - |r| ==> s[k] == c
  {
    if |s| > 0 && s[0] == c then TrimLeft(s[1..], c) else s
  }

  /** Index of the first `c` at or after `i`, if any. */
  function IndexFrom(s: string, c: char, i: nat): (r: Option<nat>)
    requires i <= |s|
    ensures r.Some? ==> (i <= r.value < |s| && s[r.value] == c
                         && forall k :: i <= k < r.value ==> s[k] != c)
    ensures r.None? ==> forall k :: i <= k < |s| ==> s[k] != c
    decreases |s| - i
  {
    if i == |s| then None
    else if s[i] == c then Some(i)
    else IndexFrom(s, c, i + 1)
  }

  function IndexOf(s: string, c: char): (r: Option<nat>)
    ensures r.Some? ==> r.value < |s| && s[r.value] == c && c !in s[..r.value]
    ensures r.None? <==> c !in s
  {
    IndexFrom(s, c, 0)
  }

  /** `strings.SplitN(s, string(c), n)` for `n >= 1`: at most `n` pieces,
      the last one holding the unsplit remainder. */
  function SplitN(s: string, c: char, n: nat): (r: seq<string>)
    requires n >= 1
    ensures 1 <= |r| <= n
    decreases n
  {
    if n == 1 then [s]
    else match IndexOf(s, c)
      case None => [s]
      case Some(i) => [s[..i]] + SplitN(s[i + 1..], c, n - 1)
  }

  /** Every piece of `SplitN` but the last is free of the separator, and
      when fewer than `n` pieces come out the last one is too. */
  lemma {:induction false} SplitNPieces(s: string, c: char, n: nat)
    requires n >= 1
    ensures var r := SplitN(s, c, n);
      (forall k :: 0 <= k < |r| - 1 ==> c !in r[k])
      && (|r| < n ==> c !in r[|r| - 1])
    decreases n
  {
    if n > 1 {
      match IndexOf(s, c)
      case None =>
      case Some(i) =>
        SplitNPieces(s[i + 1..], c, n - 1);
        var rest := SplitN(s[i + 1..], c, n - 1);
        assert SplitN(s, c, n) == [s[..i]] + rest;
    }
  }

  /** Splitting after a separator-free first piece: that piece, then the
      split of the rest. */
  lemma SplitNAfter(a: string, c: char, rest: string, n: nat)
    requires n >= 2 && c !in a
    ensures SplitN(a + [c] + rest, c, n) == [a] + SplitN(rest, c, n - 1)
  {
    var s := a + [c] + rest;
    assert s[|a|] == c && s[..|a|] == a;
    assert IndexOf(s, c) == Some(|a|);
    assert s[|a| + 1..] == rest;
  }

  lemma SplitAtFirst(a: string, b: string, c: char)
    requires c !in a
    ensures SplitN(a + [c] + b, c, 2) == [a, b]
  {
    SplitNAfter(a, c, b, 2);
  }

  /** `strings.Split(s, string(c))`: every piece between separators. */
  function Split(s: string, c: char): (r: seq<string>)
    ensures |r| >= 1
    ensures forall k :: 0 <= k < |r| ==> c !in r[k]
    decreases |s|
  {
    match IndexOf(s, c)
    case None => [s]
    case Some(i) => [s[..i]] + Split(s[i + 1..], c)
  }

  /** `strings.Join(parts, sep)`. */
  function Join(parts: seq<string>, sep: string): string
  {
    if |parts| == 0 then ""
    else if |parts| == 1 then parts[0]
    else parts[0] + sep + Join(parts[1..], sep)
  }

  lemma JoinCons(x: string, parts: seq<string>, sep: string)
    requires |parts| >= 1
    ensures Join([x] + parts, sep) == x + sep + Join(parts, sep)
  {
    assert ([x] + parts)[1..] == parts;
  }

  /** Joining the pieces of `SplitN` with the separator gives back the input. */
  lemma {:induction false} JoinSplitN(s: string, c: char, n: nat)
    requires n >= 1
    ensures Join(SplitN(s, c, n), [c]) == s
    decreases n
  {
    if n > 1 && c in s {
      var i := IndexOf(s, c).value;
      var x, y := s[..i], s[i + 1..];
      assert x + [c] + y == s;
      SplitNAfter(x, c, y, n);
      JoinSplitN(y, c, n - 1);
      JoinCons(x, SplitN(y, c, n - 1), [c]);
    } else if n > 1 {
      assert IndexOf(s, c).None?;
    }
  }

  /** Joining the pieces of `Split` with the separator gives back the input. */
  lemma {:induction false} JoinSplit(s: string, c: char)
    ensures Join(Split(s, c), [c]) == s
    decreases |s|
  {
    match IndexOf(s, c)
    case None =>
    case Some(i) =>
      JoinSplit(s[i + 1..], c);
      JoinCons(s[..i], Split(s[i + 1..], c), [c]);
      assert s == s[..i] + [c] + s[i + 1..];
  }

  /** `Split` after a separator-free first piece: that piece, then the
      split of the rest. */
  lemma SplitAfter(a: string, c: char, rest: string)
    requires c !in a
    ensures Split(a + [c] + rest, c) == [a] + Split(rest, c)
  {
    var s := a + [c] + rest;
    assert s[|a|] == c && s[..|a|] == a;
    assert IndexOf(s, c) == Some(|a|);
    assert s[|a| + 1..] == rest;
  }

  /** Splitting a join of separator-free pieces gives back the pieces. */
  lemma {:induction false} SplitJoin(parts: seq<string>, c: char)
    requires |parts| >= 1
    requires forall k :: 0 <= k < |parts| ==> c !in parts[k]
    ensures Split(Join(parts, [c]), c) == parts
    decreases |parts|
  {
    if |parts| == 1 {
      assert IndexOf(Join(parts, [c]), c).None?;
    } else {
      var rest := Join(parts[1..], [c]);
      assert Join(parts, [c]) == parts[0] + [c] + rest;
      SplitAfter(parts[0], c, rest);
      SplitJoin(parts[1..], c);
      assert parts == [parts[0]] + parts[1..];
    }
  }
}

=== FILE: w2pcrypt.dfy ===
/** web2py-style password hashes: a stored string `alg$salt$hexdigest`,
    `alg$hexdigest` or a bare hex digest whose length names the algorithm,
    checked against a clear-text password. The hash functions themselves
    (MD5 of RFC 1321, SHA-1 and SHA-2 of FIPS 180-4, HMAC of RFC 2104) are
    parameters with their output sizes as the only assumption. */
module W2pCrypt {
  import opened Strs

  newtype byte = x: int | 0 <= x < 256

  /** `digestAlgBySize`: hex length of a digest to algorithm name. */
  const DigestAlgBySize: map<nat, string> := map[
    32 := "md5",
    40 := "sha1",
    56 := "sha224",
    64 := "sha256",
    96 := "sha384",
    128 := "sha512"
  ]

  /** The plain digest algorithms `IsEqual` accepts. */
  predicate KnownAlg(alg: string)
  {
    alg == "md5" || alg == "sha1" || alg == "sha224" || alg == "sha256" || alg == "sha384" || alg == "sha512"
  }

  /** Digest size in bytes of each known algorithm. */
  function DigestSize(alg: string): nat
    requires KnownAlg(alg)
  {
    match alg
    case "md5" => 16
    case "sha1" => 20
    case "sha224" => 28
    case "sha256" => 32
    case "sha384" => 48
    case _ => 64
  }

  /** The hash primitives: `digest(alg, text)` for a known `alg`, and
      HMAC-SHA512 keyed by `secret`. */
  datatype Primitives = Primitives(
    digest: (string, string) -> seq<byte>,
    hmacSha512: (string, string) -> seq<byte>)

  /** Each primitive yields a digest of its algorithm's size. */
  ghost predicate WellSized(p: Primitives)
  {
    (forall alg, text :: KnownAlg(alg) ==> |p.digest(alg, text)| == DigestSize(alg))
    && (forall secret, text :: |p.hmacSha512(secret, text)| == 64)
  }

  /** `Crypt`: an optional HMAC key and the HMAC algorithm name. */
  datatype Crypt = Crypt(hmacKey: string, hmacAlg: string)

  datatype CryptError =
    | EmptyPassword
    | UnsupportedHmacAlg(hmacAlg: string)
    | UnsupportedDigestAlg(alg: string)

  datatype Result = Ok(equal: bool) | Err(error: CryptError)

  /** `guessAlg(s)`: the algorithm whose hex digest has the length of `s`,
      or `""`. */
  function GuessAlg(s: string): string
  {
    if |s| in DigestAlgBySize then DigestAlgBySize[|s|] else ""
  }

  function HexDigit(n: nat): char
    requires n < 16
  {
    if n < 10 then ('0' as int + n) as char else ('a' as int + n - 10) as char
  }

  /** `hex.EncodeToString`: two lowercase hex digits per byte. */
  function Hex(b: seq<byte>): (r: string)
    ensures |r| == 2 * |b|
    ensures forall k :: 0 <= k < |r| ==> ('0' <= r[k] <= '9') || ('a' <= r[k] <= 'f')
  {
    if |b| == 0 then ""
    else [HexDigit(b[0] as nat / 16), HexDigit(b[0] as nat % 16)] + Hex(b[1..])
  }

  /** Digits `2k` and `2k + 1` of the encoding are the high and the low
      nibble of byte `k`. */
  lemma {:induction false} HexAt(b: seq<byte>, k: nat)
    requires k < |b|
    ensures Hex(b)[2 * k] == HexDigit(b[k] as nat / 16)
    ensures Hex(b)[2 * k + 1] == HexDigit(b[k] as nat % 16)
    decreases k
  {
    if k > 0 {
      HexAt(b[1..], k - 1);
    }
  }

  lemma HexDigitInjective(m: nat, n: nat)
    requires m < 16 && n < 16 && HexDigit(m) == HexDigit(n)
    ensures m == n
  {
  }

  /** Different digests have different encodings, so comparing hex strings
      compares the digests. */
  lemma HexInjective(a: seq<byte>, b: seq<byte>)
    requires Hex(a) == Hex(b)
    ensures a == b
  {
    assert |a| == |b|;
    forall k | 0 <= k < |a|
      ensures a[k] == b[k]
    {
      HexAt(a, k);
      HexAt(b, k);
      HexDigitInjective(a[k] as nat / 16, b[k] as nat / 16);
      HexDigitInjective(a[k] as nat % 16, b[k] as nat % 16);
    }
  }

  /** The parts of a stored hash: algorithm, salt and the prefix that comes
      before the hex digest. */
  datatype Stored = Stored(alg: string, salt: string, prefix: string)

  /** Split at the first two `$` (the digest part may hold more). */
  function ParseStored(stored: string): Stored
  {
    var l := SplitN(stored, '$', 3);
    if |l| == 3 then Stored(l[0], l[1], l[0] + "$" + l[1] + "$")
    else if |l| == 2 then Stored(l[0], "", l[0] + "$")
    else Stored(GuessAlg(l[0]), "", "")
  }

  /** The digest `IsEqual` computes for password `s`. */
  function Digest(c: Crypt, p: Primitives, s: string, st: Stored): Option<seq<byte>>
  {
    if c.hmacKey != "" then
      if c.hmacAlg == "sha512" then Some(p.hmacSha512(c.hmacKey + st.salt, s)) else None
    else if KnownAlg(st.alg) then Some(p.digest(st.alg, s + st.salt))
    else None
  }

  /** `Crypt.IsEqual(s, stored)`. */
  function IsEqual(c: Crypt, p: Primitives, s: string, stored: string): Result
  {
    if stored == "" then Err(EmptyPassword)
    else
      var st := ParseStored(stored);
      if c.hmacKey != "" && c.hmacAlg != "sha512" then Err(UnsupportedHmacAlg(c.hmacAlg))
      else if c.hmacKey == "" && !KnownAlg(st.alg) then Err(UnsupportedDigestAlg(st.alg))
      else
        var d := Digest(c, p, s, st);
        Ok(st.prefix + Hex(d.value) == stored)
  }

  // -----------------------------------------------------------------------
  // Lemmas

  /** Each size key is twice the byte size of the digest it names, so a hex
      digest of a known algorithm is recognised by its length; other
      lengths name no algorithm. */
  lemma GuessAlgOfDigestLength(alg: string)
    requires KnownAlg(alg)
    ensures 2 * DigestSize(alg) in DigestAlgBySize && DigestAlgBySize[2 * DigestSize(alg)] == alg
  {
  }

  lemma GuessAlgUnknown(s: string)
    requires |s| !in {32, 40, 56, 64, 96, 128}
    ensures GuessAlg(s) == ""
  {
  }

  /** The error cases: an empty stored string, an HMAC algorithm other than
      `sha512` when an HMAC key is set, and otherwise an algorithm outside
      the six known ones. */
  lemma IsEqualErrors(c: Crypt, p: Primitives, s: string, stored: string)
    ensures stored == "" ==> IsEqual(c, p, s, stored) == Err(EmptyPassword)
    ensures stored != "" && c.hmacKey != "" && c.hmacAlg != "sha512" ==>
      IsEqual(c, p, s, stored) == Err(UnsupportedHmacAlg(c.hmacAlg))
    ensures stored != "" && c.hmacKey == "" && !KnownAlg(ParseStored(stored).alg) ==>
      IsEqual(c, p, s, stored) == Err(UnsupportedDigestAlg(ParseStored(stored).alg))
    ensures IsEqual(c, p, s, stored).Err? ==>
      stored == "" || (c.hmacKey != "" && c.hmacAlg != "sha512")
      || (c.hmacKey == "" && !KnownAlg(ParseStored(stored).alg))
  {
  }

  /** A positive answer means the stored string is its prefix followed by
      exactly the hex digits of a digest of the expected size. */
  lemma IsEqualTrueShape(c: Crypt, p: Primitives, s: string, stored: string)
    requires WellSized(p)
    requires IsEqual(c, p, s, stored) == Ok(true)
    ensures var st := ParseStored(stored);
      |stored| >= |st.prefix| && stored[..|st.prefix|] == st.prefix
      && |stored| - |st.prefix| == 2 * (if c.hmacKey != "" then 64 else DigestSize(st.alg))
  {
    var st := ParseStored(stored);
    var d := Digest(c, p, s, st);
    assert d.Some? && st.prefix + Hex(d.value) == stored;
    DigestSized(c, p, s, st);
    PrefixSplit(st.prefix, Hex(d.value), stored);
  }

  /** The digest `IsEqual` compares has the size of its algorithm. */
  lemma DigestSized(c: Crypt, p: Primitives, s: string, st: Stored)
    requires WellSized(p)
    requires Digest(c, p, s, st).Some?
    ensures |Digest(c, p, s, st).value| == if c.hmacKey != "" then 64 else DigestSize(st.alg)
  {
  }

  lemma PrefixSplit(prefix: string, rest: string, s: string)
    requires prefix + rest == s
    ensures |s| >= |prefix| && s[..|prefix|] == prefix && |s| - |prefix| == |rest|
  {
    assert s[..|prefix|] == (prefix + rest)[..|prefix|];
  }

  lemma ParseSalted(alg: string, salt: string, rest: string)
    requires '$' !in alg && '$' !in salt
    ensures ParseStored(alg + "$" + salt + "$" + rest) == Stored(alg, salt, alg + "$" + salt + "$")
  {
    var tail := salt + "$" + rest;
    assert alg + "$" + salt + "$" + rest == alg + ['$'] + tail;
    SplitNAfter(alg, '$', tail, 3);
    assert tail == salt + ['$'] + rest;
    SplitNAfter(salt, '$', rest, 2);
    assert SplitN(rest, '$', 1) == [rest];
  }

  /** A hash produced the web2py way (`alg$salt$hex(digest(password +
      salt))`) is accepted for its own password. */
  lemma SaltedRoundTrip(p: Primitives, alg: string, salt: string, s: string)
    requires KnownAlg(alg) && '$' !in salt
    ensures var stored := alg + "$" + salt + "$" + Hex(p.digest(alg, s + salt));
      IsEqual(Crypt("", ""), p, s, stored) == Ok(true)
  {
    assert '$' !in alg;
    ParseSalted(alg, salt, Hex(p.digest(alg, s + salt)));
  }

  /** With an HMAC key and `sha512`, the stored algorithm is ignored and the
      key followed by the salt is the HMAC secret. */
  lemma HmacRoundTrip(p: Primitives, key: string, alg: string, salt: string, s: string)
    requires key != "" && '$' !in alg && '$' !in salt
    ensures var stored := alg + "$" + salt + "$" + Hex(p.hmacSha512(key + salt, s));
      IsEqual(Crypt(key, "sha512"), p, s, stored) == Ok(true)
  {
    ParseSalted(alg, salt, Hex(p.hmacSha512(key + salt, s)));
  }

  /** A bare unsalted hex digest is accepted: its length gives back the
      algorithm it was computed with. */
  lemma UnsaltedRoundTrip(p: Primitives, alg: string, s: string)
    requires WellSized(p) && KnownAlg(alg)
    ensures IsEqual(Crypt("", ""), p, s, Hex(p.digest(alg, s))) == Ok(true)
  {
    var h := Hex(p.digest(alg, s));
    GuessAlgOfDigestLength(alg);
    assert |h| == 2 * DigestSize(alg);
    assert '$' !in h;
    SplitNoDollar(h);
    assert ParseStored(h) == Stored(alg, "", "");
    assert s + "" == s;
  }

  /** A hash stored without a salt but with its algorithm (`alg$hex(digest(password))`)
      is accepted for its own password. */
  lemma TwoPartRoundTrip(p: Primitives, alg: string, s: string)
    requires KnownAlg(alg)
    ensures IsEqual(Crypt("", ""), p, s, alg + "$" + Hex(p.digest(alg, s))) == Ok(true)
  {
    var h := Hex(p.digest(alg, s));
    assert '$' !in alg;
    assert '$' !in h;
    assert alg + "$" + h == alg + ['$'] + h;
    SplitNAfter(alg, '$', h, 3);
    SplitNoDollar(h);
    assert SplitN(h, '$', 2) == [h];
    assert ParseStored(alg + "$" + h) == Stored(alg, "", alg + "$");
    assert s + "" == s;
  }

  lemma SplitNoDollar(h: string)
    requires '$' !in h
    ensures SplitN(h, '$', 3) == [h]
  {
  }
}
